=== FILE: README.md ===
# Crynn browser core — a Dafny model

A model, with proofs, of the decision logic of the Crynn browser. Its parts:

- **Storage.** The byte-budgeted resource cache, the history, cookie and bookmark tables, and the storage facade.
- **Mail.** The mail cache, the e-mail client that sits in front of it, and the OAuth token manager.
- **Address bar.** URL normalisation, validation and search-query detection.
- **Network.** Certificate pinning and the URL security policy, plus the network manager's DNS cache, proxy choice and protocol choice.
- **Memory.** The memory profiler's snapshot ring, budget report and optimisation advice, and the shell's budget-compliance verdict.
- **VPN.** The VPN manager's connection state machine and its configuration builders.

Every SQLite table is a sequence of rows with a key-uniqueness invariant. Every external effect is a parameter holding the answer it would give: the process table, the clock, a provider's or token endpoint's reply, a DNS lookup, `Url::parse`. Everything else is pure functions over immutable datatypes.

Module layout:

| file | module | models |
|---|---|---|
| wrappers.dfy | `Wrappers` | `Option`, `Result` |
| strings.dfy | `Strings` | the `str` operations the code relies on: `contains`, `starts_with`, ASCII lower-casing, integer display, UTF-8 length |
| rows.dfy | `Rows` | key lookup, `DELETE … WHERE`, `INSERT OR REPLACE`, `ORDER BY … LIMIT k` eviction |
| storage.dfy | `Storage` | crates/storage/src/lib.rs |
| sql_like.dfy | `SqlLike` | SQLite's `LIKE` with `%` and `_` |
| email_cache.dfy | `EmailCache` | crates/email/src/cache.rs |
| email_client.dfy | `EmailClient` | crates/email/src/lib.rs |
| auth.dfy | `Auth` | crates/email/src/auth.rs |
| urls.dfy | `Urls` | the parsed URL record and the parser type |
| url_utils.dfy | `UrlUtils` | crates/shell/src/url_utils.rs |
| security.dfy | `Security` | crates/network/src/security.rs |
| network.dfy | `Network` | crates/network/src/lib.rs |
| memory_profiler.dfy | `MemoryProfiler` | crates/memory_profiler/src/lib.rs |
| memory_manager.dfy | `MemoryManager` | crates/shell/src/memory.rs |
| vpn_config.dfy | `VpnSettings` | crates/vpn/src/config.rs |
| vpn.dfy | `Vpn` | crates/vpn/src/lib.rs |

### What the code does, where a reader might expect otherwise

- **Cookies, history and bookmarks.** The three managers only create their tables, count rows and clean up. There is no cookie `set`/`get`, no history `record_visit` and no bookmark `add`/`remove`/`list`, so only the clean-ups are modelled.
- **Unreadable blob.** When a cache row's blob file cannot be read, `get` returns the read error and the row stays (`Storage.Get`).
- **Blob files on expiry.** The expiry sweep deletes rows only and leaves their files behind (`Storage.SweepExpired`). Only size eviction removes files.
- **Aggregate size after cleanup.** Only the counter is brought within budget: it is reset to zero while the table may still hold more than the budget (`Storage.EnforceSizeLimits`, `Storage.SmallExcessOnlyResetsCounter`).
- **Eviction count.** Eviction deletes `excess / 1024` rows, which may be more or fewer than needed to fit.
- **Mail foreign keys.** `email_bodies` and `attachments` refer to `email_headers` by uid, and the driver enforces foreign keys. A body for a uid without a header row is refused, and a mail cleanup whose oldest headers still have bodies or attachments fails as a whole, leaving the counter over budget (`EmailCache.InsertBody`, `EmailCache.Cleanup`).
- **Partial cache cleanup.** The resource cache's cleanup runs one statement per evicted row, so a failure part-way leaves some rows and files gone and the counter not reset (`Storage.CacheCleanupFailing`).

## Model

| member | source | states |
|---|---|---|
| Storage.NewCache | crates/storage/src/lib.rs:173-205 | the budget is `max_size_mb` whole MiB and the counter starts at zero whatever rows the table already holds |
| Storage.EnforceSizeLimits | crates/storage/src/lib.rs:293-327 | within budget nothing changes. Over budget, `min(excess/1024, rows)` rows go, none of them accessed later than any kept row, and exactly their files are removed. The counter becomes 0 and URLs stay unique |
| Storage.Insert | crates/storage/src/lib.rs:245-268 | the blob is written, the row is upserted by URL with both timestamps `now`, and the counter grows by the payload length even when a row is replaced |
| Storage.Put | crates/storage/src/lib.rs:245-270 | with room in the budget: a row with the new data replaces any row for that URL, the blob is stored and the counter grows by the payload. Over budget: the counter ends at 0. URLs stay unique |
| Storage.GetSize | crates/storage/src/lib.rs:272-274 | the size reported is the running counter, not a sum over the rows |
| Storage.Get | crates/storage/src/lib.rs:207-243 | an absent URL gives `None` and changes nothing. An unreadable blob gives an error and changes nothing. Otherwise the stored entry is returned and only that row's access time becomes `now` |
| Storage.SweepExpired | crates/storage/src/lib.rs:277-285 | exactly the rows with `expires_at < now` are deleted; rows without expiry always stay, and files and counter are untouched |
| Storage.CacheCleanup | crates/storage/src/lib.rs:276-291 | no expired row survives. Within budget, every live row stays and the counter and files are unchanged; over budget, the counter becomes 0. Afterwards the counter is within budget |
| Storage.CacheCleanupIdempotent | crates/storage/src/lib.rs:276-327 | a second cleanup at the same instant changes nothing |
| Storage.SmallExcessOnlyResetsCounter | crates/storage/src/lib.rs:293-325 | over budget by less than 1 KiB, enforcement deletes no row yet zeroes the counter |
| Storage.CacheVictims | crates/storage/src/lib.rs:293-307 | within budget no row is selected; over budget `min(excess/1024, rows)` rows are |
| Storage.CacheStatements | crates/storage/src/lib.rs:276-327 | one statement within budget; over budget the sweep, the `SELECT` and one `DELETE` per selected row |
| Storage.CacheCleanupFailing | crates/storage/src/lib.rs:276-327 | a failing expiry `DELETE` changes nothing, a failing `SELECT` leaves the sweep done, and a failing `DELETE` of the j-th selected row leaves the rows before it deleted and the files of those and of row j removed. The counter is never reset and URLs stay unique |
| Storage.FailingCleanupIsPrefix | crates/storage/src/lib.rs:276-327 | a cleanup that fails part-way keeps every row and file the complete cleanup keeps, and holds only rows the cache held |
| Storage.PutThenGet | crates/storage/src/lib.rs:207-270 | with room in the budget, `get` returns exactly the content, content type, creation time and expiry that `put` stored |
| Storage.PutAllCounts | crates/storage/src/lib.rs:265-266 | while no `put` goes over budget, the counter grows by exactly the sum of the payload lengths |
| Storage.HistoryCleanup | crates/storage/src/lib.rs:423-435 | above the cap, `count - max_items` least recently visited rows are deleted, leaving exactly the cap; otherwise nothing changes |
| Storage.CookieCleanup | crates/storage/src/lib.rs:378-384 | exactly the cookies that expired before `now` are deleted; session cookies always survive |
| Storage.BookmarkCleanup | crates/storage/src/lib.rs:473-476 | bookmark cleanup deletes nothing |
| Storage.DefaultConfig | crates/storage/src/lib.rs:26-37 | a 100 MB cache, 10000 history items and 1000 bookmarks |
| Storage.StorageCleanup | crates/storage/src/lib.rs:142-147 | cache, then history, then cookies. The first failure is returned at once: earlier stores stay cleaned, a failing cache cleanup keeps what it had done up to its failing statement, and later stores are untouched. Bookmarks are never cleaned |
| Storage.StatsAsWritten | crates/storage/src/lib.rs:92-105 | statistics as written: the cache size in whole MiB, and the on-disk byte count stored unchanged in `total_size_mb` |
| Storage.TotalSizeIsBytes | crates/storage/src/lib.rs:104 | a 1 MiB footprint is reported as 1048576 in the megabyte field; the corrected statistics report 1 |
| Storage.GetStorageStats | crates/storage/src/lib.rs:92-105 | both sizes in whole MiB, rounded down, and the three counts are the table sizes |
| SqlLike.SurroundIsSubstring | crates/email/src/cache.rs:213-218 | for a query without `%` or `_`, `LIKE '%q%'` holds exactly when `q` occurs in the text, ignoring ASCII case |
| SqlLike.PercentMatchesAll | crates/email/src/cache.rs:213-218 | the pattern `%` matches every text, so an empty query finds every header |
| EmailCache.NewMailCache | crates/email/src/cache.rs:15-74 | over existing tables whose keys and foreign keys hold, the budget is `max_size_mb` whole MiB and the counter and the in-memory list start empty |
| EmailCache.Cleanup | crates/email/src/cache.rs:249-275 | within budget it succeeds and changes nothing. Over budget it fails exactly when one of the `min(excess/1024, rows)` headers with the earliest `cached_at` still has a body or attachment row, and then changes nothing. Otherwise exactly those headers go, the counter becomes 0, and none of them was referenced. Bodies, attachments and the in-memory list are untouched; keys and foreign keys still hold |
| EmailCache.EnforceSizeLimits | crates/email/src/cache.rs:277-283 | cleanup runs only when the counter exceeds the budget |
| EmailCache.EnforceIsCleanup | crates/email/src/cache.rs:249-283 | the two guards coincide, so enforcing the limit is the same as cleaning up |
| EmailCache.CleanupIdempotent | crates/email/src/cache.rs:249-275 | a successful cleanup leaves the counter within budget; either way a second cleanup has the same result and changes nothing more |
| EmailCache.DeleteKeepsValid | crates/email/src/cache.rs:256-268 | deleting header rows that no body or attachment refers to keeps both keys and both foreign keys |
| EmailCache.ReferencedHeadersBlockCleanup | crates/email/src/cache.rs:249-275 | over budget by at least 1 KiB, with a body or attachment for every header, cleanup fails and changes nothing |
| EmailCache.UnreferencedCleanupSucceeds | crates/email/src/cache.rs:249-275 | when no body or attachment refers to any header, cleanup never fails |
| EmailCache.GetMemoryUsage | crates/email/src/cache.rs:245-247 | the usage reported is the running counter |
| EmailCache.Latest | crates/email/src/cache.rs:79-97 | the header a batch leaves for a uid is its last one with that uid: none exactly when the uid is absent, otherwise one carrying the uid with no later header carrying it |
| EmailCache.WriteHeaders | crates/email/src/cache.rs:79-101 | after the upsert loop, each uid of the batch holds the batch's last header with that uid, stamped `now`; every other row is as it was; uids stay unique |
| EmailCache.WriteHeadersKeepsUids | crates/email/src/cache.rs:79-101 | every uid with a header row still has one after the batch, so the foreign keys stay satisfied |
| EmailCache.InsertHeaders | crates/email/src/cache.rs:76-108 | the counter grows by the sum of header sizes (replaced rows included) and the in-memory list is extended by exactly the batch, in order |
| EmailCache.StoreHeaders | crates/email/src/cache.rs:76-114 | the batch is written and the in-memory list extended. Within budget the call succeeds with the counter grown by the header sizes. Over budget a successful cleanup zeroes the counter; a failing one returns its error with the batch committed and the counter over budget |
| EmailCache.LastDuplicateWins | crates/email/src/cache.rs:79-101 | of two headers with one uid in a batch, only the second is stored |
| EmailCache.InsertBody | crates/email/src/cache.rs:116-155 | refused, changing nothing, exactly when the uid has no header row. Otherwise the body row is upserted by uid, the attachment rows are appended, and only attachment sizes are added to the counter |
| EmailCache.StoreBody | crates/email/src/cache.rs:116-160 | a refused insert is returned and nothing changes. Otherwise the rows are committed and the budget enforced; bodies and attachments are the inserted ones whatever the cleanup returns |
| EmailCache.AttachmentRowsRoundTrip | crates/email/src/cache.rs:135-150 | attachment rows written for a uid read back as exactly the attachments given |
| EmailCache.GetBody | crates/email/src/cache.rs:162-206 | `None` exactly when no body row has the uid; otherwise the stored content and type with every attachment row of that uid, in table order |
| EmailCache.StoreBodyThenGet | crates/email/src/cache.rs:116-206 | for a uid with a header row, a stored body reads back with its content, and its attachments come after the uid's earlier attachment rows, whatever the budget and the cleanup's result |
| EmailCache.StoreBodyRoundTrip | crates/email/src/cache.rs:116-206 | for a uid with a header row and no earlier attachment rows, `get_body` after `store_body` returns the body unchanged |
| EmailCache.StoreBodyTwiceRepeatsAttachments | crates/email/src/cache.rs:135-150 | for a uid with a header row, storing one body twice makes each of its attachments read back twice |
| EmailCache.StoreBodyWithoutHeader | crates/email/src/cache.rs:116-206 | without a header row for the uid, `store_body` fails, nothing changes, and the uid still reads back as no body |
| EmailCache.StoreBodyKeepsOwned | crates/email/src/cache.rs:116-160 | if every attachment row belonged to a uid with a body, it still does after `store_body` |
| EmailCache.SortByDate | crates/email/src/cache.rs:213 | the result is in descending date order and is a permutation of the input |
| EmailCache.SearchHeaders | crates/email/src/cache.rs:208-243 | newest first; a header is listed exactly when a stored row holds it and matches the query; each stored row is listed once |
| EmailCache.SearchPlainQuery | crates/email/src/cache.rs:208-221 | for a wildcard-free query, a header is found exactly when the query occurs, ignoring ASCII case, in its subject, sender or recipient |
| EmailClient.New | crates/email/src/lib.rs:106-141 | over whatever rows the database file already holds (keys and foreign keys satisfied), the cache starts with a zero counter and an empty list, and exactly the configured provider is registered |
| EmailClient.SyncHeaders | crates/email/src/lib.rs:154-165 | a missing provider or a failed fetch is an error and leaves the cache alone. Otherwise the headers are stored, and returned unchanged unless the store fails, whose error is returned with the store's effects kept |
| EmailClient.FetchBody | crates/email/src/lib.rs:167-184 | a cached body is returned without asking the provider. On a miss the provider's body is stored and returned, unless the store fails, whose error is returned with the cache as the store left it. Provider errors are passed on; the client invariant and attachment ownership are kept |
| EmailClient.HitIgnoresProvider | crates/email/src/lib.rs:167-173 | on a hit, the provider's answer and the clock make no difference |
| EmailClient.MissThenHit | crates/email/src/lib.rs:167-184 | after a miss for a uid with a header row, answered with the body, the next fetch is a hit with the body's content and the uid's earlier attachment rows before its own, which is the body itself when every attachment row has a body. The miss succeeds when the attachments fit the budget |
| EmailClient.MissWithoutHeaderFails | crates/email/src/lib.rs:167-184 | a miss for a uid without a header row returns the cache's foreign-key error and changes nothing |
| EmailClient.NoMissingProvider | crates/email/src/lib.rs:106-184 | a client built by `new` never reports a missing provider |
| EmailClient.SearchEmails | crates/email/src/lib.rs:195-197 | the cache's search: newest first, exactly the stored matching headers |
| EmailClient.CleanupCache | crates/email/src/lib.rs:203-205 | succeeds exactly when the cache's cleanup does; a failure changes nothing and a success leaves the counter within budget |
| EmailClient.EnforceMemoryLimits | crates/email/src/lib.rs:210-220 | within `cache_size_mb` MiB it succeeds and changes nothing; above, it is `cleanup_cache`, whose error is passed on |
| EmailClient.EnforceMemoryIsCleanup | crates/email/src/lib.rs:210-220 | for a client built by `new`, enforcing the limit is `cleanup_cache`: it succeeds exactly when cleanup does, success leaves the counter within budget, and failure changes nothing |
| Auth.New | crates/email/src/auth.rs:39-44 | no tokens and no clients |
| Auth.RegisterGmail | crates/email/src/auth.rs:46-56 | the Google endpoints, and no device-authorisation endpoint, are stored under `gmail`, replacing an earlier registration; other clients and all tokens are unchanged |
| Auth.RegisterOutlook | crates/email/src/auth.rs:58-68 | the Microsoft endpoints are stored under `outlook`; nothing else changes |
| Auth.RegisterYahoo | crates/email/src/auth.rs:70-80 | the Yahoo endpoints are stored under `yahoo`; nothing else changes |
| Auth.StoreToken | crates/email/src/auth.rs:124-126 | the provider now holds exactly the given token, inserted or replacing an earlier one; other tokens and the clients are unchanged |
| Auth.GetToken | crates/email/src/auth.rs:128-130 | `Some` exactly for a provider with a stored token, and then that token |
| Auth.StoreThenGet | crates/email/src/auth.rs:124-130 | a stored token reads back; other providers read as before |
| Auth.StoreOverwrites | crates/email/src/auth.rs:124-126 | a second store for the same provider replaces the first |
| Auth.IsTokenExpired | crates/email/src/auth.rs:158-165 | true exactly when the provider has a token with an expiry instant that the clock has reached |
| Auth.ExpiryIsMonotone | crates/email/src/auth.rs:158-165 | an expired token stays expired as time advances |
| Auth.TokenFrom | crates/email/src/auth.rs:111-120 | the expiry is issue time plus `expires_in`; the scopes are joined with spaces |
| Auth.FreshTokenNotExpired | crates/email/src/auth.rs:111-120 | a token with positive lifetime is not expired when issued |
| Auth.RefreshToken | crates/email/src/auth.rs:132-156 | fails without a client or stored token, then without a refresh token; otherwise succeeds exactly when the exchange does, with the token built from its answer |
| Auth.StartDeviceFlow | crates/email/src/auth.rs:82-100 | an unregistered provider is refused. A client without a device-authorisation endpoint fails with a configuration error before any request. Otherwise the endpoint's answer becomes a device-code flow |
| Auth.RegisteredDeviceFlowFails | crates/email/src/auth.rs:46-100 | as written, the device flow of every provider registered by `register_*` fails whatever the endpoint would answer, and a new manager refuses every provider |
| Auth.RegisterGmailWithDevice | crates/email/src/auth.rs:46-56 | the Google endpoints and the given device-authorisation endpoint are stored under `gmail`; nothing else changes |
| Auth.CompleteDeviceFlow | crates/email/src/auth.rs:102-122 | an unregistered provider is refused; otherwise the exchange's answer becomes the token |
| Auth.RegistrationEnablesDeviceFlow | crates/email/src/auth.rs:39-100 | a new manager refuses every provider; once Gmail is registered with a device-authorisation endpoint, its device flow succeeds exactly when the endpoint answers |
| UrlUtils.Trim | crates/shell/src/url_utils.rs:10 | the result is the input with its leading and trailing whitespace removed: a slice of the input with only whitespace outside it and none at its ends. It is empty exactly when the input is all whitespace |
| UrlUtils.TrimIdempotent | crates/shell/src/url_utils.rs:10 | trimming twice is trimming once |
| UrlUtils.SearchTestIsNoDot | crates/shell/src/url_utils.rs:26-32 | because `is_domain_like` demands a dot, the search test is just "no dot" |
| UrlUtils.ExtractSearchQuery | crates/shell/src/url_utils.rs:143-158 | a returned query is the trimmed input, and input with `://` is never a query |
| UrlUtils.ExtractIgnoresDomainTest | crates/shell/src/url_utils.rs:143-158 | the input is a query exactly when it has no `://` and either has a space, or has no dot and is not `about:` |
| UrlUtils.Candidate | crates/shell/src/url_utils.rs:26-36 | `https://` is prefixed exactly when the trimmed input has no `://` |
| UrlUtils.KeptPort | crates/shell/src/url_utils.rs:61-66 | a port is kept exactly when present and not the scheme's default |
| UrlUtils.NormalizePath | crates/shell/src/url_utils.rs:69-72 | a path longer than one byte ending in `/` loses all trailing slashes and nothing else; any other path is unchanged |
| UrlUtils.PathLengthInChars | crates/shell/src/url_utils.rs:70 | for a path ending in `/`, "longer than one byte" means "longer than one character" |
| UrlUtils.NormalizeParsed | crates/shell/src/url_utils.rs:42-96 | javascript and file have their own errors, other schemes outside the whitelist are unsupported, and an allowed scheme yields the reparsed serialisation |
| UrlUtils.NormalizeTrimmed | crates/shell/src/url_utils.rs:12-96 | empty is an error, `about:` passes unchanged, dot-free text without a scheme is a search query, and success means the serialisation of the rebuilt address |
| UrlUtils.NormalizeUrl | crates/shell/src/url_utils.rs:9-97 | the same, stated for the untrimmed input |
| UrlUtils.BareDomainNormalized | crates/shell/src/url_utils.rs:26-96 | dotted text without a scheme gets `https://` and, with an allowed scheme, yields the rebuilt serialisation |
| UrlUtils.SchemeWhitelist | crates/shell/src/url_utils.rs:42-54 | once the address has been parsed, a javascript scheme and a file scheme each get their own error, and any scheme outside http, https, about and data is unsupported |
| UrlUtils.DefaultPortDropped | crates/shell/src/url_utils.rs:61-90 | an explicit default port leaves no trace in the rebuilt string |
| UrlUtils.OtherPortKept | crates/shell/src/url_utils.rs:61-90 | any other port is written after the host |
| UrlUtils.ExampleDomain | crates/shell/src/url_utils.rs:171-175 | `example.com` becomes `https://example.com/` with a parser that behaves as the `url` crate does |
| UrlUtils.JavascriptInputIsSearch | crates/shell/src/url_utils.rs:183-186 | `javascript:alert('xss')` is refused, whatever the parser does |
| UrlUtils.ExtractExamples | crates/shell/src/url_utils.rs:188-192 | `test query` is a search query and `example.com` is not |
| UrlUtils.DottedWordIsNoQuery | crates/shell/src/url_utils.rs:143-158 | dotted text without spaces is never a search query |
| UrlUtils.SearchQueriesAgree | crates/shell/src/url_utils.rs:26-158 | whenever `normalize_url` reports a search query, `extract_search_query` returns the trimmed input |
| UrlUtils.ValidateUrl | crates/shell/src/url_utils.rs:107-140 | accepted exactly when the URL parses and is http(s) with a host, or is data and not flagged as too large |
| Security.BytesEqual | crates/network/src/security.rs:92 | certificate comparison is byte-for-byte equality |
| Security.Verify | crates/network/src/security.rs:85-101 | with no pins every chain passes. Otherwise `Ok(true)` exactly when some certificate is pinned, an error when none is, and never `Ok(false)` |
| Security.DefaultPolicy | crates/network/src/security.rs:111-120 | TLS required, mixed content blocked, HSTS enforced, no pinning |
| Security.CheckUrlSecurity | crates/network/src/security.rs:123-143 | https, data and about pass; http passes exactly when TLS is not required; anything else fails |
| Security.CheckMixedContent | crates/network/src/security.rs:146-153 | fails exactly for an http resource on an https page |
| Security.TlsPolicyExcludesMixedContent | crates/network/src/security.rs:123-153 | under a TLS-requiring policy, an accepted resource is never mixed content |
| Security.DefaultPolicyOutcomes | crates/network/src/security.rs:160-179 | under the default policy, http is blocked and https passes |
| Network.DefaultConfig | crates/network/src/lib.rs:26-38 | the default user agent and timeout, 10 redirects, HTTP/2 on, HTTP/3 off, a 1000-entry DNS cache, no proxy |
| Network.NewResolver | crates/network/src/lib.rs:305-310 | an empty DNS cache with the given capacity |
| Network.Resolve | crates/network/src/lib.rs:312-343 | with the lookup as intended (one that accepts a bare host): no host is an error and a fresh entry answers without lookup. A successful lookup is cached for 300 s, after emptying a full cache; a failed one changes nothing. The size bound is kept |
| Network.HitIgnoresLookup | crates/network/src/lib.rs:318-325 | a fresh hit never consults the lookup |
| Network.CachedForTtl | crates/network/src/lib.rs:318-341 | with that lookup, a resolved address is reused for exactly the next 300 seconds |
| Network.ResolveHostnameAsWritten | crates/network/src/lib.rs:345-351 | `lookup_host` on the host alone: without a `:` it fails with "invalid socket address"; when the text after the last `:` is not a port as `u16::from_str` reads it (one optional `+`, then decimal digits below 65536) it fails with "invalid port value"; only a text naming a port reaches the resolver |
| Network.SignedPortReachesLookup | crates/network/src/lib.rs:345-351 | `h:+80` names a port and reaches the resolver, while `h:+` fails with "invalid port value" |
| Network.ResolveAsWritten | crates/network/src/lib.rs:312-351 | with that lookup, a host without a port is answered only from a fresh cache entry and never changes the cache |
| Network.PortlessLookupAlwaysFails | crates/network/src/lib.rs:312-351 | a new resolver never resolves or caches a host without `:`, whatever the system resolver would say |
| Network.BracketedIpv6LookupFails | crates/network/src/lib.rs:312-351 | nor the bracketed IPv6 host `[::1]` that `host_str()` gives |
| Network.ClearCache | crates/network/src/lib.rs:354-357 | the cache is emptied and its capacity kept |
| Network.GetCacheSize | crates/network/src/lib.rs:359-362 | the number of cached hosts |
| Network.ClearForcesLookup | crates/network/src/lib.rs:354-362 | after a clear the size is zero and the next resolution must look up |
| Network.GetProxy | crates/network/src/lib.rs:379-389 | no configuration gives no proxy; https uses the https proxy, every other scheme the http one |
| Network.Socks5NeverChosen | crates/network/src/lib.rs:379-389 | a configuration with only a SOCKS5 proxy yields no proxy for any URL |
| Network.NewManager | crates/network/src/lib.rs:82-129 | a rejected http proxy URL is reported first, then a rejected https one, then a failed client build; `new` succeeds exactly when neither proxy URL is rejected and the build succeeds, and then HTTP/2 and HTTP/3 clients exist exactly when enabled and the resolver and proxy come from the configuration |
| Network.SelectProtocolWith | crates/network/src/lib.rs:145-162 | HTTP/3 if enabled, present and supported, else HTTP/2 likewise, else HTTP/1.1 |
| Network.SelectProtocol | crates/network/src/lib.rs:145-174 | with the probes as written, HTTP/3 is never chosen and HTTP/2 is chosen exactly when enabled and present |
| Network.ProtocolFromConfig | crates/network/src/lib.rs:26-174 | a manager that `new` builds uses HTTP/2 exactly when it is enabled; the default configuration, which names no proxy, builds whenever the client does, and then uses HTTP/2 |
| MemoryProfiler.DefaultBudget | crates/memory_profiler/src/lib.rs:35-45 | 80, 120, 450, 40 and 10 MB |
| MemoryProfiler.New | crates/memory_profiler/src/lib.rs:55-65 | no snapshots, the default budget, the given process name |
| MemoryProfiler.Clone | crates/memory_profiler/src/lib.rs:202-211 | budget and name carry over, the snapshot history does not |
| MemoryProfiler.CloneIsFresh | crates/memory_profiler/src/lib.rs:202-211 | a clone of a default profiler equals a new one; cloning twice is cloning once |
| MemoryProfiler.InfoOf | crates/memory_profiler/src/lib.rs:73-80 | pid, name and memory figures are copied and the thread count is always 1 |
| MemoryProfiler.ProcessKeyInjective | crates/memory_profiler/src/lib.rs:82 | the `name:pid` key determines name and pid |
| MemoryProfiler.ProcessMap | crates/memory_profiler/src/lib.rs:70-83 | the snapshot has one entry per key that occurs in the process table, each filed under its own key |
| MemoryProfiler.SnapshotListsEveryProcess | crates/memory_profiler/src/lib.rs:70-83 | with distinct pids, every process appears under its own key with its own figures |
| MemoryProfiler.Retain | crates/memory_profiler/src/lib.rs:93-101 | the new snapshot is last and the result is a suffix of old-plus-new. It never exceeds 100, and it grows exactly when fewer than 100 were held |
| MemoryProfiler.TakeSnapshot | crates/memory_profiler/src/lib.rs:67-104 | the returned snapshot carries the clock, the system totals and the process map, and is the one retained |
| MemoryProfiler.LastHundredKept | crates/memory_profiler/src/lib.rs:93-101 | after any run of snapshots, exactly the last 100 seen are held, oldest first |
| MemoryProfiler.GetProcessMemory | crates/memory_profiler/src/lib.rs:106-125 | exactly the processes whose name contains the text, as process records |
| MemoryProfiler.MatchingCounts | crates/memory_profiler/src/lib.rs:111-112 | each process whose name contains the text occurs in the matching list as often as in the table, every other not at all |
| MemoryProfiler.ProcessMemoryIsMatching | crates/memory_profiler/src/lib.rs:106-125 | one record per matching process, in table order, so `process_count` is the number of matching processes |
| MemoryProfiler.EmptyNameMatchesAll | crates/memory_profiler/src/lib.rs:111-112 | an empty name matches every process |
| MemoryProfiler.MonitorBudget | crates/memory_profiler/src/lib.rs:127-160 | the totals in whole MiB, rounded down, and the number of matching processes. A cold-start violation fires exactly when the byte total exceeds its budget, an idle-tab violation likewise, in that order |
| MemoryProfiler.IdleImpliesColdByDefault | crates/memory_profiler/src/lib.rs:35-150 | under the default budget, an idle-tab violation always comes with a cold-start one |
| MemoryProfiler.SuggestFor | crates/memory_profiler/src/lib.rs:253-280 | High exactly when there are violations, "Virtual Memory" exactly when virtual exceeds 3× resident, "Process Count" exactly when more than 10 processes, in that order and nothing else |
| MemoryProfiler.SuggestOptimizations | crates/memory_profiler/src/lib.rs:243-281 | with a fresh profiler: the budget suggestion exactly when resident memory exceeds 80 MiB, the virtual-memory suggestion exactly when virtual MiB exceed three times resident MiB, and the process-count suggestion exactly when more than ten processes match. Nothing else, in that order |
| MemoryManager.New | crates/shell/src/memory.rs:10-15 | a fresh profiler for the name and the default budget |
| MemoryManager.Evaluate | crates/shell/src/memory.rs:50-83 | each budget strictly exceeded gives one violation with fixed severity, cold start then idle tab then ten tabs. Compliant exactly when there is none, and the usage is the report's |
| MemoryManager.CheckBudgetCompliance | crates/shell/src/memory.rs:47-84 | compliant exactly when the report's rounded megabytes are within all three budgets; usage is the report's `total_rss_mb` |
| MemoryManager.DefaultViolationsArePrefix | crates/shell/src/memory.rs:10-77 | under the default budget the violations are a prefix of cold start, idle tab, ten tabs, and compliance means at most 80 MB |
| MemoryManager.VerdictLagsReport | crates/shell/src/memory.rs:52-59 | the report flags any byte over 80 MiB, while the verdict is compliant below 81 MiB |
| VpnSettings.Default | crates/vpn/src/config.rs:15-30 | all three providers on, kill switch and auto-connect off, no preferred provider, the file at `<config dir or .>/crynn/vpn.json` |
| VpnSettings.WithSurfshark | crates/vpn/src/config.rs:57-60 | sets that flag and nothing else |
| VpnSettings.WithNordvpn | crates/vpn/src/config.rs:62-65 | sets that flag and nothing else |
| VpnSettings.WithProtonvpn | crates/vpn/src/config.rs:67-70 | sets that flag and nothing else |
| VpnSettings.WithKillSwitch | crates/vpn/src/config.rs:72-75 | sets the kill switch and nothing else |
| VpnSettings.BuildersLastWins | crates/vpn/src/config.rs:57-75 | each builder is idempotent; the last call wins; setting the current value changes nothing |
| VpnSettings.BuildersCommute | crates/vpn/src/config.rs:57-70 | provider builders for different flags commute |
| VpnSettings.KillSwitchCommutes | crates/vpn/src/config.rs:57-75 | the kill-switch builder commutes with the provider builders |
| Vpn.New | crates/vpn/src/lib.rs:70-90 | exactly the enabled providers, no connection, no credentials |
| Vpn.DefaultHasAllProviders | crates/vpn/src/lib.rs:70-82 | the default configuration sets up all three providers |
| Vpn.SetCredentials | crates/vpn/src/lib.rs:92-96 | stored under their service, replacing earlier ones; other services and all else unchanged |
| Vpn.Disconnect | crates/vpn/src/lib.rs:131-140 | success leaves no connection. It fails exactly when the connection's provider refuses, and then nothing changes. Only the active connection ever changes |
| Vpn.DisconnectIdleIsNoOp | crates/vpn/src/lib.rs:131-140 | with no connection, nothing is asked and nothing changes |
| Vpn.Connect | crates/vpn/src/lib.rs:106-129 | disconnects first. Succeeds exactly when that works, the provider is set up, credentials exist and the provider agrees, and the new connection becomes active. Any later failure leaves no connection |
| Vpn.GetStatus | crates/vpn/src/lib.rs:142-145 | Disconnected when idle, otherwise the connection's status |
| Vpn.GetStats | crates/vpn/src/lib.rs:147-158 | none when idle or when the connection's provider is not set up; otherwise the provider's answer |
| Vpn.Cleanup | crates/vpn/src/lib.rs:185-188 | success leaves no connection and only the active connection changes |
| Vpn.CleanupIsDisconnect | crates/vpn/src/lib.rs:131-188 | cleanup equals disconnect, and after success the status is Disconnected and there are no stats |
| Vpn.ConnectThenStatus | crates/vpn/src/lib.rs:106-158 | after a successful connect the status and statistics come from the new connection |
| Vpn.CredentialsGateConnect | crates/vpn/src/lib.rs:92-128 | a new manager refuses a connect for lack of credentials; once they are set, the provider's consent suffices |

## Left out

- SQLite, migrations and transactions: tables are sequences of rows. A failing query is modelled only where the source's control flow depends on it (`Storage.StorageCleanup`, `Storage.Get`) and where a constraint makes it fail (the mail cache's foreign keys).
- The filesystem: blobs are a map from file name to bytes. `dir_size`, `get_total_size` and the database file size are the `diskBytes` parameter.
- MD5 file naming: the blob file name is the `file` parameter of `Storage.Put`.
- The order of `put`'s file write and row insert, and a failure between them.
- Wall-clock time: each call takes one `now`, where the source reads the clock separately for every timestamp it writes. RFC 3339 strings are compared as the natural numbers they denote.
- Integer widths: counters, sizes and sums are unbounded, so `usize`/`u64` overflow of the size counters, of `cold_start_mb * 1024 * 1024`, and of the process-memory sums is not modelled. Mail uids are `nat`, not `u32`.
- Tie order: SQLite's order for rows with equal `accessed_at`, `cached_at`, `last_visit` or `date` is not defined. Eviction is specified relationally (`Rows.OldestSplit`, `Rows.OldestRemoved`), and the search result keeps table order among equal dates.
- Concurrency: the locks and atomics, and interleavings between callers.
- Floating-point fields (`cpu_usage`, `server_load`, a location's `load`) are dropped.
- `Url::parse`, its host lower-casing and percent-encoding are the `parse` parameter. Rust's Unicode `char::is_alphanumeric` is the `alnum` parameter, and the lemmas hold for every choice.
- The e-mail and VPN providers, the OAuth token and device endpoints, and DNS resolution are answer parameters. `EmailClient::authenticate` and `send_email` only forward to the providers and are not modelled.
- The attachment table's autoincrement `id`: only a row's position is kept.
- `create_secure_client_config`, `request*`, `test_proxy`, the `supports_http*` probes beyond their constant answers, and the HTTP clients themselves. Whether `reqwest` accepts a proxy URL and whether the HTTP/1.1 client builds are the `accepts` and `builds` parameters of `Network.NewManager`.
- Memory reports: `start_monitoring`, `export_report` and JSON serialisation, `get_current_usage`, the kill-switch, DNS-leak and `get_memory_usage` stubs, and `list_locations`.
- `VpnConfig::load`/`save` (filesystem and JSON).
- Storage.Put: stated fully only when the payload fits the budget; over budget it states only that the counter ends at zero, because what the following eviction deletes is stated by `Storage.EnforceSizeLimits`.
- EmailCache.GetBody: requires the body table's primary key to be unique, which its `PRIMARY KEY` constraint guarantees, rather than modelling a table that violates it.
- EmailClient.FetchBody: requires the same key uniqueness of the cache.
- EmailClient.New: the database connection and the migrations are assumed to succeed, and their errors are not modelled. The existing rows are required to satisfy the tables' keys and foreign keys, as SQLite guarantees.
- The mail cache's foreign keys are modelled as the driver enforces them, which it does by default; a database opened with them switched off is not modelled.
- Auth.StartDeviceFlow: the two Gmail scopes (`gmail.readonly` and `gmail.send`) that every provider's device request carries are not modelled, because the endpoint's answer is a parameter.
- Auth.CompleteDeviceFlow: the call at auth.rs:104-105 passes a device code to `exchange_device_code`, which in oauth2 4.x takes none. It is modelled as the device access-token exchange whose answer is the `exchange` parameter.
- UrlUtils.ValidateUrl: the data-URL size limit is stated for a path beginning with `data:`, as written. The `url` crate keeps everything after `data:` as the path of such a cannot-be-a-base URL, so the check fires only for a data URL whose own body begins with `data:` (`data:data:…`), never for an ordinary `data:<type>,<payload>` URL.

## Findings

| source | as written | input that shows it | evidently intended | confidence | as-written member | corrected member |
|---|---|---|---|---|---|---|
| crates/storage/src/lib.rs:103 | `total_size_mb` is filled with `get_total_size()`, which returns a byte count | a store whose database and cache directory take 1 MiB reports `total_size_mb = 1048576` | the footprint in whole megabytes, like `cache_size_mb` beside it | high; not executed | Storage.StatsAsWritten | Storage.GetStorageStats |
| crates/email/src/auth.rs:46-100 | the `register_*` methods build each client with `BasicClient::new` alone, and `start_device_flow` then calls `exchange_device_code()` | any registered provider: in oauth2 4.x, `exchange_device_code()` returns a configuration error because no device-authorisation URL was set, before any request | the client is registered with its provider's device-authorisation URL, so the flow reaches the endpoint | medium; not executed | Auth.RegisteredDeviceFlowFails | Auth.RegistrationEnablesDeviceFlow |
| crates/network/src/lib.rs:345-351 | `resolve_hostname` calls `lookup_host(hostname)` with the bare host | `https://example.com/`: `lookup_host("example.com")` fails with "invalid socket address", because a `&str` target must carry a port | resolve the host with some port, as `lookup_host((hostname, 0))` does | medium; not executed | Network.PortlessLookupAlwaysFails | Network.Resolve |

=== FILE: auth.dfy ===
/** `AuthManager`: OAuth2 clients registered under fixed provider keys and
    a token store keyed by provider name. The token endpoints are not
    modelled: each exchange's response (or failure) is a parameter, and
    `now` is the clock reading used to turn `expires_in` into an instant. */
module Auth {
  import opened Wrappers
  import opened Strings

  datatype AuthToken = AuthToken(
    accessToken: string,
    refreshToken: Option<string>,
    expiresAt: Option<nat>,
    scope: Option<string>)

  /** A registered `BasicClient`: credentials, the two endpoints, and the
      device-authorisation endpoint, which `BasicClient::new` leaves unset
      and only `set_device_authorization_url` fills in. */
  datatype OAuthClient = OAuthClient(
    clientId: string,
    clientSecret: string,
    authUrl: string,
    tokenUrl: string,
    deviceAuthUrl: Option<string>)

  datatype AuthFlow =
    | DeviceCode(userCode: string, deviceCode: string, verificationUrl: string)
    | WebFlow(authUrl: string, state: string)
    | UsernamePassword(username: string, password: string)

  /** What a token endpoint answers: `expires_in` in seconds, and the
      granted scopes if the server lists them. */
  datatype TokenResponse = TokenResponse(
    accessToken: string,
    refreshToken: Option<string>,
    expiresIn: Option<nat>,
    scopes: Option<seq<string>>)

  /** What the device-authorisation endpoint answers. */
  datatype DeviceResponse = DeviceResponse(userCode: string, deviceCode: string, verificationUri: string)

  datatype AuthError =
    | ProviderNotRegistered(provider: string)
    | ProviderOrTokenNotFound
    | NoRefreshToken
    | ExchangeFailed(message: string)
    | DeviceAuthUrlMissing

  datatype AuthManager = AuthManager(tokens: map<string, AuthToken>, clients: map<string, OAuthClient>)

  const GmailAuthUrl := "https://accounts.google.com/o/oauth2/v2/auth"
  const GmailTokenUrl := "https://oauth2.googleapis.com/token"
  const OutlookAuthUrl := "https://login.microsoftonline.com/common/oauth2/v2.0/authorize"
  const OutlookTokenUrl := "https://login.microsoftonline.com/common/oauth2/v2.0/token"
  const YahooAuthUrl := "https://api.login.yahoo.com/oauth2/request_auth"
  const YahooTokenUrl := "https://api.login.yahoo.com/oauth2/get_token"

  function New(): (m: AuthManager)
    ensures |m.tokens| == 0 && |m.clients| == 0
  {
    AuthManager(map[], map[])
  }

  /** The three `register_*_client` methods: each stores a client with its
      provider's fixed endpoints, and no device-authorisation endpoint,
      under its fixed key, replacing an earlier registration under that key
      and leaving the others alone. */
  function RegisterGmail(m: AuthManager, clientId: string, clientSecret: string): (r: AuthManager)
    ensures r.clients.Keys == m.clients.Keys + {"gmail"}
    ensures r.clients["gmail"] == OAuthClient(clientId, clientSecret, GmailAuthUrl, GmailTokenUrl, None)
    ensures forall k :: k in m.clients && k != "gmail" ==> r.clients[k] == m.clients[k]
    ensures r.tokens == m.tokens
  {
    m.(clients := m.clients["gmail" := OAuthClient(clientId, clientSecret, GmailAuthUrl, GmailTokenUrl, None)])
  }

  function RegisterOutlook(m: AuthManager, clientId: string, clientSecret: string): (r: AuthManager)
    ensures r.clients.Keys == m.clients.Keys + {"outlook"}
    ensures r.clients["outlook"] == OAuthClient(clientId, clientSecret, OutlookAuthUrl, OutlookTokenUrl, None)
    ensures forall k :: k in m.clients && k != "outlook" ==> r.clients[k] == m.clients[k]
    ensures r.tokens == m.tokens
  {
    m.(clients := m.clients["outlook" := OAuthClient(clientId, clientSecret, OutlookAuthUrl, OutlookTokenUrl, None)])
  }

  function RegisterYahoo(m: AuthManager, clientId: string, clientSecret: string): (r: AuthManager)
    ensures r.clients.Keys == m.clients.Keys + {"yahoo"}
    ensures r.clients["yahoo"] == OAuthClient(clientId, clientSecret, YahooAuthUrl, YahooTokenUrl, None)
    ensures forall k :: k in m.clients && k != "yahoo" ==> r.clients[k] == m.clients[k]
    ensures r.tokens == m.tokens
  {
    m.(clients := m.clients["yahoo" := OAuthClient(clientId, clientSecret, YahooAuthUrl, YahooTokenUrl, None)])
  }

  /** `store_token`: inserts or replaces the provider's token. */
  function StoreToken(m: AuthManager, provider: string, token: AuthToken): (r: AuthManager)
    ensures r.tokens.Keys == m.tokens.Keys + {provider}
    ensures r.tokens[provider] == token
    ensures forall p :: p in m.tokens && p != provider ==> r.tokens[p] == m.tokens[p]
    ensures r.clients == m.clients
  {
    m.(tokens := m.tokens[provider := token])
  }

  function GetToken(m: AuthManager, provider: string): (r: Option<AuthToken>)
    ensures r.Some? <==> provider in m.tokens
    ensures r.Some? ==> r.value == m.tokens[provider]
  {
    if provider in m.tokens then Some(m.tokens[provider]) else None
  }

  /** A stored token is read back; other providers' tokens are unchanged. */
  lemma StoreThenGet(m: AuthManager, provider: string, token: AuthToken, other: string)
    ensures GetToken(StoreToken(m, provider, token), provider) == Some(token)
    ensures other != provider ==> GetToken(StoreToken(m, provider, token), other) == GetToken(m, other)
  {
  }

  /** A second `store_token` for the same provider overwrites the first. */
  lemma StoreOverwrites(m: AuthManager, provider: string, t1: AuthToken, t2: AuthToken)
    ensures StoreToken(StoreToken(m, provider, t1), provider, t2) == StoreToken(m, provider, t2)
  {
  }

  /** `is_token_expired`: true exactly when the provider has a token with an
      expiry instant and the clock has reached it. */
  function IsTokenExpired(m: AuthManager, provider: string, now: nat): (b: bool)
    ensures provider !in m.tokens ==> !b
    ensures provider in m.tokens && m.tokens[provider].expiresAt.None? ==> !b
    ensures b <==> exists t :: GetToken(m, provider) == Some(t) && t.expiresAt.Some? && now >= t.expiresAt.value
  {
    match GetToken(m, provider)
    case None => false
    case Some(t) =>
      match t.expiresAt
      case None => false
      case Some(e) => now >= e
  }

  /** Once expired, a token stays expired as the clock advances. */
  lemma ExpiryIsMonotone(m: AuthManager, provider: string, now: nat, later: nat)
    requires now <= later
    requires IsTokenExpired(m, provider, now)
    ensures IsTokenExpired(m, provider, later)
  {
  }

  /** Turns an endpoint response into the token the source returns: the
      expiry is `now + expires_in`, the scopes are joined with spaces. */
  function TokenFrom(resp: TokenResponse, now: nat): (t: AuthToken)
    ensures t.accessToken == resp.accessToken && t.refreshToken == resp.refreshToken
    ensures t.expiresAt.Some? <==> resp.expiresIn.Some?
    ensures resp.expiresIn.Some? ==> t.expiresAt.value - now == resp.expiresIn.value
    ensures t.scope.Some? <==> resp.scopes.Some?
    ensures resp.scopes.Some? ==> t.scope.value == Join(resp.scopes.value, " ")
  {
    AuthToken(
      resp.accessToken,
      resp.refreshToken,
      match resp.expiresIn case Some(d) => Some(now + d) case None => None,
      match resp.scopes case Some(ss) => Some(Join(ss, " ")) case None => None)
  }

  /** A token with a positive lifetime is not expired at the moment it is
      issued. */
  lemma FreshTokenNotExpired(m: AuthManager, provider: string, resp: TokenResponse, now: nat)
    requires resp.expiresIn.Some? && resp.expiresIn.value > 0
    ensures !IsTokenExpired(StoreToken(m, provider, TokenFrom(resp, now)), provider, now)
  {
  }

  /** `refresh_token`. Fails without a registered client or a stored token,
      and without a refresh token in the stored one; otherwise the
      exchange's answer decides. The new token is returned, not stored. */
  function RefreshToken(m: AuthManager, provider: string, exchange: Result<TokenResponse, string>, now: nat): (r: Result<AuthToken, AuthError>)
    ensures provider !in m.clients || provider !in m.tokens ==> r == Err(ProviderOrTokenNotFound)
    ensures provider in m.clients && provider in m.tokens && m.tokens[provider].refreshToken.None? ==>
              r == Err(NoRefreshToken)
    ensures r.Ok? <==>
              provider in m.clients && provider in m.tokens
              && m.tokens[provider].refreshToken.Some? && exchange.Ok?
    ensures r.Ok? ==> r.value == TokenFrom(exchange.value, now)
  {
    if provider !in m.clients || provider !in m.tokens then Err(ProviderOrTokenNotFound)
    else if m.tokens[provider].refreshToken.None? then Err(NoRefreshToken)
    else
      match exchange
      case Err(e) => Err(ExchangeFailed(e))
      case Ok(resp) => Ok(TokenFrom(resp, now))
  }

  /** `start_device_flow`. An unregistered provider is refused. For a
      registered one, `exchange_device_code()` fails with a configuration
      error before any request when the client has no device-authorisation
      endpoint; otherwise the endpoint's answer becomes a `DeviceCode`
      flow. */
  function StartDeviceFlow(m: AuthManager, provider: string, response: Result<DeviceResponse, string>): (r: Result<AuthFlow, AuthError>)
    ensures provider !in m.clients ==> r == Err(ProviderNotRegistered(provider))
    ensures provider in m.clients && m.clients[provider].deviceAuthUrl.None? ==> r == Err(DeviceAuthUrlMissing)
    ensures r.Ok? <==> provider in m.clients && m.clients[provider].deviceAuthUrl.Some? && response.Ok?
    ensures r.Ok? ==> r.value == DeviceCode(response.value.userCode, response.value.deviceCode, response.value.verificationUri)
  {
    if provider !in m.clients then Err(ProviderNotRegistered(provider))
    else if m.clients[provider].deviceAuthUrl.None? then Err(DeviceAuthUrlMissing)
    else
      match response
      case Err(e) => Err(ExchangeFailed(e))
      case Ok(d) => Ok(DeviceCode(d.userCode, d.deviceCode, d.verificationUri))
  }

  /** `complete_device_flow`: only a registered provider reaches the token
      endpoint; the token is returned, not stored. */
  function CompleteDeviceFlow(m: AuthManager, provider: string, deviceCode: string,
                              exchange: Result<TokenResponse, string>, now: nat): (r: Result<AuthToken, AuthError>)
    ensures provider !in m.clients ==> r == Err(ProviderNotRegistered(provider))
    ensures r.Ok? <==> provider in m.clients && exchange.Ok?
    ensures r.Ok? ==> r.value == TokenFrom(exchange.value, now)
  {
    if provider !in m.clients then Err(ProviderNotRegistered(provider))
    else
      match exchange
      case Err(e) => Err(ExchangeFailed(e))
      case Ok(resp) => Ok(TokenFrom(resp, now))
  }

  /** As written, no registration makes the device flow reach the
      endpoint: every `register_*` leaves the device-authorisation endpoint
      unset, so `start_device_flow` for that provider fails whatever the
      endpoint would answer, and a fresh manager refuses every provider. */
  lemma RegisteredDeviceFlowFails(m: AuthManager, clientId: string, clientSecret: string,
                                  response: Result<DeviceResponse, string>, provider: string)
    ensures StartDeviceFlow(New(), provider, response) == Err(ProviderNotRegistered(provider))
    ensures StartDeviceFlow(RegisterGmail(m, clientId, clientSecret), "gmail", response) == Err(DeviceAuthUrlMissing)
    ensures StartDeviceFlow(RegisterOutlook(m, clientId, clientSecret), "outlook", response) == Err(DeviceAuthUrlMissing)
    ensures StartDeviceFlow(RegisterYahoo(m, clientId, clientSecret), "yahoo", response) == Err(DeviceAuthUrlMissing)
  {
  }

  /** The evidently intended registration: the client is built with the
      provider's device-authorisation endpoint as well. */
  function RegisterGmailWithDevice(m: AuthManager, clientId: string, clientSecret: string, deviceAuthUrl: string): (r: AuthManager)
    ensures r.clients.Keys == m.clients.Keys + {"gmail"}
    ensures r.clients["gmail"] == OAuthClient(clientId, clientSecret, GmailAuthUrl, GmailTokenUrl, Some(deviceAuthUrl))
    ensures forall k :: k in m.clients && k != "gmail" ==> r.clients[k] == m.clients[k]
    ensures r.tokens == m.tokens
  {
    m.(clients := m.clients["gmail" := OAuthClient(clientId, clientSecret, GmailAuthUrl, GmailTokenUrl, Some(deviceAuthUrl))])
  }

  /** With a device-authorisation endpoint registered, Gmail's device flow
      reaches the endpoint and succeeds exactly when the endpoint answers;
      a fresh manager still refuses every provider. */
  lemma RegistrationEnablesDeviceFlow(clientId: string, clientSecret: string, deviceAuthUrl: string,
                                      response: Result<DeviceResponse, string>, provider: string)
    ensures StartDeviceFlow(New(), provider, response) == Err(ProviderNotRegistered(provider))
    ensures StartDeviceFlow(RegisterGmailWithDevice(New(), clientId, clientSecret, deviceAuthUrl), "gmail", response).Ok?
            <==> response.Ok?
  {
  }
}

=== FILE: email_cache.dfy ===
/** The mail client's SQLite cache (`EmailCache`): header, body and
    attachment tables, a running byte counter that only ever grows until an
    over-budget cleanup resets it, and an in-memory list of every header
    ever stored.

    Dates and cache times are naturals ordered as the source orders its
    RFC 3339 strings. `now` is a parameter; one call stamps all the rows it
    writes with the same `now`. */
module EmailCache {
  import opened Wrappers
  import opened Rows
  import opened Strings
  import opened SqlLike

  type Byte = bv8

  const MiB: nat := 1024 * 1024

  datatype Header = Header(
    uid: nat,
    subject: string,
    from: string,
    to: string,
    date: nat,
    size: nat,
    flags: seq<string>,
    folder: string)

  datatype Attachment = Attachment(
    filename: string,
    contentType: string,
    size: nat,
    data: seq<Byte>)

  datatype Body = Body(
    uid: nat,
    content: string,
    contentType: string,
    attachments: seq<Attachment>)

  /** A row of `email_headers`; `uid` is its primary key. */
  datatype HeaderRow = HeaderRow(header: Header, cachedAt: nat)

  /** A row of `email_bodies`; `uid` is its primary key. */
  datatype BodyRow = BodyRow(uid: nat, content: string, contentType: string, cachedAt: nat)

  /** A row of `attachments`. Its autoincrement `id` is never read back, so
      the model keeps only the row's position in the table. */
  datatype AttachmentRow = AttachmentRow(uid: nat, attachment: Attachment, cachedAt: nat)

  datatype MailCache = MailCache(
    headers: seq<HeaderRow>,
    bodies: seq<BodyRow>,
    attachments: seq<AttachmentRow>,
    maxSizeBytes: nat,
    currentSize: nat,
    headersCache: seq<Header>)

  function HeaderUid(r: HeaderRow): nat { r.header.uid }

  function CachedAt(r: HeaderRow): nat { r.cachedAt }

  function BodyUid(r: BodyRow): nat { r.uid }

  function HeaderSize(h: Header): nat { h.size }

  function AttachmentSize(a: Attachment): nat { a.size }

  /** Whether some header row carries `uid`. */
  predicate HasHeader(headers: seq<HeaderRow>, uid: nat) {
    exists x :: x in headers && x.header.uid == uid
  }

  /** The constraints of the three tables: the primary keys of
      `email_headers` and `email_bodies`, and the two foreign keys by which
      every body row and every attachment row names a uid with a header
      row. The pool enforces foreign keys (SQLite's `foreign_keys` pragma,
      which the driver switches on), so no statement leaves them broken. */
  ghost predicate TablesValid(headers: seq<HeaderRow>, bodies: seq<BodyRow>, attachments: seq<AttachmentRow>) {
    && KeysUnique(headers, HeaderUid)
    && KeysUnique(bodies, BodyUid)
    && (forall b :: b in bodies ==> HasHeader(headers, b.uid))
    && (forall a :: a in attachments ==> HasHeader(headers, a.uid))
  }

  ghost predicate Valid(c: MailCache) {
    TablesValid(c.headers, c.bodies, c.attachments)
  }

  /** Whether a body or attachment row refers to `uid`, so that deleting
      the header row for `uid` breaks a foreign key. */
  predicate Referenced(c: MailCache, uid: nat) {
    || (exists b :: b in c.bodies && b.uid == uid)
    || (exists a :: a in c.attachments && a.uid == uid)
  }

  /** A statement refused by a foreign-key check. */
  datatype CacheError = ForeignKeyViolation

  /** A cache after a call, with the call's result. */
  datatype CacheStep = CacheStep(result: Result<(), CacheError>, cache: MailCache)

  /** `EmailCache::new` over tables that may already hold rows: the budget is
      `max_size_mb` whole MiB, the counter and the in-memory list start empty. */
  function NewMailCache(maxSizeMb: nat, headers: seq<HeaderRow>, bodies: seq<BodyRow>,
                        attachments: seq<AttachmentRow>): (c: MailCache)
    requires TablesValid(headers, bodies, attachments)
    ensures Valid(c)
    ensures c.maxSizeBytes == maxSizeMb * 1048576
    ensures c.currentSize == 0 && c.headersCache == []
    ensures c.headers == headers && c.bodies == bodies && c.attachments == attachments
  {
    MailCache(headers, bodies, attachments, maxSizeMb * MiB, 0, [])
  }

  // ---------------------------------------------------------------------
  // Cleanup

  /** The header rows that the `SELECT uid … ORDER BY cached_at ASC LIMIT
      excess / 1024` inside `cleanup` selects for deletion; none when within
      budget. */
  function Victims(c: MailCache): seq<HeaderRow> {
    if c.currentSize <= c.maxSizeBytes then []
    else EvictOldest(c.headers, CachedAt, (c.currentSize - c.maxSizeBytes) / 1024).1
  }

  /** `cleanup`. Within budget it does nothing. Over budget it deletes, in
      one statement, the `excess / 1024` header rows (or all, if fewer) with
      the earliest `cached_at`, then resets the counter to zero. When a body
      or attachment row still refers to one of those headers, the statement
      fails as a whole: the error is returned before the reset and nothing
      changes. Bodies, attachments and the in-memory list are never touched. */
  function Cleanup(c: MailCache): (r: CacheStep)
    ensures r.cache.bodies == c.bodies && r.cache.attachments == c.attachments
    ensures r.cache.headersCache == c.headersCache && r.cache.maxSizeBytes == c.maxSizeBytes
    ensures c.currentSize <= c.maxSizeBytes ==> r == CacheStep(Ok(()), c)
    ensures r.result.Err? <==> exists x :: x in Victims(c) && Referenced(c, x.header.uid)
    ensures r.result.Err? ==> r.cache == c && c.currentSize > c.maxSizeBytes
    ensures c.currentSize > c.maxSizeBytes && r.result.Ok? ==>
              && r.cache.currentSize == 0
              && |r.cache.headers| == |c.headers| - Min((c.currentSize - c.maxSizeBytes) / 1024, |c.headers|)
              && OldestRemoved(c.headers, r.cache.headers, CachedAt)
              && (forall x :: x in multiset(c.headers) - multiset(r.cache.headers) ==> !Referenced(c, x.header.uid))
    ensures Valid(c) ==> Valid(r.cache)
  {
    if c.currentSize <= c.maxSizeBytes then CacheStep(Ok(()), c)
    else
      var k := (c.currentSize - c.maxSizeBytes) / 1024;
      var split := EvictOldest(c.headers, CachedAt, k);
      if exists x :: x in split.1 && Referenced(c, x.header.uid) then CacheStep(Err(ForeignKeyViolation), c)
      else
        EvictOldestRemoves(c.headers, CachedAt, k);
        DeleteKeepsValid(c, k);
        CacheStep(Ok(()), c.(headers := split.0, currentSize := 0))
  }

  /** Deleting header rows that nothing refers to keeps every constraint. */
  lemma DeleteKeepsValid(c: MailCache, k: nat)
    ensures var split := EvictOldest(c.headers, CachedAt, k);
            Valid(c) && (forall x :: x in split.1 ==> !Referenced(c, x.header.uid)) ==>
              Valid(c.(headers := split.0, currentSize := 0))
  {
    var split := EvictOldest(c.headers, CachedAt, k);
    if Valid(c) && (forall x :: x in split.1 ==> !Referenced(c, x.header.uid)) {
      EvictOldestKeepsUnique(c.headers, CachedAt, k, HeaderUid);
      forall b | b in c.bodies ensures HasHeader(split.0, b.uid) {
        var x :| x in c.headers && x.header.uid == b.uid;
        assert Referenced(c, b.uid);
        HeaderKept(c.headers, k, x);
      }
      forall a | a in c.attachments ensures HasHeader(split.0, a.uid) {
        var x :| x in c.headers && x.header.uid == a.uid;
        assert Referenced(c, a.uid);
        HeaderKept(c.headers, k, x);
      }
    }
  }

  /** A header row that is not a victim is kept. */
  lemma HeaderKept(rows: seq<HeaderRow>, k: nat, x: HeaderRow)
    requires x in rows && x !in EvictOldest(rows, CachedAt, k).1
    ensures x in EvictOldest(rows, CachedAt, k).0
  {
    var split := EvictOldest(rows, CachedAt, k);
    assert multiset(split.0) + multiset(split.1) == multiset(rows);
    assert multiset(rows)[x] > 0 && multiset(split.1)[x] == 0;
  }

  /** `enforce_size_limits`: runs `cleanup` only when over budget. */
  function EnforceSizeLimits(c: MailCache): (r: CacheStep)
    ensures c.currentSize <= c.maxSizeBytes ==> r == CacheStep(Ok(()), c)
    ensures c.currentSize > c.maxSizeBytes ==> r == Cleanup(c)
  {
    if c.currentSize > c.maxSizeBytes then Cleanup(c) else CacheStep(Ok(()), c)
  }

  /** The guard in `enforce_size_limits` repeats the one inside `cleanup`,
      so the two operations agree on every state. */
  lemma EnforceIsCleanup(c: MailCache)
    ensures EnforceSizeLimits(c) == Cleanup(c)
  {
  }

  /** A successful cleanup leaves the counter within budget; a failed one
      leaves everything as it was. Either way a second cleanup has the same
      result and changes nothing more. */
  lemma CleanupIdempotent(c: MailCache)
    ensures Cleanup(c).result.Ok? ==> Cleanup(c).cache.currentSize <= Cleanup(c).cache.maxSizeBytes
    ensures Cleanup(Cleanup(c).cache) == Cleanup(c)
  {
  }

  /** Over budget by at least 1 KiB, with a body or attachment for every
      header, cleanup always fails and changes nothing. */
  lemma ReferencedHeadersBlockCleanup(c: MailCache)
    requires c.currentSize >= c.maxSizeBytes + 1024 && |c.headers| > 0
    requires forall x :: x in c.headers ==> Referenced(c, x.header.uid)
    ensures Cleanup(c) == CacheStep(Err(ForeignKeyViolation), c)
  {
    assert |Victims(c)| > 0;
    VictimIsHeader(c, Victims(c)[0]);
  }

  /** With no body or attachment row referring to any header, cleanup
      never fails. */
  lemma UnreferencedCleanupSucceeds(c: MailCache)
    requires forall x :: x in c.headers ==> !Referenced(c, x.header.uid)
    ensures Cleanup(c).result.Ok?
  {
    forall x | x in Victims(c) ensures !Referenced(c, x.header.uid) {
      VictimIsHeader(c, x);
    }
  }

  /** Every victim is one of the header rows. */
  lemma VictimIsHeader(c: MailCache, x: HeaderRow)
    requires x in Victims(c)
    ensures x in c.headers
  {
    var split := EvictOldest(c.headers, CachedAt, (c.currentSize - c.maxSizeBytes) / 1024);
    assert Victims(c) == split.1;
    SubMultisetMembers(split.1, c.headers);
  }

  /** `get_memory_usage`: the counter, not a measurement of the tables. */
  function GetMemoryUsage(c: MailCache): (n: nat)
    ensures n == c.currentSize
  {
    c.currentSize
  }

  // ---------------------------------------------------------------------
  // Headers

  /** The last header in `hs` carrying `uid`, if any. */
  function Latest(hs: seq<Header>, uid: nat): (r: Option<Header>)
    ensures r.Some? ==> r.value in hs && r.value.uid == uid
    ensures r.None? <==> forall i :: 0 <= i < |hs| ==> hs[i].uid != uid
    ensures r.Some? ==> exists i :: LastWithUid(hs, uid, i) && hs[i] == r.value
    decreases |hs|
  {
    if |hs| == 0 then None
    else if hs[|hs| - 1].uid == uid then
      assert LastWithUid(hs, uid, |hs| - 1);
      Some(hs[|hs| - 1])
    else
      LatestOfPrefix(hs, uid);
      Latest(hs[..|hs| - 1], uid)
  }

  /** A last occurrence before a final header with another uid is a last
      occurrence in the whole sequence. */
  lemma LatestOfPrefix(hs: seq<Header>, uid: nat)
    requires |hs| > 0 && hs[|hs| - 1].uid != uid
    ensures forall i :: LastWithUid(hs[..|hs| - 1], uid, i) ==> LastWithUid(hs, uid, i)
  {
  }

  /** `hs[i]` carries `uid` and no later header does. */
  ghost predicate LastWithUid(hs: seq<Header>, uid: nat, i: int) {
    && 0 <= i < |hs|
    && hs[i].uid == uid
    && forall j :: i < j < |hs| ==> hs[j].uid != uid
  }

  /** The `INSERT OR REPLACE` loop of `store_headers`, one statement per
      header in order: afterwards each uid in the batch holds the batch's
      last header with that uid, stamped `now`, and every other row is as
      it was. A replaced row is deleted and reinserted within one statement,
      so the rows referring to its uid still find a header. */
  function WriteHeaders(rows: seq<HeaderRow>, hs: seq<Header>, now: nat): (r: seq<HeaderRow>)
    ensures forall x :: x in r <==>
              (x.cachedAt == now && Latest(hs, x.header.uid) == Some(x.header))
              || (x in rows && Latest(hs, x.header.uid).None?)
    ensures KeysUnique(rows, HeaderUid) ==> KeysUnique(r, HeaderUid)
    decreases |hs|
  {
    if |hs| == 0 then rows
    else
      var init := WriteHeaders(rows, hs[..|hs| - 1], now);
      Upsert(init, HeaderUid, HeaderRow(hs[|hs| - 1], now))
  }

  /** Every uid that had a header row still has one after the batch. */
  lemma WriteHeadersKeepsUids(rows: seq<HeaderRow>, hs: seq<Header>, now: nat)
    ensures forall u :: HasHeader(rows, u) ==> HasHeader(WriteHeaders(rows, hs, now), u)
  {
    var r := WriteHeaders(rows, hs, now);
    forall u | HasHeader(rows, u) ensures HasHeader(r, u) {
      var x :| x in rows && x.header.uid == u;
      match Latest(hs, u)
      case None => assert x in r;
      case Some(h) => assert HeaderRow(h, now) in r;
    }
  }

  /** `store_headers` up to, not including, the size enforcement. */
  function InsertHeaders(c: MailCache, hs: seq<Header>, now: nat): (r: MailCache)
    ensures r.headers == WriteHeaders(c.headers, hs, now)
    ensures r.currentSize == c.currentSize + Sum(hs, HeaderSize)
    ensures r.headersCache == c.headersCache + hs
    ensures r.bodies == c.bodies && r.attachments == c.attachments && r.maxSizeBytes == c.maxSizeBytes
    ensures Valid(c) ==> Valid(r)
  {
    WriteHeadersKeepsUids(c.headers, hs, now);
    c.(headers := WriteHeaders(c.headers, hs, now),
       currentSize := c.currentSize + Sum(hs, HeaderSize),
       headersCache := c.headersCache + hs)
  }

  /** `store_headers`: writes and commits the batch, adds every header's
      size to the counter (replaced rows included), appends the batch to the
      in-memory list without de-duplication, then enforces the budget. A
      failing cleanup makes the call return its error after the batch has
      been committed, with the counter still over budget. */
  function StoreHeaders(c: MailCache, hs: seq<Header>, now: nat): (r: CacheStep)
    // Unfolding aid for the client-side lemmas; the clauses after it are the contract.
    ensures r == EnforceSizeLimits(InsertHeaders(c, hs, now))
    ensures r.cache.headersCache == c.headersCache + hs
    ensures r.cache.bodies == c.bodies && r.cache.attachments == c.attachments
    ensures Valid(c) ==> Valid(r.cache)
    ensures c.currentSize + Sum(hs, HeaderSize) <= c.maxSizeBytes ==>
              && r.result.Ok?
              && r.cache.currentSize == c.currentSize + Sum(hs, HeaderSize)
              && r.cache.headers == WriteHeaders(c.headers, hs, now)
    ensures c.currentSize + Sum(hs, HeaderSize) > c.maxSizeBytes ==>
              && (r.result.Ok? ==> r.cache.currentSize == 0)
              && (r.result.Err? ==> r.cache == InsertHeaders(c, hs, now))
  {
    EnforceSizeLimits(InsertHeaders(c, hs, now))
  }

  /** Storing two headers with the same uid in one batch keeps only the
      second, stamped with the call's time. */
  lemma LastDuplicateWins(rows: seq<HeaderRow>, a: Header, b: Header, now: nat)
    requires a.uid == b.uid && a != b
    ensures HeaderRow(b, now) in WriteHeaders(rows, [a, b], now)
    ensures forall x :: x in WriteHeaders(rows, [a, b], now) ==> x.header != a
  {
    assert Latest([a, b], b.uid) == Some(b);
  }

  // ---------------------------------------------------------------------
  // Bodies and attachments

  /** One `attachments` row per attachment, in order, all for `uid`. */
  function AttachmentRows(uid: nat, atts: seq<Attachment>, now: nat): (r: seq<AttachmentRow>)
    ensures |r| == |atts|
    ensures forall i :: 0 <= i < |r| ==> r[i].uid == uid && r[i].attachment == atts[i]
  {
    if |atts| == 0 then [] else [AttachmentRow(uid, atts[0], now)] + AttachmentRows(uid, atts[1..], now)
  }

  /** `store_body` up to, not including, the size enforcement. Without a
      header row for the uid the body `INSERT` fails its foreign key, the
      transaction is dropped and nothing changes. Otherwise the body row is
      upserted by uid and attachment rows are appended, because their only
      key is a fresh autoincrement id, so storing the same body again adds
      its attachments a second time. Only attachment sizes are counted. */
  function InsertBody(c: MailCache, body: Body, now: nat): (r: CacheStep)
    ensures r.result.Err? <==> !HasHeader(c.headers, body.uid)
    ensures r.result.Err? ==> r == CacheStep(Err(ForeignKeyViolation), c)
    ensures r.result.Ok? ==>
              && (forall x :: x in r.cache.bodies <==>
                    x == BodyRow(body.uid, body.content, body.contentType, now)
                    || (x in c.bodies && x.uid != body.uid))
              && |r.cache.attachments| == |c.attachments| + |body.attachments|
              && r.cache.attachments[..|c.attachments|] == c.attachments
              && (forall i :: |c.attachments| <= i < |r.cache.attachments| ==>
                    r.cache.attachments[i].uid == body.uid
                    && r.cache.attachments[i].attachment == body.attachments[i - |c.attachments|])
              && r.cache.currentSize == c.currentSize + Sum(body.attachments, AttachmentSize)
              && r.cache.headers == c.headers && r.cache.headersCache == c.headersCache
              && r.cache.maxSizeBytes == c.maxSizeBytes
    ensures Valid(c) ==> Valid(r.cache)
  {
    if !HasHeader(c.headers, body.uid) then CacheStep(Err(ForeignKeyViolation), c)
    else
      CacheStep(Ok(()), c.(bodies := Upsert(c.bodies, BodyUid, BodyRow(body.uid, body.content, body.contentType, now)),
                           attachments := c.attachments + AttachmentRows(body.uid, body.attachments, now),
                           currentSize := c.currentSize + Sum(body.attachments, AttachmentSize)))
  }

  /** `store_body`: a refused insert is returned as is; otherwise the rows
      are committed and the budget enforced, whose failure is returned after
      the commit. Cleanup never touches bodies or attachments, so they are
      the inserted ones whatever the result. */
  function StoreBody(c: MailCache, body: Body, now: nat): (r: CacheStep)
    ensures !HasHeader(c.headers, body.uid) ==> r == CacheStep(Err(ForeignKeyViolation), c)
    // The equation with EnforceSizeLimits is an unfolding aid for the
    // client-side lemmas; the bodies and attachments clauses are the contract.
    ensures HasHeader(c.headers, body.uid) ==>
              && r == EnforceSizeLimits(InsertBody(c, body, now).cache)
              && r.cache.bodies == InsertBody(c, body, now).cache.bodies
              && r.cache.attachments == InsertBody(c, body, now).cache.attachments
    ensures Valid(c) ==> Valid(r.cache)
  {
    var ins := InsertBody(c, body, now);
    if ins.result.Err? then ins else EnforceSizeLimits(ins.cache)
  }

  /** The `SELECT … FROM attachments WHERE uid = ?` of `get_body`, in table
      order. */
  function AttachmentsOf(rows: seq<AttachmentRow>, uid: nat): (r: seq<Attachment>)
    ensures forall a :: a in r ==> exists x :: x in rows && x.uid == uid && x.attachment == a
    ensures forall x :: x in rows && x.uid == uid ==> x.attachment in r
  {
    if |rows| == 0 then []
    else (if rows[0].uid == uid then [rows[0].attachment] else []) + AttachmentsOf(rows[1..], uid)
  }

  lemma {:induction false} AttachmentsOfAppend(a: seq<AttachmentRow>, b: seq<AttachmentRow>, uid: nat)
    ensures AttachmentsOf(a + b, uid) == AttachmentsOf(a, uid) + AttachmentsOf(b, uid)
    decreases |a|
  {
    if |a| == 0 {
      assert a + b == b;
    } else {
      assert (a + b)[1..] == a[1..] + b;
      AttachmentsOfAppend(a[1..], b, uid);
    }
  }

  /** Rows written for `uid` read back as exactly the attachments given. */
  lemma {:induction false} AttachmentRowsRoundTrip(uid: nat, atts: seq<Attachment>, now: nat)
    ensures AttachmentsOf(AttachmentRows(uid, atts, now), uid) == atts
    decreases |atts|
  {
    if |atts| > 0 {
      AttachmentRowsRoundTrip(uid, atts[1..], now);
      assert AttachmentRows(uid, atts, now)[1..] == AttachmentRows(uid, atts[1..], now);
      assert atts == [atts[0]] + atts[1..];
    }
  }

  lemma {:induction false} NoAttachmentsOf(rows: seq<AttachmentRow>, uid: nat)
    requires forall x :: x in rows ==> x.uid != uid
    ensures AttachmentsOf(rows, uid) == []
    decreases |rows|
  {
    if |rows| > 0 {
      assert rows[0] in rows;
      NoAttachmentsOf(rows[1..], uid);
    }
  }

  /** `get_body`: `None` for a uid with no body row; otherwise the stored
      content and content type with every attachment row of that uid. */
  function GetBody(c: MailCache, uid: nat): (r: Option<Body>)
    requires KeysUnique(c.bodies, BodyUid)
    ensures r.None? <==> forall x :: x in c.bodies ==> x.uid != uid
    ensures forall x :: x in c.bodies && x.uid == uid ==>
              r == Some(Body(uid, x.content, x.contentType, AttachmentsOf(c.attachments, uid)))
  {
    match FindKey(c.bodies, BodyUid, uid)
    case None => None
    case Some(i) =>
      BodyKeyUnique(c.bodies, i);
      Some(Body(uid, c.bodies[i].content, c.bodies[i].contentType, AttachmentsOf(c.attachments, uid)))
  }

  lemma BodyKeyUnique(rows: seq<BodyRow>, i: nat)
    requires KeysUnique(rows, BodyUid) && i < |rows|
    ensures forall x :: x in rows && x.uid == rows[i].uid ==> x == rows[i]
  {
    forall j | 0 <= j < |rows| && j != i ensures rows[j].uid != rows[i].uid {
      if j < i {
        assert BodyUid(rows[j]) != BodyUid(rows[i]);
      } else {
        assert BodyUid(rows[i]) != BodyUid(rows[j]);
      }
    }
  }

  /** A body whose uid has a header row reads back with its own content,
      and its attachments follow whatever attachment rows that uid already
      had. Cleanup never deletes bodies or attachments, so this holds
      whatever the budget and whether or not the cleanup fails. */
  lemma StoreBodyThenGet(c: MailCache, body: Body, now: nat)
    requires Valid(c) && HasHeader(c.headers, body.uid)
    ensures Valid(StoreBody(c, body, now).cache)
    ensures GetBody(StoreBody(c, body, now).cache, body.uid)
            == Some(Body(body.uid, body.content, body.contentType,
                         AttachmentsOf(c.attachments, body.uid) + body.attachments))
  {
    var r := StoreBody(c, body, now).cache;
    var row := BodyRow(body.uid, body.content, body.contentType, now);
    assert row in r.bodies;
    AttachmentsOfAppend(c.attachments, AttachmentRows(body.uid, body.attachments, now), body.uid);
    AttachmentRowsRoundTrip(body.uid, body.attachments, now);
  }

  /** For a uid with a header row and without earlier attachment rows, the
      body reads back as stored. */
  lemma StoreBodyRoundTrip(c: MailCache, body: Body, now: nat)
    requires Valid(c) && HasHeader(c.headers, body.uid)
    requires forall x :: x in c.attachments ==> x.uid != body.uid
    ensures GetBody(StoreBody(c, body, now).cache, body.uid) == Some(body)
  {
    StoreBodyThenGet(c, body, now);
    NoAttachmentsOf(c.attachments, body.uid);
    assert [] + body.attachments == body.attachments;
  }

  /** Storing a body twice doubles its attachments on read. The first store
      leaves a body row, and with it (by the foreign key) the header row the
      second store needs. */
  lemma StoreBodyTwiceRepeatsAttachments(c: MailCache, body: Body, t1: nat, t2: nat)
    requires Valid(c) && HasHeader(c.headers, body.uid)
    requires forall x :: x in c.attachments ==> x.uid != body.uid
    ensures GetBody(StoreBody(StoreBody(c, body, t1).cache, body, t2).cache, body.uid)
            == Some(body.(attachments := body.attachments + body.attachments))
  {
    var c1 := StoreBody(c, body, t1).cache;
    StoreBodyThenGet(c, body, t1);
    StoreBodyRoundTrip(c, body, t1);
    var x := BodyRow(body.uid, body.content, body.contentType, t1);
    assert x in c1.bodies;
    assert HasHeader(c1.headers, body.uid);
    StoreBodyThenGet(c1, body, t2);
  }

  /** Without a header row for its uid a body is refused: nothing changes
      and the uid still reads back as no body. */
  lemma StoreBodyWithoutHeader(c: MailCache, body: Body, now: nat)
    requires Valid(c) && !HasHeader(c.headers, body.uid)
    ensures StoreBody(c, body, now) == CacheStep(Err(ForeignKeyViolation), c)
    ensures GetBody(StoreBody(c, body, now).cache, body.uid).None?
  {
  }

  /** Every attachment row belongs to a uid that has a body row. Bodies are
      never deleted, and attachments are only written together with their
      body, so the operations keep this. */
  ghost predicate AttachmentsOwned(c: MailCache) {
    forall a :: a in c.attachments ==> exists b :: b in c.bodies && b.uid == a.uid
  }

  lemma StoreBodyKeepsOwned(c: MailCache, body: Body, now: nat)
    ensures AttachmentsOwned(c) ==> AttachmentsOwned(StoreBody(c, body, now).cache)
  {
    if !AttachmentsOwned(c) || !HasHeader(c.headers, body.uid) {
      return;
    }
    var r := StoreBody(c, body, now).cache;
    var row := BodyRow(body.uid, body.content, body.contentType, now);
    assert row in r.bodies;
    forall a | a in r.attachments ensures exists b :: b in r.bodies && b.uid == a.uid {
      var i :| 0 <= i < |r.attachments| && r.attachments[i] == a;
      if i < |c.attachments| {
        assert a == c.attachments[i];
        var b :| b in c.bodies && b.uid == a.uid;
        if b.uid != body.uid {
          assert b in r.bodies;
        }
      }
    }
  }

  /** With every attachment owned by a body, a uid without a body has no
      attachment rows. */
  lemma UnownedUidHasNoAttachments(c: MailCache, uid: nat)
    requires AttachmentsOwned(c)
    requires forall b :: b in c.bodies ==> b.uid != uid
    ensures forall x :: x in c.attachments ==> x.uid != uid
  {
  }

  // ---------------------------------------------------------------------
  // Search

  /** The `WHERE` clause of `search_headers`: `%query%` is matched with
      `LIKE` against subject, sender and recipient. A `%` or `_` inside the
      query is a wildcard, since the source does not escape it. */
  predicate HeaderMatches(h: Header, query: string) {
    Like(Surround(query), h.subject) || Like(Surround(query), h.from) || Like(Surround(query), h.to)
  }

  function Matching(rows: seq<HeaderRow>, query: string): (r: seq<Header>)
    ensures forall h :: h in r <==> (exists x :: x in rows && x.header == h) && HeaderMatches(h, query)
  {
    if |rows| == 0 then []
    else
      assert forall x :: x in rows ==> x == rows[0] || x in rows[1..];
      (if HeaderMatches(rows[0].header, query) then [rows[0].header] else [])
      + Matching(rows[1..], query)
  }

  predicate DateDescending(hs: seq<Header>) {
    forall i, j :: 0 <= i < j < |hs| ==> hs[i].date >= hs[j].date
  }

  function InsertByDate(h: Header, hs: seq<Header>): (r: seq<Header>)
    requires DateDescending(hs)
    ensures DateDescending(r)
    ensures forall x :: x in r ==> x == h || x in hs
    ensures multiset(r) == multiset(hs) + multiset{h}
  {
    if |hs| == 0 then [h]
    else if h.date >= hs[0].date then [h] + hs
    else
      var rest := InsertByDate(h, hs[1..]);
      assert hs == [hs[0]] + hs[1..];
      ConsDescending(hs[0], rest, hs[1..], h);
      [hs[0]] + rest
  }

  /** Putting `first` in front of a descending list of items no later than
      it keeps the list descending. */
  lemma ConsDescending(first: Header, rest: seq<Header>, tail: seq<Header>, h: Header)
    requires DateDescending(rest)
    requires h.date < first.date
    requires forall x :: x in tail ==> x.date <= first.date
    requires forall x :: x in rest ==> x == h || x in tail
    ensures DateDescending([first] + rest)
  {
    var r := [first] + rest;
    forall i, j | 0 <= i < j < |r| ensures r[i].date >= r[j].date {
      if i > 0 {
        assert r[i] == rest[i - 1] && r[j] == rest[j - 1];
      } else {
        assert r[j] in rest;
      }
    }
  }

  /** `ORDER BY date DESC`; rows with equal dates may come in any order in
      SQLite, here they keep their table order. */
  function SortByDate(hs: seq<Header>): (r: seq<Header>)
    ensures DateDescending(r)
    ensures multiset(r) == multiset(hs)
  {
    if |hs| == 0 then []
    else
      assert hs == [hs[0]] + hs[1..];
      InsertByDate(hs[0], SortByDate(hs[1..]))
  }

  /** `search_headers` / `search_emails`: the matching headers, newest
      first, each stored header at most once. */
  function SearchHeaders(c: MailCache, query: string): (r: seq<Header>)
    ensures DateDescending(r)
    ensures forall h :: h in r <==> (exists x :: x in c.headers && x.header == h) && HeaderMatches(h, query)
    ensures multiset(r) == multiset(Matching(c.headers, query))
  {
    var m := Matching(c.headers, query);
    var r := SortByDate(m);
    assert forall h :: h in r <==> h in multiset(m);
    r
  }

  /** For a query without `%` or `_`, a header is found exactly when the
      query occurs, ignoring ASCII case, in its subject, sender or
      recipient. */
  lemma SearchPlainQuery(c: MailCache, query: string, h: Header)
    requires NoWildcards(query)
    requires exists x :: x in c.headers && x.header == h
    ensures h in SearchHeaders(c, query) <==>
              || Contains(AsciiLower(h.subject), AsciiLower(query))
              || Contains(AsciiLower(h.from), AsciiLower(query))
              || Contains(AsciiLower(h.to), AsciiLower(query))
  {
    SurroundIsSubstring(query, h.subject);
    SurroundIsSubstring(query, h.from);
    SurroundIsSubstring(query, h.to);
  }
}

=== FILE: email_client.dfy ===
/** `EmailClient`: one configured provider in front of the mail cache.
    The provider's network calls are parameters: each operation receives
    what the provider would answer (`Ok` with the data, or `Err`). */
module EmailClient {
  import opened Wrappers
  import opened Rows
  import opened EmailCache

  datatype ProviderType = Gmail | Outlook | Yahoo | GenericImap

  /** The parts of `EmailConfig` the modelled operations read; the server
      and authentication settings only reach the provider stubs. */
  datatype EmailConfig = EmailConfig(provider: ProviderType, cacheSizeMb: nat)

  datatype Client = Client(config: EmailConfig, cache: MailCache, providers: set<ProviderType>)

  datatype ClientError =
    | ProviderNotFound
    | ProviderFailed(message: string)
    | CacheFailed(error: CacheError)

  datatype Outcome<T> = Outcome(result: Result<T, ClientError>, client: Client)

  /** A cache call's result seen through `?`: its error becomes the
      client's, and on success the client returns `v`. */
  function Lift<T>(r: Result<(), CacheError>, v: T): (o: Result<T, ClientError>)
    ensures o.Ok? <==> r.Ok?
    ensures o.Ok? ==> o.value == v
    ensures o.Err? ==> o.error == CacheFailed(r.error)
  {
    match r
    case Ok(_) => Ok(v)
    case Err(e) => Err(CacheFailed(e))
  }

  /** What `new` establishes and every operation keeps: the cache's keys
      and foreign keys, the cache budget taken from the configuration, and
      the single registered provider. */
  ghost predicate ClientValid(cl: Client) {
    && Valid(cl.cache)
    && cl.cache.maxSizeBytes == cl.config.cacheSizeMb * 1048576
    && cl.providers == {cl.config.provider}
  }

  /** `EmailClient::new` over whatever the cache database already holds:
      the cache starts with an empty counter and in-memory list, and
      exactly the configured provider is registered. */
  function New(config: EmailConfig, headers: seq<HeaderRow>, bodies: seq<BodyRow>,
               attachments: seq<AttachmentRow>): (cl: Client)
    requires TablesValid(headers, bodies, attachments)
    ensures cl.providers == {config.provider}
    ensures cl.config == config
    ensures cl.cache.headers == headers && cl.cache.bodies == bodies && cl.cache.attachments == attachments
    ensures cl.cache.currentSize == 0 && cl.cache.headersCache == []
    ensures ClientValid(cl)
  {
    Client(config, NewMailCache(config.cacheSizeMb, headers, bodies, attachments), {config.provider})
  }

  /** `sync_headers`: the provider's headers are cached and returned
      unchanged. A missing provider or a failed provider call is an error
      and the cache is untouched. A failing cache store is returned as an
      error too, with the cache as the store left it. */
  function SyncHeaders(cl: Client, fetched: Result<seq<Header>, string>, now: nat): (o: Outcome<seq<Header>>)
    ensures cl.config.provider !in cl.providers ==> o == Outcome(Err(ProviderNotFound), cl)
    ensures cl.config.provider in cl.providers && fetched.Err? ==>
              o == Outcome(Err(ProviderFailed(fetched.error)), cl)
    ensures cl.config.provider in cl.providers && fetched.Ok? ==>
              && o.client == cl.(cache := StoreHeaders(cl.cache, fetched.value, now).cache)
              && (StoreHeaders(cl.cache, fetched.value, now).result.Ok? ==> o.result == Ok(fetched.value))
              && (StoreHeaders(cl.cache, fetched.value, now).result.Err? ==>
                    o.result == Err(CacheFailed(StoreHeaders(cl.cache, fetched.value, now).result.error)))
    ensures ClientValid(cl) ==> ClientValid(o.client)
  {
    if cl.config.provider !in cl.providers then Outcome(Err(ProviderNotFound), cl)
    else
      match fetched
      case Err(e) => Outcome(Err(ProviderFailed(e)), cl)
      case Ok(hs) =>
        var s := StoreHeaders(cl.cache, hs, now);
        Outcome(Lift(s.result, hs), cl.(cache := s.cache))
  }

  /** `fetch_body`: a cached body is returned without asking the provider.
      On a miss the provider's body is stored and returned unchanged; a
      failing store is returned as an error, with the cache as the store
      left it. */
  function FetchBody(cl: Client, uid: nat, fetched: Result<Body, string>, now: nat): (o: Outcome<Body>)
    requires KeysUnique(cl.cache.bodies, BodyUid)
    ensures GetBody(cl.cache, uid).Some? ==> o == Outcome(Ok(GetBody(cl.cache, uid).value), cl)
    ensures GetBody(cl.cache, uid).None? && cl.config.provider !in cl.providers ==>
              o == Outcome(Err(ProviderNotFound), cl)
    ensures GetBody(cl.cache, uid).None? && cl.config.provider in cl.providers && fetched.Err? ==>
              o == Outcome(Err(ProviderFailed(fetched.error)), cl)
    ensures GetBody(cl.cache, uid).None? && cl.config.provider in cl.providers && fetched.Ok? ==>
              && o.client == cl.(cache := StoreBody(cl.cache, fetched.value, now).cache)
              && (StoreBody(cl.cache, fetched.value, now).result.Ok? ==> o.result == Ok(fetched.value))
              && (StoreBody(cl.cache, fetched.value, now).result.Err? ==>
                    o.result == Err(CacheFailed(StoreBody(cl.cache, fetched.value, now).result.error)))
    ensures ClientValid(cl) ==> ClientValid(o.client)
    ensures AttachmentsOwned(cl.cache) ==> AttachmentsOwned(o.client.cache)
  {
    match GetBody(cl.cache, uid)
    case Some(b) => Outcome(Ok(b), cl)
    case None =>
      if cl.config.provider !in cl.providers then Outcome(Err(ProviderNotFound), cl)
      else
        match fetched
        case Err(e) => Outcome(Err(ProviderFailed(e)), cl)
        case Ok(body) =>
          StoreBodyKeepsOwned(cl.cache, body, now);
          var s := StoreBody(cl.cache, body, now);
          Outcome(Lift(s.result, body), cl.(cache := s.cache))
  }

  /** On a cache hit the provider's answer and the clock are irrelevant. */
  lemma HitIgnoresProvider(cl: Client, uid: nat, f1: Result<Body, string>, f2: Result<Body, string>, t1: nat, t2: nat)
    requires KeysUnique(cl.cache.bodies, BodyUid)
    requires GetBody(cl.cache, uid).Some?
    ensures FetchBody(cl, uid, f1, t1) == FetchBody(cl, uid, f2, t2)
  {
  }

  /** Cache-aside: after a miss that the provider answers with the body for
      a uid that has a header row, the next fetch is a hit, whatever the
      provider would say then. The hit carries the stored content with the
      uid's earlier attachment rows ahead of the body's own, which is the
      body itself when every attachment row has a body. The miss itself
      succeeds when the body's attachments fit in the budget. */
  lemma MissThenHit(cl: Client, uid: nat, body: Body, now: nat, later: Result<Body, string>, t: nat)
    requires ClientValid(cl)
    requires GetBody(cl.cache, uid).None? && HasHeader(cl.cache.headers, uid)
    requires body.uid == uid
    ensures cl.cache.currentSize + Sum(body.attachments, AttachmentSize) <= cl.cache.maxSizeBytes ==>
              FetchBody(cl, uid, Ok(body), now).result == Ok(body)
    ensures FetchBody(FetchBody(cl, uid, Ok(body), now).client, uid, later, t)
            == Outcome(Ok(Body(uid, body.content, body.contentType,
                               AttachmentsOf(cl.cache.attachments, uid) + body.attachments)),
                       FetchBody(cl, uid, Ok(body), now).client)
    ensures AttachmentsOwned(cl.cache) ==>
              FetchBody(FetchBody(cl, uid, Ok(body), now).client, uid, later, t)
              == Outcome(Ok(body), FetchBody(cl, uid, Ok(body), now).client)
  {
    StoreBodyThenGet(cl.cache, body, now);
    if AttachmentsOwned(cl.cache) {
      UnownedUidHasNoAttachments(cl.cache, uid);
      StoreBodyRoundTrip(cl.cache, body, now);
    }
  }

  /** A miss for a uid without a header row is refused by the cache: the
      fetched body is not returned and nothing changes. */
  lemma MissWithoutHeaderFails(cl: Client, uid: nat, body: Body, now: nat)
    requires ClientValid(cl)
    requires GetBody(cl.cache, uid).None? && !HasHeader(cl.cache.headers, uid)
    requires body.uid == uid
    ensures FetchBody(cl, uid, Ok(body), now) == Outcome(Err(CacheFailed(ForeignKeyViolation)), cl)
  {
  }

  /** A client built by `new` never reports a missing provider. */
  lemma NoMissingProvider(cl: Client, uid: nat, fetched: Result<Body, string>, now: nat)
    requires ClientValid(cl)
    ensures SyncHeaders(cl, Err(""), now).result != Err(ProviderNotFound)
    ensures FetchBody(cl, uid, fetched, now).result != Err(ProviderNotFound)
  {
  }

  /** `search_emails` delegates to the cache. */
  function SearchEmails(cl: Client, query: string): (r: seq<Header>)
    ensures DateDescending(r)
    ensures forall h :: h in r <==> (exists x :: x in cl.cache.headers && x.header == h) && HeaderMatches(h, query)
  {
    SearchHeaders(cl.cache, query)
  }

  /** `cleanup_cache` delegates to the cache's `cleanup`. */
  function CleanupCache(cl: Client): (o: Outcome<()>)
    ensures o.result.Ok? <==> Cleanup(cl.cache).result.Ok?
    ensures o.result.Err? ==> o.client == cl
    ensures o.client.config == cl.config && o.client.providers == cl.providers
    ensures o.client.cache.bodies == cl.cache.bodies && o.client.cache.attachments == cl.cache.attachments
    ensures o.result.Ok? ==> o.client.cache.currentSize <= o.client.cache.maxSizeBytes
    ensures ClientValid(cl) ==> ClientValid(o.client)
  {
    CleanupIdempotent(cl.cache);
    var s := Cleanup(cl.cache);
    Outcome(Lift(s.result, ()), cl.(cache := s.cache))
  }

  /** `enforce_memory_limits`: cleans the cache only when its counter
      exceeds the configured budget, and passes on cleanup's error. */
  function EnforceMemoryLimits(cl: Client): (o: Outcome<()>)
    ensures GetMemoryUsage(cl.cache) <= cl.config.cacheSizeMb * 1048576 ==> o == Outcome(Ok(()), cl)
    ensures GetMemoryUsage(cl.cache) > cl.config.cacheSizeMb * 1048576 ==> o == CleanupCache(cl)
  {
    if GetMemoryUsage(cl.cache) > cl.config.cacheSizeMb * MiB then CleanupCache(cl) else Outcome(Ok(()), cl)
  }

  /** With the cache's budget taken from the configuration, enforcing the
      memory limit is exactly `cleanup_cache`: it succeeds exactly when
      cleanup does, success leaves the counter within budget, and failure
      changes nothing. */
  lemma EnforceMemoryIsCleanup(cl: Client)
    requires ClientValid(cl)
    ensures EnforceMemoryLimits(cl) == CleanupCache(cl)
    ensures EnforceMemoryLimits(cl).result.Ok? <==> Cleanup(cl.cache).result.Ok?
    ensures EnforceMemoryLimits(cl).result.Ok? ==>
              EnforceMemoryLimits(cl).client.cache.currentSize <= EnforceMemoryLimits(cl).client.cache.maxSizeBytes
    ensures EnforceMemoryLimits(cl).result.Err? ==> EnforceMemoryLimits(cl).client == cl
  {
  }
}

=== FILE: memory_manager.dfy ===
/** The shell's `MemoryManager`: a profiler for the shell process plus the
    default budget, and the compliance verdict it derives from the
    profiler's budget report. The verdict works on the report's rounded-down
    megabytes, the report's own violations on exact byte counts. */
module MemoryManager {
  import MemoryProfiler
  import Rows

  datatype ViolationSeverity = Low | Medium | High | Critical

  datatype BudgetViolation = BudgetViolation(metric: string, limitMb: nat, actualMb: nat, severity: ViolationSeverity)

  datatype BudgetCompliance = BudgetCompliance(isCompliant: bool, violations: seq<BudgetViolation>, currentUsageMb: nat)

  datatype Manager = Manager(profiler: MemoryProfiler.Profiler, budget: MemoryProfiler.MemoryBudget)

  /** `MemoryManager::new`. */
  function New(processName: string): (m: Manager)
    ensures m.profiler == MemoryProfiler.New(processName)
    ensures m.budget == MemoryProfiler.DefaultBudget()
  {
    Manager(MemoryProfiler.New(processName), MemoryProfiler.DefaultBudget())
  }

  /** Position of a metric in the order the checks run. */
  function Rank(v: BudgetViolation): nat {
    if v.metric == "cold_start" then 0 else if v.metric == "idle_tab" then 1 else 2
  }

  /** Whether the verdict carries a violation for the metric. */
  predicate Has(c: BudgetCompliance, metric: string) {
    exists i :: 0 <= i < |c.violations| && c.violations[i].metric == metric
  }

  /** The three checks of `check_budget_compliance` on a usage figure in
      megabytes: each budget strictly exceeded gives one violation with its
      fixed severity, in the order cold start, idle tab, ten tabs; the
      verdict is compliant exactly when there is none. */
  function Evaluate(budget: MemoryProfiler.MemoryBudget, usageMb: nat): (c: BudgetCompliance)
    ensures c.isCompliant <==> |c.violations| == 0
    ensures c.currentUsageMb == usageMb
    ensures |c.violations| <= 3
    ensures Has(c, "cold_start") <==> usageMb > budget.coldStartMb
    ensures Has(c, "idle_tab") <==> usageMb > budget.idleTabMb
    ensures Has(c, "ten_tabs") <==> usageMb > budget.tenTabsMb
    ensures forall i, j :: 0 <= i < j < |c.violations| ==> Rank(c.violations[i]) < Rank(c.violations[j])
    ensures forall v :: v in c.violations ==> v.actualMb == usageMb
    ensures forall v :: v in c.violations && v.metric == "cold_start" ==> v.severity == High && v.limitMb == budget.coldStartMb
    ensures forall v :: v in c.violations && v.metric == "idle_tab" ==> v.severity == Medium && v.limitMb == budget.idleTabMb
    ensures forall v :: v in c.violations && v.metric == "ten_tabs" ==> v.severity == Critical && v.limitMb == budget.tenTabsMb
  {
    var cold := if usageMb > budget.coldStartMb then [BudgetViolation("cold_start", budget.coldStartMb, usageMb, High)] else [];
    var idle := if usageMb > budget.idleTabMb then [BudgetViolation("idle_tab", budget.idleTabMb, usageMb, Medium)] else [];
    var ten := if usageMb > budget.tenTabsMb then [BudgetViolation("ten_tabs", budget.tenTabsMb, usageMb, Critical)] else [];
    var vs := cold + idle + ten;
    var c := BudgetCompliance(|vs| == 0, vs, usageMb);
    assert |cold| > 0 ==> vs[0] == cold[0];
    assert |idle| > 0 ==> vs[|cold|] == idle[0];
    assert |ten| > 0 ==> vs[|cold| + |idle|] == ten[0];
    c
  }

  /** `check_budget_compliance`: judges the profiler's budget report for the
      current process table. */
  function CheckBudgetCompliance(m: Manager, system: seq<MemoryProfiler.SystemProcess>, now: nat): (c: BudgetCompliance)
    ensures c.currentUsageMb == MemoryProfiler.MonitorBudget(m.profiler, system, now).totalRssMb
    ensures c.isCompliant <==> c.currentUsageMb <= m.budget.coldStartMb
                               && c.currentUsageMb <= m.budget.idleTabMb
                               && c.currentUsageMb <= m.budget.tenTabsMb
  {
    var c := Evaluate(m.budget, MemoryProfiler.MonitorBudget(m.profiler, system, now).totalRssMb);
    assert c.isCompliant <==> !Has(c, "cold_start") && !Has(c, "idle_tab") && !Has(c, "ten_tabs") by {
      if |c.violations| > 0 {
        var v := c.violations[0];
        assert v.metric == "cold_start" || v.metric == "idle_tab" || v.metric == "ten_tabs";
      }
    }
    c
  }

  /** All three violations a usage figure can raise, in check order. */
  function AllViolations(budget: MemoryProfiler.MemoryBudget, usageMb: nat): seq<BudgetViolation> {
    [BudgetViolation("cold_start", budget.coldStartMb, usageMb, High),
     BudgetViolation("idle_tab", budget.idleTabMb, usageMb, Medium),
     BudgetViolation("ten_tabs", budget.tenTabsMb, usageMb, Critical)]
  }

  /** Under the default budget (80 < 120 < 450 MB) the violations are a
      prefix of cold start, idle tab, ten tabs, and the verdict is compliant
      exactly up to 80 MB. */
  lemma DefaultViolationsArePrefix(usageMb: nat)
    ensures var c := Evaluate(MemoryProfiler.DefaultBudget(), usageMb);
            c.violations == AllViolations(MemoryProfiler.DefaultBudget(), usageMb)[..|c.violations|]
    ensures Evaluate(MemoryProfiler.DefaultBudget(), usageMb).isCompliant <==> usageMb <= 80
  {
  }

  /** The verdict and the report disagree on the cold-start budget: the
      report flags any byte over 80 MiB, the verdict only usage of 81 MiB or
      more, so a usage between the two is flagged by one and compliant in
      the other. */
  lemma VerdictLagsReport(name: string, system: seq<MemoryProfiler.SystemProcess>, now: nat)
    ensures var report := MemoryProfiler.MonitorBudget(MemoryProfiler.New(name), system, now);
            var c := CheckBudgetCompliance(New(name), system, now);
            var rss := Rows.Sum(report.processes, MemoryProfiler.Rss);
            && (MemoryProfiler.Flags(report, "cold_start") <==> rss > 80 * MemoryProfiler.MiB)
            && (c.isCompliant <==> rss < 81 * MemoryProfiler.MiB)
  {
  }
}

=== FILE: memory_profiler.dfy ===
/** The memory profiler's bookkeeping: the ring of the last 100 snapshots,
    the per-name process filter, the budget report with its two threshold
    violations, and the optimiser's suggestion rules. The operating
    system's process table is a parameter (`system`), as is the clock;
    byte counts are unbounded naturals. */
module MemoryProfiler {
  import opened Strings
  import opened Rows

  /** One entry of the operating system's process table after a refresh. */
  datatype SystemProcess = SystemProcess(pid: nat, name: string, virtualMemory: nat, memory: nat)

  /** `ProcessMemoryInfo` without the floating-point CPU share. */
  datatype ProcessInfo = ProcessInfo(pid: nat, name: string, virtualMemory: nat, residentMemory: nat, threads: nat)

  datatype Snapshot = Snapshot(
    timestamp: nat,
    totalMemory: nat,
    availableMemory: nat,
    processes: map<string, ProcessInfo>)

  datatype MemoryBudget = MemoryBudget(
    coldStartMb: nat,
    idleTabMb: nat,
    tenTabsMb: nat,
    emailSyncMb: nat,
    vpnControlMb: nat)

  datatype Profiler = Profiler(snapshots: seq<Snapshot>, budget: MemoryBudget, processName: string)

  const MiB: nat := 1048576

  /** How many snapshots the profiler keeps. */
  const MaxSnapshots: nat := 100

  /** `MemoryBudget::default`, in megabytes. */
  function DefaultBudget(): (b: MemoryBudget)
    ensures b.coldStartMb == 80 && b.idleTabMb == 120 && b.tenTabsMb == 450
    ensures b.emailSyncMb == 40 && b.vpnControlMb == 10
  {
    MemoryBudget(80, 120, 450, 40, 10)
  }

  /** `MemoryProfiler::new`. */
  function New(processName: string): (p: Profiler)
    ensures p.snapshots == [] && p.budget == DefaultBudget() && p.processName == processName
  {
    Profiler([], DefaultBudget(), processName)
  }

  /** `Clone`: the budget and process name carry over, the history does not. */
  function Clone(p: Profiler): (r: Profiler)
    ensures r.snapshots == []
    ensures r.budget == p.budget && r.processName == p.processName
  {
    Profiler([], p.budget, p.processName)
  }

  /** A clone behaves like a profiler freshly made for the same name, except
      that it keeps a budget that was changed. */
  lemma CloneIsFresh(p: Profiler)
    ensures p.budget == DefaultBudget() ==> Clone(p) == New(p.processName)
    ensures Clone(Clone(p)) == Clone(p)
  {
  }

  // ---------------------------------------------------------------------
  // Snapshots

  /** What the source records for a process: thread counts are always 1. */
  function InfoOf(sp: SystemProcess): (i: ProcessInfo)
    ensures i.pid == sp.pid && i.name == sp.name
    ensures i.virtualMemory == sp.virtualMemory && i.residentMemory == sp.memory
    ensures i.threads == 1
  {
    ProcessInfo(sp.pid, sp.name, sp.virtualMemory, sp.memory, 1)
  }

  /** The snapshot map's key: `"<name>:<pid>"`. */
  function ProcessKey(name: string, pid: nat): string {
    name + ":" + Decimal(pid)
  }

  /** The key determines the process: the pid is the digit run after the
      last colon, so neither a colon in a name nor trailing digits in a
      name can make two processes collide. */
  lemma ProcessKeyInjective(n1: string, p1: nat, n2: string, p2: nat)
    requires ProcessKey(n1, p1) == ProcessKey(n2, p2)
    ensures n1 == n2 && p1 == p2
  {
    var k := ProcessKey(n1, p1);
    var d1, d2 := Decimal(p1), Decimal(p2);
    if |d1| < |d2| {
      ColonBeforeDigits(n1, d1, n2, d2);
    } else if |d2| < |d1| {
      ColonBeforeDigits(n2, d2, n1, d1);
    } else {
      assert d1 == k[|k| - |d1|..] == d2;
      assert n1 == k[..|n1|] == n2;
      DecimalRoundTrip(p1);
      DecimalRoundTrip(p2);
    }
  }

  /** A colon followed by a shorter digit run cannot end where a longer
      digit run ends. */
  lemma ColonBeforeDigits(n1: string, d1: string, n2: string, d2: string)
    requires |d1| < |d2|
    requires forall i :: 0 <= i < |d2| ==> IsDigit(d2[i])
    ensures n1 + ":" + d1 != n2 + ":" + d2
  {
    var k1, k2 := n1 + ":" + d1, n2 + ":" + d2;
    if |k1| == |k2| {
      var i := |k1| - |d1| - 1;
      assert k1[i] == ':';
      assert k2[i] == d2[i - |n2| - 1];
    }
  }

  /** The process map of a snapshot: one entry per key, a later process
      replacing an earlier one under the same key. */
  function ProcessMap(system: seq<SystemProcess>): (m: map<string, ProcessInfo>)
    ensures forall k :: k in m <==> exists i :: 0 <= i < |system| && ProcessKey(system[i].name, system[i].pid) == k
    ensures forall k :: k in m ==> ProcessKey(m[k].name, m[k].pid) == k && m[k].threads == 1
  {
    if |system| == 0 then map[]
    else
      var last := system[|system| - 1];
      var m := ProcessMap(system[..|system| - 1]);
      assert forall i :: 0 <= i < |system| - 1 ==> system[..|system| - 1][i] == system[i];
      m[ProcessKey(last.name, last.pid) := InfoOf(last)]
  }

  /** Every process of the table appears in the snapshot under its own key,
      with its own name, pid and memory figures. */
  lemma {:induction false} SnapshotListsEveryProcess(system: seq<SystemProcess>, i: nat)
    requires i < |system|
    requires forall a, b :: 0 <= a < b < |system| ==> system[a].pid != system[b].pid
    ensures ProcessKey(system[i].name, system[i].pid) in ProcessMap(system)
    ensures ProcessMap(system)[ProcessKey(system[i].name, system[i].pid)] == InfoOf(system[i])
  {
    var n := |system|;
    var last := system[n - 1];
    var k := ProcessKey(system[i].name, system[i].pid);
    if i < n - 1 {
      var init := system[..n - 1];
      assert init[i] == system[i];
      SnapshotListsEveryProcess(init, i);
      if ProcessKey(last.name, last.pid) == k {
        ProcessKeyInjective(last.name, last.pid, system[i].name, system[i].pid);
        assert false;
      }
    }
  }

  /** Appends a snapshot and drops the oldest one once more than 100 are
      held. */
  function Retain(snapshots: seq<Snapshot>, s: Snapshot): (r: seq<Snapshot>)
    ensures |r| > 0 && r[|r| - 1] == s
    ensures |snapshots| <= MaxSnapshots ==> |r| <= MaxSnapshots
    ensures |r| <= |snapshots| + 1
    ensures r == (snapshots + [s])[|snapshots| + 1 - |r|..]
    ensures |r| == |snapshots| + 1 <==> |snapshots| < MaxSnapshots
  {
    var all := snapshots + [s];
    if |all| > MaxSnapshots then all[1..] else all
  }

  datatype Taken = Taken(snapshot: Snapshot, profiler: Profiler)

  /** `take_snapshot`: records the refreshed process table and the system
      totals at time `now`, keeps it, and returns it. */
  function TakeSnapshot(p: Profiler, now: nat, totalMemory: nat, availableMemory: nat, system: seq<SystemProcess>): (t: Taken)
    ensures t.snapshot == Snapshot(now, totalMemory, availableMemory, ProcessMap(system))
    ensures t.profiler.snapshots == Retain(p.snapshots, t.snapshot)
    ensures t.profiler.budget == p.budget && t.profiler.processName == p.processName
  {
    var s := Snapshot(now, totalMemory, availableMemory, ProcessMap(system));
    Taken(s, p.(snapshots := Retain(p.snapshots, s)))
  }

  /** Keeping a run of snapshots one after another. */
  function RetainAll(snapshots: seq<Snapshot>, ss: seq<Snapshot>): seq<Snapshot>
    decreases |ss|
  {
    if |ss| == 0 then snapshots else RetainAll(Retain(snapshots, ss[0]), ss[1..])
  }

  function Max(a: int, b: int): int {
    if a >= b then a else b
  }

  /** Whatever the sequence of snapshots taken, the profiler holds exactly
      the last 100 of everything it has seen, oldest first. */
  lemma {:induction false} LastHundredKept(snapshots: seq<Snapshot>, ss: seq<Snapshot>)
    requires |snapshots| <= MaxSnapshots
    ensures RetainAll(snapshots, ss) == (snapshots + ss)[Max(0, |snapshots| + |ss| - MaxSnapshots)..]
    decreases |ss|
  {
    if |ss| > 0 {
      var s1 := Retain(snapshots, ss[0]);
      LastHundredKept(s1, ss[1..]);
      var d := |snapshots| + 1 - |s1|;
      assert s1 == (snapshots + [ss[0]])[d..];
      assert s1 + ss[1..] == (snapshots + ss)[d..] by {
        assert snapshots + ss == (snapshots + [ss[0]]) + ss[1..];
      }
    }
  }

  // ---------------------------------------------------------------------
  // Budget report

  /** The processes of the table whose name contains `name`, in table
      order: each occurs as often as in the table, the others not at all. */
  function Matching(system: seq<SystemProcess>, name: string): (m: seq<SystemProcess>)
    ensures |m| <= |system|
  {
    if |system| == 0 then []
    else (if Contains(system[0].name, name) then [system[0]] else []) + Matching(system[1..], name)
  }

  lemma {:induction false} MatchingCounts(system: seq<SystemProcess>, name: string)
    ensures forall sp :: multiset(Matching(system, name))[sp] == if Contains(sp.name, name) then multiset(system)[sp] else 0
    decreases |system|
  {
    if |system| > 0 {
      assert system == [system[0]] + system[1..];
      MatchingCounts(system[1..], name);
    }
  }

  /** `get_process_memory`: the records of the processes whose name
      contains the given text. */
  function GetProcessMemory(system: seq<SystemProcess>, name: string): (r: seq<ProcessInfo>)
    ensures |r| <= |system|
    ensures forall x :: x in r <==> exists sp :: sp in system && Contains(sp.name, name) && x == InfoOf(sp)
    ensures (forall i :: 0 <= i < |system| ==> Contains(system[i].name, name)) ==> |r| == |system|
  {
    if |system| == 0 then []
    else
      var rest := GetProcessMemory(system[1..], name);
      assert forall sp :: sp in system <==> sp == system[0] || sp in system[1..];
      if Contains(system[0].name, name) then [InfoOf(system[0])] + rest else rest
  }

  /** One record per matching process, in table order, so `process_count`
      is the number of matching processes. */
  lemma {:induction false} ProcessMemoryIsMatching(system: seq<SystemProcess>, name: string)
    ensures |GetProcessMemory(system, name)| == |Matching(system, name)|
    ensures forall i :: 0 <= i < |Matching(system, name)| ==>
              GetProcessMemory(system, name)[i] == InfoOf(Matching(system, name)[i])
    decreases |system|
  {
    if |system| > 0 {
      var g, m := GetProcessMemory(system, name), Matching(system, name);
      var g', m' := GetProcessMemory(system[1..], name), Matching(system[1..], name);
      ProcessMemoryIsMatching(system[1..], name);
      if Contains(system[0].name, name) {
        assert g == [InfoOf(system[0])] + g' && m == [system[0]] + m';
        forall i | 0 < i < |m| ensures g[i] == InfoOf(m[i]) {
          assert g[i] == g'[i - 1] && m[i] == m'[i - 1];
        }
      } else {
        assert g == g' && m == m';
      }
    }
  }

  /** An empty name matches every process. */
  lemma {:induction false} EmptyNameMatchesAll(system: seq<SystemProcess>)
    ensures |GetProcessMemory(system, "")| == |system|
  {
    forall i | 0 <= i < |system| ensures Contains(system[i].name, "") {
      ContainsSelf(system[i].name);
    }
  }

  function Rss(p: ProcessInfo): nat { p.residentMemory }

  function Virtual(p: ProcessInfo): nat { p.virtualMemory }

  datatype BudgetViolation = BudgetViolation(metric: string, limitMb: nat, actualMb: nat)

  datatype BudgetReport = BudgetReport(
    timestamp: nat,
    totalRssMb: nat,
    totalVirtualMb: nat,
    processCount: nat,
    violations: seq<BudgetViolation>,
    processes: seq<ProcessInfo>)

  /** Whether the report carries a violation for the metric. */
  predicate Flags(r: BudgetReport, metric: string) {
    exists i :: 0 <= i < |r.violations| && r.violations[i].metric == metric
  }

  /** `monitor_budget`: the resident and virtual totals of the profiler's own
      processes, in whole megabytes rounded down, and a violation for each
      budget that the exact byte total exceeds, cold start before idle tab. */
  function MonitorBudget(p: Profiler, system: seq<SystemProcess>, now: nat): (r: BudgetReport)
    ensures r.processes == GetProcessMemory(system, p.processName)
    ensures r.processCount == |r.processes| && r.timestamp == now
    ensures r.totalRssMb == Sum(r.processes, Rss) / MiB && r.totalVirtualMb == Sum(r.processes, Virtual) / MiB
    ensures r.totalRssMb * MiB <= Sum(r.processes, Rss) < (r.totalRssMb + 1) * MiB
    ensures r.totalVirtualMb * MiB <= Sum(r.processes, Virtual) < (r.totalVirtualMb + 1) * MiB
    ensures Flags(r, "cold_start") <==> Sum(r.processes, Rss) > p.budget.coldStartMb * MiB
    ensures Flags(r, "idle_tab") <==> Sum(r.processes, Rss) > p.budget.idleTabMb * MiB
    ensures |r.violations| <= 2
    ensures |r.violations| == 2 ==> r.violations[0].metric == "cold_start" && r.violations[1].metric == "idle_tab"
    ensures forall v :: v in r.violations ==> v.actualMb == r.totalRssMb
    ensures forall v :: v in r.violations && v.metric == "cold_start" ==> v.limitMb == p.budget.coldStartMb
    ensures forall v :: v in r.violations && v.metric == "idle_tab" ==> v.limitMb == p.budget.idleTabMb
  {
    var processes := GetProcessMemory(system, p.processName);
    var rss := Sum(processes, Rss);
    var virt := Sum(processes, Virtual);
    var cold := if rss > p.budget.coldStartMb * MiB
                then [BudgetViolation("cold_start", p.budget.coldStartMb, rss / MiB)] else [];
    var idle := if rss > p.budget.idleTabMb * MiB
                then [BudgetViolation("idle_tab", p.budget.idleTabMb, rss / MiB)] else [];
    var r := BudgetReport(now, rss / MiB, virt / MiB, |processes|, cold + idle, processes);
    assert |cold| > 0 ==> r.violations[0] == cold[0];
    assert |idle| > 0 ==> r.violations[|cold|] == idle[0];
    r
  }

  /** Under the default budget (80 MB below 120 MB) an idle-tab violation
      always comes with a cold-start violation, so the report's violations
      are a prefix of [cold_start, idle_tab]. */
  lemma IdleImpliesColdByDefault(name: string, system: seq<SystemProcess>, now: nat)
    ensures var r := MonitorBudget(New(name), system, now);
            Flags(r, "idle_tab") ==> Flags(r, "cold_start") && |r.violations| == 2
  {
  }

  // ---------------------------------------------------------------------
  // Optimisation suggestions

  datatype OptimizationPriority = Low | Medium | High | Critical

  datatype OptimizationSuggestion = OptimizationSuggestion(
    priority: OptimizationPriority,
    category: string,
    description: string,
    action: string)

  const BudgetSuggestion := OptimizationSuggestion(High, "Memory Budget",
    "Process exceeds memory budget limits", "Implement lazy loading and process sharing")
  const VirtualSuggestion := OptimizationSuggestion(Medium, "Virtual Memory",
    "High virtual memory usage detected", "Review memory allocation patterns")
  const ProcessCountSuggestion := OptimizationSuggestion(Medium, "Process Count",
    "High number of processes detected", "Consider process consolidation")

  /** The fixed order in which the rules are tried. */
  function Rank(s: OptimizationSuggestion): nat {
    if s == BudgetSuggestion then 0 else if s == VirtualSuggestion then 1 else 2
  }

  /** `suggest_optimizations` on a budget report: a high-priority suggestion
      exactly when a budget is exceeded, a medium one exactly when virtual
      memory is more than three times resident memory, another exactly when
      more than ten processes match, in that order and nothing else. */
  function SuggestFor(report: BudgetReport): (r: seq<OptimizationSuggestion>)
    ensures BudgetSuggestion in r <==> |report.violations| > 0
    ensures VirtualSuggestion in r <==> report.totalVirtualMb > report.totalRssMb * 3
    ensures ProcessCountSuggestion in r <==> report.processCount > 10
    ensures forall x :: x in r ==> x == BudgetSuggestion || x == VirtualSuggestion || x == ProcessCountSuggestion
    ensures forall i, j :: 0 <= i < j < |r| ==> Rank(r[i]) < Rank(r[j])
    ensures (exists s :: s in r && s.priority == High) <==> |report.violations| > 0
  {
    (if |report.violations| > 0 then [BudgetSuggestion] else [])
    + (if report.totalVirtualMb > report.totalRssMb * 3 then [VirtualSuggestion] else [])
    + (if report.processCount > 10 then [ProcessCountSuggestion] else [])
  }

  /** `MemoryOptimizer::suggest_optimizations`: the optimiser owns a fresh
      profiler for the name and judges its budget report. */
  function SuggestOptimizations(name: string, system: seq<SystemProcess>, now: nat): (r: seq<OptimizationSuggestion>)
    ensures BudgetSuggestion in r <==> Sum(GetProcessMemory(system, name), Rss) > 80 * MiB
    ensures VirtualSuggestion in r <==>
              Sum(GetProcessMemory(system, name), Virtual) / MiB > (Sum(GetProcessMemory(system, name), Rss) / MiB) * 3
    ensures ProcessCountSuggestion in r <==> |GetProcessMemory(system, name)| > 10
    ensures forall x :: x in r ==> x == BudgetSuggestion || x == VirtualSuggestion || x == ProcessCountSuggestion
    ensures forall i, j :: 0 <= i < j < |r| ==> Rank(r[i]) < Rank(r[j])
    ensures |r| <= 3
  {
    var report := MonitorBudget(New(name), system, now);
    assert |report.violations| > 0 <==> Flags(report, "cold_start") || Flags(report, "idle_tab");
    SuggestFor(report)
  }
}

=== FILE: network.dfy ===
/** The network layer's decision logic: its default configuration, which
    clients `NetworkManager::new` creates, protocol selection, the bounded
    DNS cache with a five-minute lifetime, and proxy choice by scheme.
    Host lookups are parameters; time is in whole seconds. */
module Network {
  import opened Wrappers
  import opened Strings
  import opened Urls

  type Byte = bv8

  datatype ProxyConfig = ProxyConfig(http: Option<string>, https: Option<string>, socks5: Option<string>)

  datatype NetworkConfig = NetworkConfig(
    userAgent: string,
    timeoutSeconds: nat,
    maxRedirects: nat,
    enableHttp2: bool,
    enableHttp3: bool,
    dnsCacheSize: nat,
    proxyConfig: Option<ProxyConfig>)

  /** `NetworkConfig::default`. */
  function DefaultConfig(): (c: NetworkConfig)
    ensures c.userAgent == "Crynn Browser/0.1"
    ensures c.timeoutSeconds == 30 && c.maxRedirects == 10
    ensures c.enableHttp2 && !c.enableHttp3
    ensures c.dnsCacheSize == 1000 && c.proxyConfig.None?
  {
    NetworkConfig("Crynn Browser/0.1", 30, 10, true, false, 1000, None)
  }

  datatype Protocol = Http1_1 | Http2 | Http3

  // ---------------------------------------------------------------------
  // DNS

  datatype IpAddr = IpAddr(octets: seq<Byte>)

  datatype DnsEntry = DnsEntry(ip: IpAddr, expiresAt: nat)

  datatype DnsResolver = DnsResolver(cache: map<string, DnsEntry>, maxSize: nat)

  datatype DnsError = NoHost | LookupFailed(message: string)

  datatype Resolved = Resolved(result: Result<IpAddr, DnsError>, resolver: DnsResolver)

  /** Lifetime of a cached answer, in seconds. */
  const DnsTtl: nat := 300

  function NewResolver(maxSize: nat): (d: DnsResolver)
    ensures |d.cache| == 0 && d.maxSize == maxSize
  {
    DnsResolver(map[], maxSize)
  }

  function Max(a: nat, b: nat): nat {
    if a >= b then a else b
  }

  /** The cache never holds more than `max_size` entries, or one entry when
      `max_size` is zero. */
  predicate Bounded(d: DnsResolver) {
    |d.cache| <= Max(d.maxSize, 1)
  }

  /** A cached answer that has not yet expired. */
  predicate Fresh(d: DnsResolver, host: string, now: nat) {
    host in d.cache && d.cache[host].expiresAt > now
  }

  /** `DnsResolver::resolve` with the lookup as evidently intended: `lookup`
      is what resolving the host name would give (as `lookup_host((host, 0))`
      would ask; `ResolveAsWritten` below passes the bare host). A URL without a host fails at once; a fresh cached entry
      answers without a lookup; otherwise a successful lookup is cached for
      300 s, after emptying the whole cache if it is full. A failed lookup
      changes nothing. */
  function Resolve(d: DnsResolver, u: Url, now: nat, lookup: Result<IpAddr, string>): (r: Resolved)
    ensures u.host.None? ==> r == Resolved(Err(NoHost), d)
    ensures u.host.Some? && Fresh(d, u.host.value, now) ==> r == Resolved(Ok(d.cache[u.host.value].ip), d)
    ensures u.host.Some? && !Fresh(d, u.host.value, now) && lookup.Err? ==>
              r == Resolved(Err(LookupFailed(lookup.error)), d)
    ensures u.host.Some? && !Fresh(d, u.host.value, now) && lookup.Ok? ==>
              && r.result == Ok(lookup.value)
              && r.resolver.maxSize == d.maxSize
              && u.host.value in r.resolver.cache
              && r.resolver.cache[u.host.value] == DnsEntry(lookup.value, now + 300)
              && (|d.cache| >= d.maxSize ==> r.resolver.cache.Keys == {u.host.value})
              && (|d.cache| < d.maxSize ==> r.resolver.cache == d.cache[u.host.value := DnsEntry(lookup.value, now + 300)])
    ensures Bounded(d) ==> Bounded(r.resolver)
  {
    match u.host
    case None => Resolved(Err(NoHost), d)
    case Some(host) =>
      if Fresh(d, host, now) then Resolved(Ok(d.cache[host].ip), d)
      else
        match lookup
        case Err(e) => Resolved(Err(LookupFailed(e)), d)
        case Ok(ip) =>
          var base := if |d.cache| >= d.maxSize then map[] else d.cache;
          assert |base| < d.maxSize ==> |base[host := DnsEntry(ip, now + DnsTtl)]| <= d.maxSize by {
            assert base[host := DnsEntry(ip, now + DnsTtl)].Keys == base.Keys + {host};
          }
          Resolved(Ok(ip), d.(cache := base[host := DnsEntry(ip, now + DnsTtl)]))
  }

  /** On a fresh hit the lookup is never consulted. */
  lemma HitIgnoresLookup(d: DnsResolver, u: Url, now: nat, l1: Result<IpAddr, string>, l2: Result<IpAddr, string>)
    requires u.host.Some? && Fresh(d, u.host.value, now)
    ensures Resolve(d, u, now, l1) == Resolve(d, u, now, l2)
  {
  }

  /** A successful lookup is reused, without a new lookup, for the next
      300 seconds, and not after. */
  lemma CachedForTtl(d: DnsResolver, u: Url, now: nat, ip: IpAddr, later: nat, l: Result<IpAddr, string>)
    requires u.host.Some? && !Fresh(d, u.host.value, now)
    requires now <= later
    ensures var d' := Resolve(d, u, now, Ok(ip)).resolver;
            later < now + 300 <==> Fresh(d', u.host.value, later)
    ensures var d' := Resolve(d, u, now, Ok(ip)).resolver;
            later < now + 300 ==> Resolve(d', u, later, l) == Resolved(Ok(ip), d')
  {
  }

  /** `clear_cache`. */
  function ClearCache(d: DnsResolver): (r: DnsResolver)
    ensures |r.cache| == 0 && r.maxSize == d.maxSize
  {
    d.(cache := map[])
  }

  /** `get_cache_size`. */
  function GetCacheSize(d: DnsResolver): (n: nat)
    ensures n == |d.cache|
  {
    |d.cache|
  }

  /** After a clear, the next resolution of any host must look it up. */
  lemma ClearForcesLookup(d: DnsResolver, u: Url, now: nat, l: Result<IpAddr, string>)
    requires u.host.Some? && l.Err?
    ensures GetCacheSize(ClearCache(d)) == 0
    ensures Resolve(ClearCache(d), u, now, l).result == Err(LookupFailed(l.error))
  {
  }

  /** Whether `to_socket_addrs` on the text reaches a lookup: the part
      after its last `:` must be a port as `u16::from_str` reads it. A port
      holds no `:`, so the `:` found is the last one. */
  predicate PortGiven(target: string) {
    exists i :: 0 <= i < |target| && target[i] == ':' && PortText(target[i + 1..])
  }

  /** `u16::from_str`: one optional leading `+`, then at least one decimal
      digit and nothing else, with a value below 65536. */
  predicate PortText(p: string) {
    if 0 < |p| && p[0] == '+' then UnsignedPort(p[1..]) else UnsignedPort(p)
  }

  predicate UnsignedPort(d: string) {
    && 0 < |d|
    && (forall j :: 0 <= j < |d| ==> IsDigit(d[j]))
    && DigitsValue(d) < 65536
  }

  /** A signed port such as `h:+80` reaches the system resolver, while a
      lone sign is no port. */
  lemma SignedPortReachesLookup(answer: Result<IpAddr, string>)
    ensures ResolveHostnameAsWritten("h:+80", answer) == answer
    ensures ResolveHostnameAsWritten("h:+", answer) == Err("invalid port value")
  {
    assert "h:+80"[2..] == "+80";
    assert "+80"[1..] == "80";
    assert DigitsValue("80") == 80 by {
      assert "80"[..1] == "8";
    }
    assert PortText("h:+80"[2..]);
  }

  /** `resolve_hostname` as written: `lookup_host(hostname)` with the host
      alone. `answer` is what the system resolver would say; it is reached
      only when the text names a port, and `host_str()` never does. */
  function ResolveHostnameAsWritten(hostname: string, answer: Result<IpAddr, string>): (r: Result<IpAddr, string>)
    ensures ':' !in hostname ==> r == Err("invalid socket address")
    ensures ':' in hostname && !PortGiven(hostname) ==> r == Err("invalid port value")
    ensures r.Ok? ==> PortGiven(hostname) && r == answer
  {
    if ':' !in hostname then Err("invalid socket address")
    else if !PortGiven(hostname) then Err("invalid port value")
    else answer
  }

  /** `resolve` with the lookup as written. */
  function ResolveAsWritten(d: DnsResolver, u: Url, now: nat, answer: Result<IpAddr, string>): (r: Resolved)
    ensures u.host.None? ==> r == Resolved(Err(NoHost), d)
    ensures u.host.Some? && !PortGiven(u.host.value) ==>
              r.resolver == d && (r.result.Ok? <==> Fresh(d, u.host.value, now))
    ensures u.host.Some? && PortGiven(u.host.value) ==> r == Resolve(d, u, now, answer)
  {
    match u.host
    case None => Resolve(d, u, now, answer)
    case Some(h) => Resolve(d, u, now, ResolveHostnameAsWritten(h, answer))
  }

  /** As written, a resolver that starts empty never caches a host without
      a port and never succeeds for one, whatever the system resolver
      would answer: a domain name or an IPv4 address from `host_str()`
      always fails. */
  lemma PortlessLookupAlwaysFails(maxSize: nat, u: Url, now: nat, answer: Result<IpAddr, string>)
    requires u.host.Some? && ':' !in u.host.value
    ensures ResolveAsWritten(NewResolver(maxSize), u, now, answer)
            == Resolved(Err(LookupFailed("invalid socket address")), NewResolver(maxSize))
  {
  }

  /** Text without a sign whose last character is no digit is no port. */
  lemma UnsignedNonDigitEnd(p: string)
    requires 0 < |p| && p[0] != '+' && !IsDigit(p[|p| - 1])
    ensures !PortText(p)
  {
  }

  /** The bracketed IPv6 form `host_str()` gives fails too: after its last
      `:` comes `1]`, which is no port. */
  lemma BracketedIpv6LookupFails(maxSize: nat, now: nat, answer: Result<IpAddr, string>)
    ensures var u := Url("http", Some("[::1]"), None, "/", None, "http://[::1]/");
            ResolveAsWritten(NewResolver(maxSize), u, now, answer)
            == Resolved(Err(LookupFailed("invalid port value")), NewResolver(maxSize))
  {
    var h := "[::1]";
    forall i | 0 <= i < |h| && h[i] == ':' ensures !PortText(h[i + 1..]) {
      assert i == 1 || i == 2;
      UnsignedNonDigitEnd(h[i + 1..]);
    }
  }

  // ---------------------------------------------------------------------
  // Proxy

  /** `ProxyManager::get_proxy`: no configuration gives no proxy; https
      URLs use the https proxy and every other scheme the http one. */
  function GetProxy(config: Option<ProxyConfig>, u: Url): (r: Option<string>)
    ensures config.None? ==> r.None?
    ensures config.Some? && u.scheme == "https" ==> r == config.value.https
    ensures config.Some? && u.scheme != "https" ==> r == config.value.http
  {
    match config
    case None => None
    case Some(c) => if u.scheme == "https" then c.https else c.http
  }

  /** The socks5 entry is never chosen. */
  lemma Socks5NeverChosen(c: ProxyConfig, u: Url)
    requires c.socks5.Some? && c.http.None? && c.https.None?
    ensures GetProxy(Some(c), u).None?
  {
  }

  // ---------------------------------------------------------------------
  // Manager and protocol choice

  /** The manager's state as far as protocol choice and resolution go:
      which optional clients exist. */
  datatype NetworkManager = NetworkManager(
    config: NetworkConfig,
    hasHttp2Client: bool,
    hasHttp3Client: bool,
    dns: DnsResolver,
    proxy: Option<ProxyConfig>)

  /** Why `NetworkManager::new` fails: `reqwest` rejects a configured
      proxy URL, or the HTTP/1.1 client cannot be built. The HTTP/2 and
      HTTP/3 clients, the resolver and the proxy manager are always
      created. */
  datatype ManagerError = ProxyRejected(url: string) | ClientBuildFailed

  /** Every proxy URL `new` hands to `reqwest` is accepted; the SOCKS5 one
      is never handed over. */
  predicate ProxiesAccepted(config: NetworkConfig, accepts: string -> bool) {
    config.proxyConfig.Some? ==>
      && (config.proxyConfig.value.http.Some? ==> accepts(config.proxyConfig.value.http.value))
      && (config.proxyConfig.value.https.Some? ==> accepts(config.proxyConfig.value.https.value))
  }

  /** `NetworkManager::new`. The http proxy URL is checked first, then the
      https one, then the HTTP/1.1 client is built; `accepts` is whether
      `reqwest::Proxy` takes a URL and `builds` whether `build()` succeeds.
      On success an HTTP/2 or HTTP/3 client exists exactly when enabled,
      the resolver is sized from the configuration, and the proxy manager
      gets the configuration's proxy settings. */
  function NewManager(config: NetworkConfig, accepts: string -> bool, builds: bool): (r: Result<NetworkManager, ManagerError>)
    ensures r.Ok? <==> ProxiesAccepted(config, accepts) && builds
    ensures config.proxyConfig.Some? && config.proxyConfig.value.http.Some?
            && !accepts(config.proxyConfig.value.http.value)
            ==> r == Err(ProxyRejected(config.proxyConfig.value.http.value))
    ensures config.proxyConfig.Some?
            && (config.proxyConfig.value.http.Some? ==> accepts(config.proxyConfig.value.http.value))
            && config.proxyConfig.value.https.Some? && !accepts(config.proxyConfig.value.https.value)
            ==> r == Err(ProxyRejected(config.proxyConfig.value.https.value))
    ensures ProxiesAccepted(config, accepts) && !builds ==> r == Err(ClientBuildFailed)
    ensures r.Ok? ==>
              && r.value.hasHttp2Client == config.enableHttp2 && r.value.hasHttp3Client == config.enableHttp3
              && r.value.dns == NewResolver(config.dnsCacheSize) && r.value.proxy == config.proxyConfig
              && r.value.config == config
  {
    var px := config.proxyConfig;
    if px.Some? && px.value.http.Some? && !accepts(px.value.http.value) then
      Err(ProxyRejected(px.value.http.value))
    else if px.Some? && px.value.https.Some? && !accepts(px.value.https.value) then
      Err(ProxyRejected(px.value.https.value))
    else if !builds then
      Err(ClientBuildFailed)
    else
      Ok(NetworkManager(config, config.enableHttp2, config.enableHttp3, NewResolver(config.dnsCacheSize), config.proxyConfig))
  }

  /** The priority order of `select_protocol`, given what the server-support
      probes answer: HTTP/3, then HTTP/2, each only when enabled and its
      client exists, and HTTP/1.1 otherwise. */
  function SelectProtocolWith(m: NetworkManager, supportsHttp3: bool, supportsHttp2: bool): (p: Protocol)
    ensures p == Http3 <==> m.config.enableHttp3 && m.hasHttp3Client && supportsHttp3
    ensures p == Http2 <==> !(m.config.enableHttp3 && m.hasHttp3Client && supportsHttp3)
                            && m.config.enableHttp2 && m.hasHttp2Client && supportsHttp2
  {
    if m.config.enableHttp3 && m.hasHttp3Client && supportsHttp3 then Http3
    else if m.config.enableHttp2 && m.hasHttp2Client && supportsHttp2 then Http2
    else Http1_1
  }

  /** `select_protocol` with the probes as written: HTTP/3 support is
      always reported false and HTTP/2 support always true. */
  function SelectProtocol(m: NetworkManager): (p: Protocol)
    ensures p != Http3
    ensures p == Http2 <==> m.config.enableHttp2 && m.hasHttp2Client
  {
    SelectProtocolWith(m, false, true)
  }

  /** For a manager built by `new`, HTTP/2 is chosen exactly when enabled;
      the default configuration therefore uses HTTP/2. */
  lemma ProtocolFromConfig(config: NetworkConfig, accepts: string -> bool, builds: bool)
    ensures NewManager(config, accepts, builds).Ok? ==>
              SelectProtocol(NewManager(config, accepts, builds).value)
              == (if config.enableHttp2 then Http2 else Http1_1)
    ensures NewManager(DefaultConfig(), accepts, builds).Ok? <==> builds
    ensures builds ==> SelectProtocol(NewManager(DefaultConfig(), accepts, builds).value) == Http2
  {
  }
}

=== FILE: rows.dfy ===
/** Generic operations on a table held as a sequence of rows: the
    uniqueness of a key column, key lookup, `DELETE … WHERE`, upsert by
    key (`INSERT OR REPLACE`), column sums, and the eviction query
    `SELECT … ORDER BY <column> ASC LIMIT k` followed by deleting what it
    returned. Row order carries no meaning: a SQL table is a bag. */
module Rows {
  import opened Wrappers

  /** No two rows share a key. */
  predicate KeysUnique<T(!new), K(==)>(rows: seq<T>, id: T -> K) {
    forall i, j :: 0 <= i < j < |rows| ==> id(rows[i]) != id(rows[j])
  }

  /** Position of the first row with key `k`, if any. */
  function FindKey<T(!new), K(==)>(rows: seq<T>, id: T -> K, k: K): (r: Option<nat>)
    ensures r.Some? ==> r.value < |rows| && id(rows[r.value]) == k
    ensures r.Some? ==> forall j :: 0 <= j < r.value ==> id(rows[j]) != k
    ensures r.None? <==> forall j :: 0 <= j < |rows| ==> id(rows[j]) != k
  {
    if |rows| == 0 then None
    else if id(rows[0]) == k then Some(0)
    else
      match FindKey(rows[1..], id, k)
      case None => None
      case Some(i) => Some(i + 1)
  }

  /** `DELETE FROM t WHERE NOT keep(row)`: the rows that satisfy `keep`, in order. */
  function Filter<T(!new)>(rows: seq<T>, keep: T -> bool): (r: seq<T>)
    ensures |r| <= |rows|
    ensures forall x :: x in r <==> x in rows && keep(x)
    ensures multiset(r) <= multiset(rows)
  {
    if |rows| == 0 then []
    else
      assert rows == [rows[0]] + rows[1..];
      if keep(rows[0]) then [rows[0]] + Filter(rows[1..], keep)
      else Filter(rows[1..], keep)
  }

  lemma {:induction false} FilterKeepsUnique<T(!new), K>(rows: seq<T>, keep: T -> bool, id: T -> K)
    requires KeysUnique(rows, id)
    ensures KeysUnique(Filter(rows, keep), id)
  {
    if |rows| > 0 {
      FilterKeepsUnique(rows[1..], keep, id);
      var rest := Filter(rows[1..], keep);
      if keep(rows[0]) {
        var r := [rows[0]] + rest;
        forall i, j | 0 <= i < j < |r| ensures id(r[i]) != id(r[j]) {
          if i == 0 {
            assert r[j] in rows[1..];
          }
        }
      }
    }
  }

  /** Keeping everything is the identity. */
  lemma {:induction false} FilterAll<T(!new)>(rows: seq<T>, keep: T -> bool)
    requires forall x :: x in rows ==> keep(x)
    ensures Filter(rows, keep) == rows
  {
    if |rows| > 0 {
      FilterAll(rows[1..], keep);
    }
  }

  /** `DELETE FROM t WHERE id = k`. */
  function DeleteKey<T(!new), K(==)>(rows: seq<T>, id: T -> K, k: K): (r: seq<T>)
    ensures forall x :: x in r <==> x in rows && id(x) != k
    ensures KeysUnique(rows, id) ==> KeysUnique(r, id)
    ensures KeysUnique(rows, id) ==>
              |r| == (if FindKey(rows, id, k).Some? then |rows| - 1 else |rows|)
  {
    if |rows| == 0 then []
    else
      var rest := DeleteKey(rows[1..], id, k);
      assert KeysUnique(rows, id) ==> KeysUnique(rows[1..], id) by {
        if KeysUnique(rows, id) {
          forall i, j | 0 <= i < j < |rows[1..]| ensures id(rows[1..][i]) != id(rows[1..][j]) {
            assert rows[1..][i] == rows[i + 1] && rows[1..][j] == rows[j + 1];
          }
        }
      }
      if id(rows[0]) == k then
        assert KeysUnique(rows, id) ==> FindKey(rows[1..], id, k).None? by {
          if KeysUnique(rows, id) {
            forall j | 0 <= j < |rows[1..]| ensures id(rows[1..][j]) != k {
              assert rows[1..][j] == rows[j + 1];
            }
          }
        }
        rest
      else
        var r := [rows[0]] + rest;
        assert KeysUnique(rows, id) ==> KeysUnique(r, id) by {
          if KeysUnique(rows, id) {
            forall i, j | 0 <= i < j < |r| ensures id(r[i]) != id(r[j]) {
              if i == 0 {
                assert r[j] in rows[1..];
                var j' :| 0 <= j' < |rows[1..]| && rows[1..][j'] == r[j];
                assert rows[j' + 1] == r[j];
              }
            }
          }
        }
        r
  }

  /** `INSERT OR REPLACE` on a table whose unique column is `id`: the row
      holding the new row's key, if any, is deleted, then the new row is
      added. */
  function Upsert<T(!new), K(==)>(rows: seq<T>, id: T -> K, row: T): (r: seq<T>)
    ensures forall x :: x in r <==> x == row || (x in rows && id(x) != id(row))
    ensures KeysUnique(rows, id) ==> KeysUnique(r, id)
    ensures KeysUnique(rows, id) ==>
              |r| == (if FindKey(rows, id, id(row)).Some? then |rows| else |rows| + 1)
  {
    var others := DeleteKey(rows, id, id(row));
    assert KeysUnique(rows, id) ==> KeysUnique(others + [row], id) by {
      if KeysUnique(rows, id) {
        var r := others + [row];
        forall i, j | 0 <= i < j < |r| ensures id(r[i]) != id(r[j]) {
          if j == |r| - 1 {
            assert r[i] in others;
          } else {
            assert r[i] == others[i] && r[j] == others[j];
          }
        }
      }
    }
    others + [row]
  }

  /** The sum of a numeric column. */
  function Sum<T>(rows: seq<T>, size: T -> nat): nat {
    if |rows| == 0 then 0 else size(rows[0]) + Sum(rows[1..], size)
  }

  lemma {:induction false} SumAppend<T>(a: seq<T>, b: seq<T>, size: T -> nat)
    ensures Sum(a + b, size) == Sum(a, size) + Sum(b, size)
  {
    if |a| > 0 {
      assert (a + b)[1..] == a[1..] + b;
      SumAppend(a[1..], b, size);
    } else {
      assert a + b == b;
    }
  }

  function Min(a: nat, b: nat): nat {
    if a <= b then a else b
  }

  /** Index of a row with the smallest key (the first one on ties). */
  function MinIndex<T>(rows: seq<T>, key: T -> nat): (i: nat)
    requires |rows| > 0
    ensures i < |rows|
    ensures forall j :: 0 <= j < |rows| ==> key(rows[i]) <= key(rows[j])
  {
    if |rows| == 1 then 0
    else
      var j := MinIndex(rows[1..], key);
      if key(rows[0]) <= key(rows[1..][j]) then 0 else j + 1
  }

  function RemoveAt<T>(rows: seq<T>, i: nat): (r: seq<T>)
    requires i < |rows|
    ensures |r| == |rows| - 1
    ensures multiset(r) + multiset{rows[i]} == multiset(rows)
  {
    assert rows == rows[..i] + [rows[i]] + rows[i + 1..];
    rows[..i] + rows[i + 1..]
  }

  lemma RemoveAtKeepsUnique<T(!new), K>(rows: seq<T>, i: nat, id: T -> K)
    requires i < |rows|
    requires KeysUnique(rows, id)
    ensures KeysUnique(RemoveAt(rows, i), id)
  {
    var r := RemoveAt(rows, i);
    forall a, b | 0 <= a < b < |r| ensures id(r[a]) != id(r[b]) {
      var a' := if a < i then a else a + 1;
      var b' := if b < i then b else b + 1;
      assert r[a] == rows[a'] && r[b] == rows[b'];
    }
  }

  /** What the eviction query is allowed to do: split `rows` into what is
      kept and what is deleted, deleting `min(k, |rows|)` rows, none of
      which has a larger `key` than any kept row. Which of several rows
      with equal keys goes is left open, as `ORDER BY` leaves it open. */
  ghost predicate OldestSplit<T(!new)>(rows: seq<T>, key: T -> nat, k: nat, kept: seq<T>, evicted: seq<T>) {
    && |evicted| == Min(k, |rows|)
    && multiset(kept) + multiset(evicted) == multiset(rows)
    && forall e, x :: e in evicted && x in kept ==> key(e) <= key(x)
  }

  /** Every element of a sub-multiset is an element of the whole. */
  lemma SubMultisetMembers<T>(a: seq<T>, b: seq<T>)
    requires multiset(a) <= multiset(b)
    ensures forall x :: x in a ==> x in b
  {
    forall x | x in a ensures x in b {
      assert multiset(a)[x] > 0;
    }
  }

  /** Deletes the `k` rows with the smallest `key`, taking one smallest row
      at a time; returns (kept, evicted). */
  function EvictOldest<T(!new)>(rows: seq<T>, key: T -> nat, k: nat): (r: (seq<T>, seq<T>))
    ensures OldestSplit(rows, key, k, r.0, r.1)
    ensures |r.0| == |rows| - Min(k, |rows|)
    decreases k
  {
    if k == 0 || |rows| == 0 then (rows, [])
    else
      var i := MinIndex(rows, key);
      var rest := RemoveAt(rows, i);
      var (kept, ev) := EvictOldest(rest, key, k - 1);
      OldestSplitStep(rows, key, k, i, rest, kept, ev);
      (kept, [rows[i]] + ev)
  }

  /** One step of `EvictOldest`: deleting a smallest row and then the
      `k - 1` oldest of the rest deletes the `k` oldest. */
  lemma OldestSplitStep<T(!new)>(rows: seq<T>, key: T -> nat, k: nat, i: nat, rest: seq<T>, kept: seq<T>, ev: seq<T>)
    requires 0 < k && i < |rows|
    requires forall j :: 0 <= j < |rows| ==> key(rows[i]) <= key(rows[j])
    requires |rest| == |rows| - 1 && multiset(rest) + multiset{rows[i]} == multiset(rows)
    requires OldestSplit(rest, key, k - 1, kept, ev)
    ensures OldestSplit(rows, key, k, kept, [rows[i]] + ev)
    ensures |kept| == |rows| - Min(k, |rows|)
  {
    assert multiset([rows[i]] + ev) == multiset{rows[i]} + multiset(ev);
    SubMultisetMembers(kept, rest);
    SubMultisetMembers(rest, rows);
    forall e, x | e in [rows[i]] + ev && x in kept ensures key(e) <= key(x) {
      if e != rows[i] {
        assert e in ev;
      } else {
        assert x in rows;
      }
    }
    assert |multiset(kept)| + |multiset(ev)| == |multiset(rest)|;
  }

  /** `after` is `before` with some rows deleted, none of them with a larger
      `key` than any row that stayed. */
  ghost predicate OldestRemoved<T(!new)>(before: seq<T>, after: seq<T>, key: T -> nat) {
    && multiset(after) <= multiset(before)
    && forall x, y :: x in multiset(before) - multiset(after) && y in after ==> key(x) <= key(y)
  }

  /** The rows `EvictOldest` deletes are exactly the multiset difference. */
  lemma EvictOldestRemoves<T(!new)>(rows: seq<T>, key: T -> nat, k: nat)
    ensures multiset(rows) - multiset(EvictOldest(rows, key, k).0) == multiset(EvictOldest(rows, key, k).1)
    ensures OldestRemoved(rows, EvictOldest(rows, key, k).0, key)
  {
    var r := EvictOldest(rows, key, k);
    assert multiset(rows) - multiset(r.0) == multiset(r.1);
    forall x, y | x in multiset(rows) - multiset(r.0) && y in r.0 ensures key(x) <= key(y) {
      assert x in r.1;
    }
  }

  lemma {:induction false} EvictOldestKeepsUnique<T(!new), K>(rows: seq<T>, key: T -> nat, k: nat, id: T -> K)
    requires KeysUnique(rows, id)
    ensures KeysUnique(EvictOldest(rows, key, k).0, id)
    decreases k
  {
    if k != 0 && |rows| != 0 {
      var i := MinIndex(rows, key);
      RemoveAtKeepsUnique(rows, i, id);
      EvictOldestKeepsUnique(RemoveAt(rows, i), key, k - 1, id);
    }
  }

  /** With unique keys no row is both kept and evicted. */
  lemma KeptNotEvicted<T(!new), K>(rows: seq<T>, kept: seq<T>, evicted: seq<T>, id: T -> K, x: T)
    requires KeysUnique(rows, id)
    requires multiset(kept) + multiset(evicted) == multiset(rows)
    requires x in kept
    ensures x !in evicted
  {
    assert x in multiset(rows);
    var i :| 0 <= i < |rows| && rows[i] == x;
    assert multiset(rows)[x] == 1 by {
      MultiplicityOne(rows, id, i);
    }
    assert multiset(kept)[x] >= 1;
  }

  lemma {:induction false} MultiplicityOne<T(!new), K>(rows: seq<T>, id: T -> K, i: nat)
    requires KeysUnique(rows, id)
    requires i < |rows|
    ensures multiset(rows)[rows[i]] == 1
  {
    if i == 0 {
      assert rows == [rows[0]] + rows[1..];
      assert rows[0] !in rows[1..] by {
        forall j | 0 <= j < |rows[1..]| ensures rows[1..][j] != rows[0] {
          assert id(rows[j + 1]) != id(rows[0]);
        }
      }
    } else {
      assert rows == [rows[0]] + rows[1..];
      assert KeysUnique(rows[1..], id) by {
        forall a, b | 0 <= a < b < |rows[1..]| ensures id(rows[1..][a]) != id(rows[1..][b]) {
          assert rows[1..][a] == rows[a + 1] && rows[1..][b] == rows[b + 1];
        }
      }
      MultiplicityOne(rows[1..], id, i - 1);
      assert rows[1..][i - 1] == rows[i];
      assert id(rows[0]) != id(rows[i]);
    }
  }
}

=== FILE: security.dfy ===
/** Certificate pinning and the URL security policy of the network layer.
    Certificates are DER byte strings; URLs are parsed records. */
module Security {
  import opened Wrappers
  import opened Urls

  type Byte = bv8

  type Certificate = seq<Byte>

  datatype CertificatePinner = CertificatePinner(pinned: seq<Certificate>)

  datatype SecurityError =
    | PinningFailed
    | HttpBlocked
    | UnsupportedScheme(scheme: string)
    | MixedContent

  /** Some certificate of the chain equals some pinned certificate byte for
      byte. */
  predicate ChainMatches(pinned: seq<Certificate>, chain: seq<Certificate>) {
    exists i, j :: 0 <= i < |chain| && 0 <= j < |pinned| && chain[i] == pinned[j]
  }

  /** Slice equality, compared byte by byte. */
  method BytesEqual(a: Certificate, b: Certificate) returns (eq: bool)
    ensures eq <==> a == b
  {
    if |a| != |b| {
      return false;
    }
    var k := 0;
    while k < |a|
      invariant 0 <= k <= |a|
      invariant a[..k] == b[..k]
    {
      if a[k] != b[k] {
        assert a[k] != b[k];
        return false;
      }
      assert a[..k + 1] == a[..k] + [a[k]] && b[..k + 1] == b[..k] + [b[k]];
      k := k + 1;
    }
    assert a == a[..k] && b == b[..k];
    return true;
  }

  /** `CertificatePinner::verify`: with no pins every chain passes;
      otherwise the chain passes exactly when one of its certificates is
      pinned, and fails with an error, never with `Ok(false)`. */
  method Verify(p: CertificatePinner, chain: seq<Certificate>) returns (r: Result<bool, SecurityError>)
    ensures |p.pinned| == 0 ==> r == Ok(true)
    ensures r == Ok(true) <==> |p.pinned| == 0 || ChainMatches(p.pinned, chain)
    ensures r.Err? <==> |p.pinned| > 0 && !ChainMatches(p.pinned, chain)
    ensures r != Ok(false)
  {
    if |p.pinned| == 0 {
      return Ok(true);
    }
    var i := 0;
    while i < |chain|
      invariant 0 <= i <= |chain|
      invariant forall a, b :: 0 <= a < i && 0 <= b < |p.pinned| ==> chain[a] != p.pinned[b]
    {
      var j := 0;
      while j < |p.pinned|
        invariant 0 <= j <= |p.pinned|
        invariant forall b :: 0 <= b < j ==> chain[i] != p.pinned[b]
      {
        var same := BytesEqual(p.pinned[j], chain[i]);
        if same {
          return Ok(true);
        }
        j := j + 1;
      }
      i := i + 1;
    }
    return Err(PinningFailed);
  }

  datatype SecurityPolicy = SecurityPolicy(
    requireTls: bool,
    blockMixedContent: bool,
    enforceHsts: bool,
    certificatePinning: Option<CertificatePinner>)

  /** `SecurityPolicy::default`. */
  function DefaultPolicy(): (p: SecurityPolicy)
    ensures p.requireTls && p.blockMixedContent && p.enforceHsts
    ensures p.certificatePinning.None?
  {
    SecurityPolicy(true, true, true, None)
  }

  /** `check_url_security`: https, data and about pass; http passes only
      when TLS is not required; every other scheme fails. */
  function CheckUrlSecurity(u: Url, policy: SecurityPolicy): (r: Result<(), SecurityError>)
    ensures r.Ok? <==>
              u.scheme in {"https", "data", "about"} || (u.scheme == "http" && !policy.requireTls)
    ensures u.scheme == "http" && policy.requireTls ==> r == Err(HttpBlocked)
  {
    if u.scheme == "https" then Ok(())
    else if u.scheme == "http" then
      if policy.requireTls then Err(HttpBlocked) else Ok(())
    else if u.scheme == "data" || u.scheme == "about" then Ok(())
    else Err(UnsupportedScheme(u.scheme))
  }

  /** `check_mixed_content`: an http resource on an https page is refused;
      every other pairing passes. */
  function CheckMixedContent(page: Url, resource: Url): (r: Result<(), SecurityError>)
    ensures r.Err? <==> page.scheme == "https" && resource.scheme == "http"
  {
    if page.scheme == "https" && resource.scheme == "http" then Err(MixedContent) else Ok(())
  }

  /** When the policy requires TLS, any resource it lets through can never
      be mixed content, whatever the page. */
  lemma TlsPolicyExcludesMixedContent(page: Url, resource: Url, policy: SecurityPolicy)
    requires policy.requireTls
    requires CheckUrlSecurity(resource, policy).Ok?
    ensures CheckMixedContent(page, resource).Ok?
  {
  }

  /** Under the default policy the outcome depends on the scheme alone: a
      plain-http URL fails and an https URL passes. */
  lemma DefaultPolicyOutcomes(u: Url)
    ensures u.scheme == "http" ==> CheckUrlSecurity(u, DefaultPolicy()) == Err(HttpBlocked)
    ensures u.scheme == "https" ==> CheckUrlSecurity(u, DefaultPolicy()) == Ok(())
  {
  }
}

=== FILE: sql_like.dfy ===
/** SQLite's `LIKE` operator without an `ESCAPE` clause: `%` matches any
    run of characters, `_` matches exactly one, and any other pattern
    character matches itself with ASCII letters compared case-insensitively
    (SQLite's default; letters outside ASCII compare exactly). */
module SqlLike {
  import opened Strings

  predicate IsWildcard(c: char) {
    c == '%' || c == '_'
  }

  predicate NoWildcards(q: string) {
    forall i :: 0 <= i < |q| ==> !IsWildcard(q[i])
  }

  predicate Like(p: string, s: string)
    decreases |p| + |s|
  {
    if |p| == 0 then |s| == 0
    else if p[0] == '%' then Like(p[1..], s) || (|s| > 0 && Like(p, s[1..]))
    else if |s| == 0 then false
    else if p[0] == '_' then Like(p[1..], s[1..])
    else AsciiLowerChar(p[0]) == AsciiLowerChar(s[0]) && Like(p[1..], s[1..])
  }

  /** The pattern `'%' || q || '%'` the mail search binds. */
  function Surround(q: string): string {
    "%" + q + "%"
  }

  lemma {:induction false} PercentMatchesAll(s: string)
    ensures Like("%", s)
    decreases |s|
  {
    if |s| > 0 {
      PercentMatchesAll(s[1..]);
    }
  }

  lemma {:induction false} LiteralThenPercent(q: string, s: string)
    requires NoWildcards(q)
    ensures Like(q + "%", s) <==> |q| <= |s| && AsciiLower(s[..|q|]) == AsciiLower(q)
    decreases |q|
  {
    if |q| == 0 {
      assert q + "%" == "%";
      PercentMatchesAll(s);
      assert AsciiLower(s[..0]) == AsciiLower(q);
    } else {
      var p := q + "%";
      assert p[0] == q[0] && p[1..] == q[1..] + "%";
      LiteralThenPercent(q[1..], if |s| > 0 then s[1..] else s);
      if |s| > 0 && |q| <= |s| {
        var a := AsciiLower(s[..|q|]);
        var b := AsciiLower(q);
        var a' := AsciiLower(s[1..][..|q| - 1]);
        var b' := AsciiLower(q[1..]);
        assert a == [AsciiLowerChar(s[0])] + a' by {
          assert s[..|q|] == [s[0]] + s[1..][..|q| - 1];
        }
        assert b == [AsciiLowerChar(q[0])] + b' by {
          assert q == [q[0]] + q[1..];
        }
        assert a == b <==> AsciiLowerChar(s[0]) == AsciiLowerChar(q[0]) && a' == b' by {
          if a == b {
            assert a[0] == b[0];
            assert a' == a[1..] && b' == b[1..];
          }
        }
      }
    }
  }

  lemma {:induction false} LeadingPercent(p: string, s: string)
    ensures Like("%" + p, s) <==> exists k :: 0 <= k <= |s| && Like(p, s[k..])
    decreases |s|
  {
    var pp := "%" + p;
    assert pp[0] == '%' && pp[1..] == p;
    if |s| == 0 {
      assert s[0..] == s;
    } else {
      LeadingPercent(p, s[1..]);
      if Like(pp, s) {
        if Like(p, s) {
          assert s[0..] == s;
        } else {
          var k :| 0 <= k <= |s[1..]| && Like(p, s[1..][k..]);
          assert s[1..][k..] == s[k + 1..];
        }
      }
      if k :| 0 <= k <= |s| && Like(p, s[k..]) {
        if k == 0 {
          assert s[0..] == s;
        } else {
          assert s[1..][k - 1..] == s[k..];
        }
      }
    }
  }

  /** For a query without wildcard characters, `LIKE '%q%'` holds exactly
      when the query occurs in the text, ignoring ASCII case. */
  lemma SurroundIsSubstring(q: string, s: string)
    requires NoWildcards(q)
    ensures Like(Surround(q), s) <==> Contains(AsciiLower(s), AsciiLower(q))
  {
    assert Surround(q) == "%" + (q + "%");
    LeadingPercent(q + "%", s);
    ContainsIffOccurs(AsciiLower(s), AsciiLower(q));
    if Like(Surround(q), s) {
      var k :| 0 <= k <= |s| && Like(q + "%", s[k..]);
      MatchAtGivesOccurrence(q, s, k);
    }
    if i: nat :| OccursAt(AsciiLower(s), AsciiLower(q), i) {
      OccurrenceGivesMatchAt(q, s, i);
    }
  }

  lemma MatchAtGivesOccurrence(q: string, s: string, k: nat)
    requires NoWildcards(q) && k <= |s| && Like(q + "%", s[k..])
    ensures OccursAt(AsciiLower(s), AsciiLower(q), k)
  {
    LiteralThenPercent(q, s[k..]);
    assert s[k..][..|q|] == s[k..k + |q|];
    LowerSlice(s, k, k + |q|);
  }

  lemma OccurrenceGivesMatchAt(q: string, s: string, i: nat)
    requires NoWildcards(q) && OccursAt(AsciiLower(s), AsciiLower(q), i)
    ensures i <= |s| && Like(q + "%", s[i..])
  {
    var t := s[i..];
    assert i + |q| <= |s| && |t| == |s| - i;
    LowerSlice(s, i, i + |q|);
    assert t[..|q|] == s[i..i + |q|];
    assert AsciiLower(t[..|q|]) == AsciiLower(q);
    LiteralThenPercent(q, t);
  }

  /** Lower-casing commutes with taking a slice. */
  lemma LowerSlice(s: string, i: nat, j: nat)
    requires i <= j <= |s|
    ensures AsciiLower(s)[i..j] == AsciiLower(s[i..j])
  {
  }
}

=== FILE: storage.dfy ===
/** The browser's local store: the byte-budgeted resource cache
    (`CacheManager`), the history, cookie and bookmark tables, and the
    `StorageManager` facade that cleans them up in a fixed order and
    reports statistics.

    Each SQLite table is a sequence of rows; the cache directory is a map
    from file name to file contents. Timestamps are naturals compared as
    the source compares its RFC 3339 strings. `now` is a parameter. */
module Storage {
  import opened Wrappers
  import opened Rows

  type Byte = bv8

  const MiB: nat := 1024 * 1024

  // ---------------------------------------------------------------------
  // Resource cache

  /** A row of `cache_entries`. `filePath` names the blob file. */
  datatype CacheRow = CacheRow(
    url: string,
    contentType: string,
    filePath: string,
    size: nat,
    createdAt: nat,
    accessedAt: nat,
    expiresAt: Option<nat>)

  /** What `CacheManager::get` hands back. */
  datatype CacheEntry = CacheEntry(
    url: string,
    contentType: string,
    content: seq<Byte>,
    createdAt: nat,
    expiresAt: Option<nat>)

  /** The table, the cache directory, the budget in bytes and the running
      size counter. The counter is the source's `AtomicUsize`: it is never
      recomputed from the rows. */
  datatype Cache = Cache(
    rows: seq<CacheRow>,
    blobs: map<string, seq<Byte>>,
    maxSizeBytes: nat,
    currentSize: nat)

  datatype StorageError =
    | BlobUnreadable(path: string)
    | DatabaseFailed

  function RowUrl(r: CacheRow): string { r.url }

  function RowAccessedAt(r: CacheRow): nat { r.accessedAt }

  /** The `UNIQUE` constraint on `url`. */
  ghost predicate CacheValid(c: Cache) {
    KeysUnique(c.rows, RowUrl)
  }

  /** Files named by the rows in `gone`. */
  function PathsOf(gone: multiset<CacheRow>): set<string> {
    set r | r in gone :: r.filePath
  }

  /** `CacheManager::new`: the budget is `max_size_mb` whole MiB and the
      counter starts at zero, whatever rows the database already holds. */
  function NewCache(maxSizeMb: nat, rows: seq<CacheRow>, blobs: map<string, seq<Byte>>): (c: Cache)
    requires KeysUnique(rows, RowUrl)
    ensures CacheValid(c)
    ensures c.maxSizeBytes == maxSizeMb * 1048576
    ensures c.currentSize == 0 && c.rows == rows
  {
    Cache(rows, blobs, maxSizeMb * MiB, 0)
  }

  /** `enforce_size_limits`. Over budget, it deletes `excess / 1024` rows
      (or all, if fewer) with the oldest `accessed_at`, removes their files,
      and resets the counter to zero; within budget it does nothing. */
  function EnforceSizeLimits(c: Cache): (r: Cache)
    ensures r.maxSizeBytes == c.maxSizeBytes
    ensures c.currentSize <= c.maxSizeBytes ==> r == c
    ensures c.currentSize > c.maxSizeBytes ==>
              && r.currentSize == 0
              && |r.rows| == |c.rows| - Min((c.currentSize - c.maxSizeBytes) / 1024, |c.rows|)
              && OldestRemoved(c.rows, r.rows, RowAccessedAt)
              && r.blobs == c.blobs - PathsOf(multiset(c.rows) - multiset(r.rows))
    ensures CacheValid(c) ==> CacheValid(r)
  {
    if c.currentSize <= c.maxSizeBytes then c
    else
      var k := (c.currentSize - c.maxSizeBytes) / 1024;
      var split := EvictOldest(c.rows, RowAccessedAt, k);
      EvictOldestRemoves(c.rows, RowAccessedAt, k);
      EvictFacts(c.rows, k);
      Cache(split.0, c.blobs - PathsOf(multiset(split.1)), c.maxSizeBytes, 0)
  }

  lemma EvictFacts(rows: seq<CacheRow>, k: nat)
    ensures KeysUnique(rows, RowUrl) ==> KeysUnique(EvictOldest(rows, RowAccessedAt, k).0, RowUrl)
  {
    if KeysUnique(rows, RowUrl) {
      EvictOldestKeepsUnique(rows, RowAccessedAt, k, RowUrl);
    }
  }

  /** The part of `put` before enforcement: the blob file is (over)written,
      the row is upserted with `created_at = accessed_at = now`, and the
      counter grows by the content length even when a row is replaced. */
  function Insert(c: Cache, url: string, contentType: string, content: seq<Byte>,
                  expiresAt: Option<nat>, now: nat, file: string): (r: Cache)
    ensures r.currentSize == c.currentSize + |content|
    ensures r.maxSizeBytes == c.maxSizeBytes
    ensures r.blobs == c.blobs[file := content]
    ensures forall x :: x in r.rows <==>
              x == CacheRow(url, contentType, file, |content|, now, now, expiresAt)
              || (x in c.rows && x.url != url)
    ensures CacheValid(c) ==> CacheValid(r)
  {
    var row := CacheRow(url, contentType, file, |content|, now, now, expiresAt);
    Cache(Upsert(c.rows, RowUrl, row), c.blobs[file := content], c.maxSizeBytes, c.currentSize + |content|)
  }

  /** `CacheManager::put`. `file` is the blob's file name, which the source
      derives from the MD5 digest of the URL. */
  function Put(c: Cache, url: string, contentType: string, content: seq<Byte>,
               expiresAt: Option<nat>, now: nat, file: string): (r: Cache)
    ensures CacheValid(c) ==> CacheValid(r)
    ensures r.maxSizeBytes == c.maxSizeBytes
    ensures c.currentSize + |content| <= c.maxSizeBytes ==>
              && r.currentSize == c.currentSize + |content|
              && r.blobs == c.blobs[file := content]
              && (forall x :: x in r.rows <==>
                    x == CacheRow(url, contentType, file, |content|, now, now, expiresAt)
                    || (x in c.rows && x.url != url))
    ensures c.currentSize + |content| > c.maxSizeBytes ==> r.currentSize == 0
  {
    EnforceSizeLimits(Insert(c, url, contentType, content, expiresAt, now, file))
  }

  /** `get_size`: the counter, not a sum over the rows. */
  function GetSize(c: Cache): (n: nat)
    ensures n == c.currentSize
  {
    c.currentSize
  }

  datatype CacheGet = CacheGet(result: Result<Option<CacheEntry>, StorageError>, cache: Cache)

  /** `CacheManager::get`. An absent URL gives `None`. A present URL whose
      file cannot be read gives an error and leaves the row in place.
      Otherwise the entry is returned and that row's `accessed_at` becomes
      `now`; nothing else changes. */
  function Get(c: Cache, url: string, now: nat): (g: CacheGet)
    requires CacheValid(c)
    ensures CacheValid(g.cache)
    ensures (forall x :: x in c.rows ==> x.url != url) ==> g == CacheGet(Ok(None), c)
    ensures forall x :: x in c.rows && x.url == url && x.filePath !in c.blobs ==>
              g.result.Err? && g.cache == c
    ensures forall x :: x in c.rows && x.url == url && x.filePath in c.blobs ==>
              && g.result == Ok(Some(CacheEntry(x.url, x.contentType, c.blobs[x.filePath], x.createdAt, x.expiresAt)))
              && g.cache == c.(rows := g.cache.rows)
              && |g.cache.rows| == |c.rows|
              && (forall j :: 0 <= j < |c.rows| ==>
                    g.cache.rows[j] == (if c.rows[j].url == url then c.rows[j].(accessedAt := now) else c.rows[j]))
  {
    match FindKey(c.rows, RowUrl, url)
    case None => CacheGet(Ok(None), c)
    case Some(i) =>
      var row := c.rows[i];
      if row.filePath !in c.blobs then CacheGet(Err(BlobUnreadable(row.filePath)), c)
      else
        var rows' := c.rows[i := row.(accessedAt := now)];
        TouchFacts(c.rows, i, now);
        CacheGet(
          Ok(Some(CacheEntry(row.url, row.contentType, c.blobs[row.filePath], row.createdAt, row.expiresAt))),
          c.(rows := rows'))
  }

  /** In a table with unique URLs, row `i` is the only row with its URL,
      and refreshing its access time keeps the URLs unique. */
  lemma TouchFacts(rows: seq<CacheRow>, i: nat, now: nat)
    requires KeysUnique(rows, RowUrl)
    requires i < |rows|
    ensures forall x :: x in rows && x.url == rows[i].url ==> x == rows[i]
    ensures forall j :: 0 <= j < |rows| && j != i ==> rows[j].url != rows[i].url
    ensures KeysUnique(rows[i := rows[i].(accessedAt := now)], RowUrl)
  {
    var rows' := rows[i := rows[i].(accessedAt := now)];
    forall a, b | 0 <= a < b < |rows'| ensures RowUrl(rows'[a]) != RowUrl(rows'[b]) {
      assert RowUrl(rows[a]) != RowUrl(rows[b]);
    }
    forall j | 0 <= j < |rows| && j != i ensures rows[j].url != rows[i].url {
      if j < i {
        assert RowUrl(rows[j]) != RowUrl(rows[i]);
      } else {
        assert RowUrl(rows[i]) != RowUrl(rows[j]);
      }
    }
  }

  /** `expires_at < now`; a row without expiry never qualifies, as SQL's
      comparison with `NULL` is never true. */
  predicate Expired(expiresAt: Option<nat>, now: nat) {
    expiresAt.Some? && expiresAt.value < now
  }

  function LiveRow(now: nat): CacheRow -> bool {
    (r: CacheRow) => !Expired(r.expiresAt, now)
  }

  /** The `DELETE … WHERE expires_at < ?` pass of `cleanup`. Only rows go:
      the blob files stay, and the counter is not adjusted. */
  function SweepExpired(c: Cache, now: nat): (r: Cache)
    ensures forall x :: x in r.rows <==> x in c.rows && !Expired(x.expiresAt, now)
    ensures forall x :: x in c.rows && x.expiresAt.None? ==> x in r.rows
    ensures multiset(r.rows) <= multiset(c.rows)
    ensures r.currentSize == c.currentSize && r.blobs == c.blobs && r.maxSizeBytes == c.maxSizeBytes
    ensures CacheValid(c) ==> CacheValid(r)
  {
    SweepFacts(c.rows, now);
    c.(rows := Filter(c.rows, LiveRow(now)))
  }

  lemma SweepFacts(rows: seq<CacheRow>, now: nat)
    ensures KeysUnique(rows, RowUrl) ==> KeysUnique(Filter(rows, LiveRow(now)), RowUrl)
  {
    if KeysUnique(rows, RowUrl) {
      FilterKeepsUnique(rows, LiveRow(now), RowUrl);
    }
  }

  /** `CacheManager::cleanup`: the expiry sweep, then size enforcement. */
  function CacheCleanup(c: Cache, now: nat): (r: Cache)
    ensures CacheValid(c) ==> CacheValid(r)
    ensures forall x :: x in r.rows ==> x in c.rows && !Expired(x.expiresAt, now)
    ensures c.currentSize <= c.maxSizeBytes ==>
              && r.currentSize == c.currentSize
              && r.blobs == c.blobs
              && (forall x :: x in c.rows && !Expired(x.expiresAt, now) ==> x in r.rows)
    ensures c.currentSize > c.maxSizeBytes ==> r.currentSize == 0
    ensures r.currentSize <= r.maxSizeBytes
  {
    var swept := SweepExpired(c, now);
    var r := EnforceSizeLimits(swept);
    assert forall x :: x in r.rows ==> x in swept.rows by {
      forall x | x in r.rows ensures x in swept.rows {
        assert x in multiset(r.rows);
      }
    }
    r
  }

  /** Running the cache cleanup twice at the same instant deletes nothing
      the second time: the counter is zero or within budget, and no
      remaining row is expired. */
  lemma {:induction false} CacheCleanupIdempotent(c: Cache, now: nat)
    ensures CacheCleanup(CacheCleanup(c, now), now) == CacheCleanup(c, now)
  {
    var r := CacheCleanup(c, now);
    FilterAll(r.rows, LiveRow(now));
    assert SweepExpired(r, now) == r;
  }

  /** The rows `enforce_size_limits` selects for deletion, least recently
      accessed first; none within budget. */
  function CacheVictims(c: Cache): (v: seq<CacheRow>)
    ensures c.currentSize <= c.maxSizeBytes ==> v == []
    ensures c.currentSize > c.maxSizeBytes ==> |v| == Min((c.currentSize - c.maxSizeBytes) / 1024, |c.rows|)
  {
    if c.currentSize <= c.maxSizeBytes then []
    else EvictOldest(c.rows, RowAccessedAt, (c.currentSize - c.maxSizeBytes) / 1024).1
  }

  /** How many database statements `CacheManager::cleanup` runs: the expiry
      `DELETE`; then, over budget, the `SELECT` of the victims and one
      `DELETE` per victim. */
  function CacheStatements(c: Cache, now: nat): (n: nat)
    ensures n >= 1
    ensures n == 1 <==> c.currentSize <= c.maxSizeBytes
  {
    var swept := SweepExpired(c, now);
    if swept.currentSize <= swept.maxSizeBytes then 1 else 2 + |CacheVictims(swept)|
  }

  function NotIn(gone: seq<CacheRow>): CacheRow -> bool {
    (x: CacheRow) => x !in gone
  }

  /** `CacheManager::cleanup` when its statement number `n` (counting from
      0) fails and the error is returned at once. A failing expiry `DELETE`
      changes nothing; a failing `SELECT` leaves the sweep done; a failing
      `DELETE` of victim `j` leaves the victims before it deleted, and the
      files of those and of victim `j` removed, since each file goes before
      its row. The counter is never reset. */
  function CacheCleanupFailing(c: Cache, now: nat, n: nat): (r: Cache)
    requires n < CacheStatements(c, now)
    ensures r.currentSize == c.currentSize && r.maxSizeBytes == c.maxSizeBytes
    ensures n == 0 ==> r == c
    ensures n == 1 ==> r == SweepExpired(c, now)
    ensures n >= 2 ==>
              && n - 2 < |CacheVictims(SweepExpired(c, now))|
              && (forall x :: x in r.rows <==>
                    x in SweepExpired(c, now).rows && x !in CacheVictims(SweepExpired(c, now))[..n - 2])
              && r.blobs == c.blobs - PathsOf(multiset(CacheVictims(SweepExpired(c, now))[..n - 1]))
    ensures CacheValid(c) ==> CacheValid(r)
  {
    var swept := SweepExpired(c, now);
    if n == 0 then c
    else if n == 1 then swept
    else
      var gone := CacheVictims(swept)[..n - 2];
      DeleteFacts(swept.rows, gone);
      swept.(rows := Filter(swept.rows, NotIn(gone)),
             blobs := swept.blobs - PathsOf(multiset(CacheVictims(swept)[..n - 1])))
  }

  lemma DeleteFacts(rows: seq<CacheRow>, gone: seq<CacheRow>)
    ensures KeysUnique(rows, RowUrl) ==> KeysUnique(Filter(rows, NotIn(gone)), RowUrl)
  {
    if KeysUnique(rows, RowUrl) {
      FilterKeepsUnique(rows, NotIn(gone), RowUrl);
    }
  }

  /** A failed cache cleanup stops part-way: it keeps every row and file the
      complete cleanup keeps and deletes only rows the cache held, while its
      counter stays where it was. */
  lemma FailingCleanupIsPrefix(c: Cache, now: nat, n: nat)
    requires CacheValid(c) && n < CacheStatements(c, now)
    ensures forall x :: x in CacheCleanup(c, now).rows ==> x in CacheCleanupFailing(c, now, n).rows
    ensures forall p :: p in CacheCleanup(c, now).blobs ==> p in CacheCleanupFailing(c, now, n).blobs
    ensures forall x :: x in CacheCleanupFailing(c, now, n).rows ==> x in c.rows
  {
    var swept := SweepExpired(c, now);
    var full := CacheCleanup(c, now);
    var r := CacheCleanupFailing(c, now, n);
    if swept.currentSize <= swept.maxSizeBytes {
      assert n == 0 && r == c;
      assert full == swept;
    } else {
      CleanupIsEviction(c, now);
      StoppedEviction(c, swept, full.rows, CacheVictims(swept), n, r);
    }
  }

  /** Over budget, the complete cache cleanup keeps the swept rows that are
      not victims and removes exactly the victims' files. */
  lemma CleanupIsEviction(c: Cache, now: nat)
    requires SweepExpired(c, now).currentSize > SweepExpired(c, now).maxSizeBytes
    ensures multiset(CacheCleanup(c, now).rows) + multiset(CacheVictims(SweepExpired(c, now)))
            == multiset(SweepExpired(c, now).rows)
    ensures CacheCleanup(c, now).blobs == c.blobs - PathsOf(multiset(CacheVictims(SweepExpired(c, now))))
  {
    CleanupUnfolds(c, now);
    EvictionParts(SweepExpired(c, now));
  }

  /** The cache cleanup is enforcement after the sweep. */
  lemma CleanupUnfolds(c: Cache, now: nat)
    ensures CacheCleanup(c, now) == EnforceSizeLimits(SweepExpired(c, now))
  {
  }

  /** Over budget, enforcement keeps the rows that are not victims and
      removes exactly the victims' files. */
  lemma EvictionParts(c: Cache)
    requires c.currentSize > c.maxSizeBytes
    ensures multiset(EnforceSizeLimits(c).rows) + multiset(CacheVictims(c)) == multiset(c.rows)
    ensures EnforceSizeLimits(c).blobs == c.blobs - PathsOf(multiset(CacheVictims(c)))
  {
    var split := EvictOldest(c.rows, RowAccessedAt, (c.currentSize - c.maxSizeBytes) / 1024);
    EnforceUnfolds(c);
    VictimsUnfolds(c);
    assert multiset(c.rows) - multiset(split.0) == multiset(split.1);
  }

  /** Enforcement keeps the rows the eviction keeps ... */
  lemma EnforceUnfolds(c: Cache)
    requires c.currentSize > c.maxSizeBytes
    ensures EnforceSizeLimits(c).rows == EvictOldest(c.rows, RowAccessedAt, (c.currentSize - c.maxSizeBytes) / 1024).0
  {
  }

  /** ... and its victims are the rows the eviction selects. */
  lemma VictimsUnfolds(c: Cache)
    requires c.currentSize > c.maxSizeBytes
    ensures CacheVictims(c) == EvictOldest(c.rows, RowAccessedAt, (c.currentSize - c.maxSizeBytes) / 1024).1
  {
  }

  /** The effects of an eviction stopped at statement `n`, for any split of
      the swept rows into kept rows and victims. */
  lemma StoppedEviction(c: Cache, swept: Cache, kept: seq<CacheRow>, ev: seq<CacheRow>, n: nat, r: Cache)
    requires KeysUnique(swept.rows, RowUrl) && multiset(kept) + multiset(ev) == multiset(swept.rows)
    requires forall x :: x in swept.rows ==> x in c.rows
    requires n == 0 ==> r == c
    requires n == 1 ==> r == swept && swept.blobs == c.blobs
    requires n >= 2 ==>
               && n - 2 < |ev|
               && (forall x :: x in r.rows <==> x in swept.rows && x !in ev[..n - 2])
               && r.blobs == c.blobs - PathsOf(multiset(ev[..n - 1]))
    ensures forall x :: x in kept ==> x in r.rows
    ensures forall p :: p in c.blobs - PathsOf(multiset(ev)) ==> p in r.blobs
    ensures forall x :: x in r.rows ==> x in c.rows
  {
    if n >= 2 {
      KeptOutsideVictims(swept.rows, kept, ev, n - 2);
      PrefixPaths(ev, n - 1);
    } else {
      KeptOutsideVictims(swept.rows, kept, ev, 0);
    }
  }

  /** A row kept by an eviction is in none of the evicted rows' prefixes. */
  lemma KeptOutsideVictims(rows: seq<CacheRow>, kept: seq<CacheRow>, ev: seq<CacheRow>, j: nat)
    requires KeysUnique(rows, RowUrl) && multiset(kept) + multiset(ev) == multiset(rows)
    requires j <= |ev|
    ensures forall x :: x in kept ==> x in rows && x !in ev[..j]
  {
    forall x | x in kept ensures x in rows && x !in ev[..j] {
      assert x in multiset(kept);
      KeptNotEvicted(rows, kept, ev, RowUrl, x);
      assert x in multiset(rows);
    }
  }

  /** Files of a prefix of the victims are files of all the victims. */
  lemma PrefixPaths(v: seq<CacheRow>, j: nat)
    requires j <= |v|
    ensures PathsOf(multiset(v[..j])) <= PathsOf(multiset(v))
  {
    forall x | x in multiset(v[..j]) ensures x in multiset(v) {
      assert x in v[..j];
    }
  }

  /** Over budget by less than 1 KiB, enforcement deletes nothing yet still
      zeroes the counter. */
  lemma SmallExcessOnlyResetsCounter(c: Cache)
    requires c.maxSizeBytes < c.currentSize < c.maxSizeBytes + 1024
    ensures EnforceSizeLimits(c) == c.(currentSize := 0)
  {
    assert (c.currentSize - c.maxSizeBytes) / 1024 == 0;
  }

  /** Round trip: with room in the budget, what `put` stores `get` returns. */
  lemma PutThenGet(c: Cache, url: string, contentType: string, content: seq<Byte>,
                   expiresAt: Option<nat>, now: nat, file: string, later: nat)
    requires CacheValid(c)
    requires c.currentSize + |content| <= c.maxSizeBytes
    ensures Get(Put(c, url, contentType, content, expiresAt, now, file), url, later).result
            == Ok(Some(CacheEntry(url, contentType, content, now, expiresAt)))
  {
    var p := Put(c, url, contentType, content, expiresAt, now, file);
    var row := CacheRow(url, contentType, file, |content|, now, now, expiresAt);
    assert row in p.rows;
  }

  /** Size accounting: as long as no `put` pushes the counter over the
      budget, the counter grows by exactly the total of the payload lengths. */
  function PutAll(c: Cache, items: seq<(string, seq<Byte>)>, now: nat): Cache
    decreases |items|
  {
    if |items| == 0 then c
    else PutAll(Put(c, items[0].0, "", items[0].1, None, now, items[0].0), items[1..], now)
  }

  function PayloadBytes(items: seq<(string, seq<Byte>)>): nat {
    if |items| == 0 then 0 else |items[0].1| + PayloadBytes(items[1..])
  }

  lemma {:induction false} PutAllCounts(c: Cache, items: seq<(string, seq<Byte>)>, now: nat)
    requires c.currentSize + PayloadBytes(items) <= c.maxSizeBytes
    ensures PutAll(c, items, now).currentSize == c.currentSize + PayloadBytes(items)
    decreases |items|
  {
    if |items| > 0 {
      var c' := Put(c, items[0].0, "", items[0].1, None, now, items[0].0);
      PutAllCounts(c', items[1..], now);
    }
  }

  // ---------------------------------------------------------------------
  // History, cookies, bookmarks

  /** A row of `history`; `id` is the autoincrement key. */
  datatype HistoryRow = HistoryRow(
    id: nat,
    url: string,
    title: Option<string>,
    visitCount: nat,
    lastVisit: nat,
    createdAt: nat)

  datatype History = History(rows: seq<HistoryRow>, maxItems: nat)

  function LastVisit(r: HistoryRow): nat { r.lastVisit }

  /** `HistoryManager::cleanup`: above the cap, the `count - max_items`
      least recently visited rows are deleted, leaving exactly the cap. */
  function HistoryCleanup(h: History): (r: History)
    ensures r.maxItems == h.maxItems
    ensures |h.rows| <= h.maxItems ==> r == h
    ensures |h.rows| > h.maxItems ==>
              && |r.rows| == h.maxItems
              && |multiset(h.rows) - multiset(r.rows)| == |h.rows| - h.maxItems
              && OldestRemoved(h.rows, r.rows, LastVisit)
  {
    if |h.rows| <= h.maxItems then h
    else
      var split := EvictOldest(h.rows, LastVisit, |h.rows| - h.maxItems);
      EvictOldestRemoves(h.rows, LastVisit, |h.rows| - h.maxItems);
      History(split.0, h.maxItems)
  }

  /** A row of `cookies`. No expiry means a session cookie. */
  datatype CookieRow = CookieRow(
    id: nat,
    name: string,
    value: string,
    domain: string,
    path: string,
    expiresAt: Option<nat>,
    secure: bool,
    httpOnly: bool,
    createdAt: nat)

  function LiveCookie(now: nat): CookieRow -> bool {
    (r: CookieRow) => !Expired(r.expiresAt, now)
  }

  /** `CookieManager::cleanup`: deletes exactly the cookies whose expiry is
      before `now`; session cookies always survive. */
  function CookieCleanup(cookies: seq<CookieRow>, now: nat): (r: seq<CookieRow>)
    ensures forall x :: x in r <==> x in cookies && !Expired(x.expiresAt, now)
    ensures forall x :: x in cookies && x.expiresAt.None? ==> x in r
    ensures multiset(r) <= multiset(cookies)
  {
    Filter(cookies, LiveCookie(now))
  }

  /** A row of `bookmarks`. */
  datatype BookmarkRow = BookmarkRow(id: nat, url: string, title: string, folder: string, createdAt: nat)

  /** `BookmarkManager::cleanup` deletes nothing. */
  function BookmarkCleanup(bookmarks: seq<BookmarkRow>): (r: seq<BookmarkRow>)
    ensures r == bookmarks
  {
    bookmarks
  }

  // ---------------------------------------------------------------------
  // Facade

  datatype StorageConfig = StorageConfig(cacheSizeMb: nat, maxHistoryItems: nat, maxBookmarks: nat)

  /** `StorageConfig::default` (without the data directory). */
  function DefaultConfig(): (cfg: StorageConfig)
    ensures cfg.cacheSizeMb == 100 && cfg.maxHistoryItems == 10000 && cfg.maxBookmarks == 1000
  {
    StorageConfig(100, 10000, 1000)
  }

  datatype Storage = Storage(
    config: StorageConfig,
    cache: Cache,
    history: History,
    cookies: seq<CookieRow>,
    bookmarks: seq<BookmarkRow>)

  /** The three stores whose cleanup the facade runs, in its order. */
  datatype Stage = CacheStage | HistoryStage | CookieStage

  datatype Cleaned = Cleaned(result: Result<(), Stage>, storage: Storage)

  /** Which database calls fail: `cacheAt` names the first failing
      statement of the cache cleanup (counting from 0), if any; the history
      and cookie cleanups either fail before changing anything or not at
      all. */
  datatype Faults = Faults(cacheAt: Option<nat>, history: bool, cookies: bool)

  /** Whether the cache cleanup reaches its failing statement. */
  predicate CacheFails(c: Cache, now: nat, f: Faults) {
    f.cacheAt.Some? && f.cacheAt.value < CacheStatements(c, now)
  }

  /** `StorageManager::cleanup`: cache, then history, then cookies. The
      first failure in that order is returned at once: the stores cleaned
      before it stay cleaned, a cache cleanup that fails keeps what it had
      done, and the later stores are not touched. Bookmarks are never
      cleaned. */
  function StorageCleanup(s: Storage, now: nat, f: Faults): (r: Cleaned)
    ensures r.storage.bookmarks == s.bookmarks && r.storage.config == s.config
    ensures r.result.Ok? <==> !CacheFails(s.cache, now, f) && !f.history && !f.cookies
    ensures CacheFails(s.cache, now, f) ==>
              r == Cleaned(Err(CacheStage), s.(cache := CacheCleanupFailing(s.cache, now, f.cacheAt.value)))
    ensures !CacheFails(s.cache, now, f) && f.history ==>
              r == Cleaned(Err(HistoryStage), s.(cache := CacheCleanup(s.cache, now)))
    ensures !CacheFails(s.cache, now, f) && !f.history && f.cookies ==>
              r == Cleaned(Err(CookieStage),
                           s.(cache := CacheCleanup(s.cache, now), history := HistoryCleanup(s.history)))
    ensures r.result.Ok? ==>
              r.storage == s.(cache := CacheCleanup(s.cache, now),
                              history := HistoryCleanup(s.history),
                              cookies := CookieCleanup(s.cookies, now))
  {
    if CacheFails(s.cache, now, f) then
      Cleaned(Err(CacheStage), s.(cache := CacheCleanupFailing(s.cache, now, f.cacheAt.value)))
    else
      var s1 := s.(cache := CacheCleanup(s.cache, now));
      if f.history then Cleaned(Err(HistoryStage), s1)
      else
        var s2 := s1.(history := HistoryCleanup(s1.history));
        if f.cookies then Cleaned(Err(CookieStage), s2)
        else
          Cleaned(Ok(()), s2.(cookies := CookieCleanup(s2.cookies, now)))
  }

  datatype StorageStats = StorageStats(
    cacheSizeMb: nat,
    historyItems: nat,
    bookmarks: nat,
    cookies: nat,
    totalSizeMb: nat)

  /** `get_storage_stats` as the source writes it: `diskBytes` is what
      `get_total_size` returns, a byte count, and it is stored unchanged in
      the field named `total_size_mb`. */
  function StatsAsWritten(s: Storage, diskBytes: nat): (st: StorageStats)
    ensures st.totalSizeMb == diskBytes
    ensures st.cacheSizeMb * 1048576 <= s.cache.currentSize < (st.cacheSizeMb + 1) * 1048576
  {
    StorageStats(s.cache.currentSize / MiB, |s.history.rows|, |s.bookmarks|, |s.cookies|, diskBytes)
  }

  /** A 1 MiB footprint is reported as 1048576 "MB". */
  lemma TotalSizeIsBytes(s: Storage)
    ensures StatsAsWritten(s, 1048576).totalSizeMb == 1048576
    ensures GetStorageStats(s, 1048576).totalSizeMb == 1
  {
  }

  /** `get_storage_stats` with both sizes in whole MiB, rounded down: the
      cache counter and the on-disk footprint. The counts are the table
      sizes. */
  function GetStorageStats(s: Storage, diskBytes: nat): (st: StorageStats)
    ensures st.cacheSizeMb * 1048576 <= s.cache.currentSize < (st.cacheSizeMb + 1) * 1048576
    ensures st.totalSizeMb * 1048576 <= diskBytes < (st.totalSizeMb + 1) * 1048576
    ensures st.historyItems == |s.history.rows| && st.bookmarks == |s.bookmarks| && st.cookies == |s.cookies|
  {
    StorageStats(s.cache.currentSize / MiB, |s.history.rows|, |s.bookmarks|, |s.cookies|, diskBytes / MiB)
  }
}

=== FILE: strings.dfy ===
/** The handful of `str` operations the modelled Rust code relies on:
    prefix and suffix tests, substring search, ASCII lower-casing,
    decimal rendering of integers and joining with a separator. */
module Strings {

  predicate StartsWith(s: string, prefix: string) {
    |prefix| <= |s| && s[..|prefix|] == prefix
  }

  predicate EndsWith(s: string, suffix: string) {
    |suffix| <= |s| && s[|s| - |suffix|..] == suffix
  }

  /** `sub` occurs in `s` starting at index `i`. */
  predicate OccursAt(s: string, sub: string, i: nat) {
    i + |sub| <= |s| && s[i..i + |sub|] == sub
  }

  /** Rust's `str::contains` with a string pattern, searching left to right. */
  predicate Contains(s: string, sub: string)
    decreases |s|
  {
    StartsWith(s, sub) || (|s| > 0 && Contains(s[1..], sub))
  }

  /** The search agrees with the positional definition of an occurrence. */
  lemma {:induction false} ContainsIffOccurs(s: string, sub: string)
    ensures Contains(s, sub) <==> exists i: nat :: OccursAt(s, sub, i)
    decreases |s|
  {
    if StartsWith(s, sub) {
      assert OccursAt(s, sub, 0);
    } else if |s| == 0 {
      forall i: nat ensures !OccursAt(s, sub, i) {
      }
    } else {
      ContainsIffOccurs(s[1..], sub);
      if Contains(s[1..], sub) {
        var i: nat :| OccursAt(s[1..], sub, i);
        assert s[i + 1..i + 1 + |sub|] == s[1..][i..i + |sub|];
        assert OccursAt(s, sub, i + 1);
      } else {
        forall i: nat | OccursAt(s, sub, i) ensures false {
          if i > 0 {
            assert s[1..][i - 1..i - 1 + |sub|] == s[i..i + |sub|];
            assert OccursAt(s[1..], sub, i - 1);
          }
        }
      }
    }
  }

  /** A string lacking one of the pattern's characters does not contain
      the pattern. */
  lemma MissingCharNotContained(s: string, sub: string, k: nat)
    requires k < |sub|
    requires forall i :: 0 <= i < |s| ==> s[i] != sub[k]
    ensures !Contains(s, sub)
  {
    ContainsIffOccurs(s, sub);
    forall i: nat | i + |sub| <= |s| ensures !OccursAt(s, sub, i) {
      assert s[i..i + |sub|][k] == s[i + k];
    }
  }

  /** Every string contains itself and the empty string. */
  lemma ContainsSelf(s: string)
    ensures Contains(s, s)
    ensures Contains(s, "")
  {
    assert s[..|s|] == s;
    assert s[..0] == "";
  }

  function AsciiLowerChar(c: char): (r: char)
    ensures 'A' <= c <= 'Z' ==> 'a' <= r <= 'z'
    ensures !('A' <= c <= 'Z') ==> r == c
  {
    if 'A' <= c <= 'Z' then (c as int + 32) as char else c
  }

  /** Lower-cases the ASCII letters and leaves every other character alone. */
  function AsciiLower(s: string): (r: string)
    ensures |r| == |s|
    ensures forall i :: 0 <= i < |s| ==> r[i] == AsciiLowerChar(s[i])
  {
    if |s| == 0 then "" else [AsciiLowerChar(s[0])] + AsciiLower(s[1..])
  }

  predicate IsDigit(c: char) {
    '0' <= c <= '9'
  }

  function DigitChar(d: nat): (c: char)
    requires d < 10
    ensures IsDigit(c)
    ensures c as int - '0' as int == d
  {
    ('0' as int + d) as char
  }

  /** Rust's `Display` of an unsigned integer: decimal digits, no sign, no padding. */
  function Decimal(n: nat): (r: string)
    ensures |r| > 0
    ensures forall i :: 0 <= i < |r| ==> IsDigit(r[i])
    ensures n < 10 <==> |r| == 1
    decreases n
  {
    if n < 10 then [DigitChar(n)] else Decimal(n / 10) + [DigitChar(n % 10)]
  }

  /** The value a string of decimal digits denotes. */
  function DigitsValue(s: string): nat
    requires forall i :: 0 <= i < |s| ==> IsDigit(s[i])
  {
    if |s| == 0 then 0
    else
      assert IsDigit(s[|s| - 1]);
      DigitsValue(s[..|s| - 1]) * 10 + (s[|s| - 1] as int - '0' as int)
  }

  /** Reading the rendered digits back gives the number: `Decimal` loses nothing. */
  lemma {:induction false} DecimalRoundTrip(n: nat)
    ensures DigitsValue(Decimal(n)) == n
    decreases n
  {
    if n >= 10 {
      DecimalRoundTrip(n / 10);
      var d := Decimal(n / 10) + [DigitChar(n % 10)];
      assert d[..|d| - 1] == Decimal(n / 10);
    }
  }

  /** Bytes the character takes in UTF-8. */
  function Utf8Width(c: char): (n: nat)
    ensures 1 <= n <= 4
    ensures n == 1 <==> c as int < 0x80
  {
    if c as int < 0x80 then 1
    else if c as int < 0x800 then 2
    else if c as int < 0x10000 then 3
    else 4
  }

  /** `str::len`: the length in UTF-8 bytes, which Rust reports instead of
      a character count. */
  function Utf8Len(s: string): (n: nat)
    ensures n >= |s|
    ensures n == |s| <==> forall i :: 0 <= i < |s| ==> s[i] as int < 0x80
  {
    if |s| == 0 then 0 else Utf8Width(s[0]) + Utf8Len(s[1..])
  }

  /** `parts.join(sep)`. */
  function Join(parts: seq<string>, sep: string): (r: string)
    ensures |parts| == 0 ==> r == ""
    ensures |parts| == 1 ==> r == parts[0]
  {
    if |parts| == 0 then ""
    else if |parts| == 1 then parts[0]
    else parts[0] + sep + Join(parts[1..], sep)
  }
}

=== FILE: url_utils.dfy ===
/** The address bar's URL handling: `normalize_url`, `is_domain_like`,
    `validate_url` and `extract_search_query`.

    `Url::parse` is the `parse` parameter. Rust's `char::is_alphanumeric`
    consults the Unicode tables, which are not modelled; it is the `alnum`
    parameter, and the lemmas below hold for every choice of it. */
module UrlUtils {
  import opened Wrappers
  import opened Strings
  import opened Urls

  /** Characters with the Unicode `White_Space` property, the ones
      `str::trim` removes. */
  predicate IsWhitespace(c: char) {
    var n := c as int;
    || (0x09 <= n <= 0x0D) || n == 0x20 || n == 0x85 || n == 0xA0 || n == 0x1680
    || (0x2000 <= n <= 0x200A)
    || n == 0x2028 || n == 0x2029 || n == 0x202F || n == 0x205F || n == 0x3000
  }

  function TrimStart(s: string): (r: string)
    ensures |r| <= |s| && r == s[|s| - |r|..]
    ensures |r| > 0 ==> !IsWhitespace(r[0])
    ensures forall i :: 0 <= i < |s| - |r| ==> IsWhitespace(s[i])
  {
    if |s| > 0 && IsWhitespace(s[0]) then TrimStart(s[1..]) else s
  }

  function TrimEnd(s: string): (r: string)
    ensures |r| <= |s| && r == s[..|r|]
    ensures |r| > 0 ==> !IsWhitespace(r[|r| - 1])
    ensures forall i :: |r| <= i < |s| ==> IsWhitespace(s[i])
  {
    if |s| > 0 && IsWhitespace(s[|s| - 1]) then TrimEnd(s[..|s| - 1]) else s
  }

  /** `str::trim`: the input without its leading and trailing whitespace. */
  function Trim(s: string): (r: string)
    ensures |r| > 0 ==> !IsWhitespace(r[0]) && !IsWhitespace(r[|r| - 1])
    ensures r == "" <==> forall i :: 0 <= i < |s| ==> IsWhitespace(s[i])
    ensures exists a, b :: TrimmedAt(s, r, a, b)
  {
    var t := TrimStart(s);
    var r := TrimEnd(t);
    TrimBothEnds(s, t, r);
    r
  }

  /** Whitespace stripped from the front and then from the back of what is
      left lies outside a slice of the input. */
  lemma TrimBothEnds(s: string, t: string, r: string)
    requires |t| <= |s| && t == s[|s| - |t|..]
    requires forall i :: 0 <= i < |s| - |t| ==> IsWhitespace(s[i])
    requires |r| <= |t| && r == t[..|r|]
    requires forall i :: |r| <= i < |t| ==> IsWhitespace(t[i])
    ensures TrimmedAt(s, r, |s| - |t|, |s| - |t| + |r|)
  {
    var a := |s| - |t|;
    assert r == s[a..a + |r|];
    forall i | a + |r| <= i < |s| ensures IsWhitespace(s[i]) {
      assert s[i] == t[i - a];
    }
  }

  /** `r` is `s[a..b]`, and everything of `s` outside it is whitespace. */
  ghost predicate TrimmedAt(s: string, r: string, a: int, b: int) {
    && 0 <= a <= b <= |s|
    && r == s[a..b]
    && (forall i :: 0 <= i < a ==> IsWhitespace(s[i]))
    && (forall i :: b <= i < |s| ==> IsWhitespace(s[i]))
  }

  /** A string with no whitespace at either end is its own trim. */
  lemma TrimmedIsFixed(s: string)
    requires |s| > 0 ==> !IsWhitespace(s[0]) && !IsWhitespace(s[|s| - 1])
    ensures Trim(s) == s
  {
  }

  lemma TrimIdempotent(s: string)
    ensures Trim(Trim(s)) == Trim(s)
  {
    TrimmedIsFixed(Trim(s));
  }

  // ---------------------------------------------------------------------
  // Classification

  /** `is_domain_like`: contains a dot and consists only of alphanumerics,
      dots, hyphens and underscores. */
  predicate IsDomainLike(s: string, alnum: char -> bool) {
    Contains(s, ".") && forall i :: 0 <= i < |s| ==> alnum(s[i]) || s[i] == '.' || s[i] == '-' || s[i] == '_'
  }

  /** The search-query test inside `normalize_url`. */
  predicate LooksLikeSearch(t: string, alnum: char -> bool) {
    !Contains(t, ".") && (Contains(t, " ") || !IsDomainLike(t, alnum))
  }

  /** Because `is_domain_like` itself demands a dot, the search test of
      `normalize_url` is just "has no dot", whatever counts as
      alphanumeric. */
  lemma SearchTestIsNoDot(t: string, alnum: char -> bool)
    ensures LooksLikeSearch(t, alnum) <==> !Contains(t, ".")
  {
  }

  /** `extract_search_query`. */
  function ExtractSearchQuery(input: string, alnum: char -> bool): (r: Option<string>)
    ensures r.Some? ==> r.value == Trim(input)
    ensures Contains(Trim(input), "://") ==> r.None?
  {
    var t := Trim(input);
    if Contains(t, "://") || (Contains(t, ".") && IsDomainLike(t, alnum)) then None
    else if Contains(t, " ") || (!Contains(t, ".") && !StartsWith(t, "about:")) then Some(t)
    else None
  }

  /** The domain test never decides the outcome: the input is a query
      exactly when it has no `://` and either has a space, or has no dot and
      is not an `about:` address. */
  lemma ExtractIgnoresDomainTest(input: string, alnum: char -> bool)
    requires !alnum(' ')
    ensures ExtractSearchQuery(input, alnum).Some? <==>
              var t := Trim(input);
              !Contains(t, "://") && (Contains(t, " ") || (!Contains(t, ".") && !StartsWith(t, "about:")))
  {
    var t := Trim(input);
    if Contains(t, " ") {
      ContainsIffOccurs(t, " ");
      var i: nat :| OccursAt(t, " ", i);
      assert t[i..i + 1][0] == t[i];
      assert !IsDomainLike(t, alnum);
    }
  }

  // ---------------------------------------------------------------------
  // Normalisation

  datatype UrlError =
    | EmptyUrl
    | SearchQueryDetected
    | ParseFailed(input: string)
    | JavascriptBlocked
    | FileBlocked
    | UnsupportedScheme(scheme: string)
    | NormalizedParseFailed
    | DataUrlTooLarge
    | MissingHost

  const AllowedSchemes: set<string> := {"http", "https", "about", "data"}

  /** The string `normalize_url` hands to the parser: `https://` is added
      when the input has no `://`. */
  function Candidate(t: string): (c: string)
    ensures Contains(t, "://") ==> c == t
    ensures !Contains(t, "://") ==> c == "https://" + t
  {
    if Contains(t, "://") then t else "https://" + t
  }

  predicate IsDefaultPort(scheme: string, port: nat) {
    (scheme == "http" && port == 80) || (scheme == "https" && port == 443)
  }

  /** The default port of http and https is dropped; every other port is
      kept (section 6.2.3 of RFC 3986). */
  function KeptPort(scheme: string, port: Option<nat>): (r: Option<nat>)
    ensures r.Some? <==> port.Some? && !IsDefaultPort(scheme, port.value)
    ensures r.Some? ==> r == port
  {
    match port
    case None => None
    case Some(p) => if IsDefaultPort(scheme, p) then None else Some(p)
  }

  /** `trim_end_matches('/')`. */
  function TrimEndSlashes(p: string): (r: string)
    ensures |r| <= |p| && r == p[..|r|]
    ensures !EndsWith(r, "/")
    ensures forall i :: |r| <= i < |p| ==> p[i] == '/'
  {
    if |p| > 0 && p[|p| - 1] == '/' then TrimEndSlashes(p[..|p| - 1]) else p
  }

  /** A path longer than one byte loses all its trailing slashes; `/` and
      slash-free endings stay. */
  function NormalizePath(path: string): (r: string)
    ensures Utf8Len(path) > 1 && EndsWith(path, "/") ==> !EndsWith(r, "/") && |r| <= |path| && r == path[..|r|]
                                                          && forall i :: |r| <= i < |path| ==> path[i] == '/'
    ensures !(Utf8Len(path) > 1 && EndsWith(path, "/")) ==> r == path
  {
    if Utf8Len(path) > 1 && EndsWith(path, "/") then TrimEndSlashes(path) else path
  }

  /** The byte-length test agrees with a character count here: a path
      ending in `/` is longer than one byte exactly when it has more than
      one character. */
  lemma PathLengthInChars(path: string)
    requires EndsWith(path, "/")
    ensures Utf8Len(path) > 1 <==> |path| > 1
  {
    if |path| == 1 {
      assert path[0] == '/';
    }
  }

  /** The string `normalize_url` rebuilds from the parsed parts. Scheme and
      host are lower-cased with `AsciiLower` where the source calls Unicode
      `to_lowercase`; the two agree on the ASCII schemes and hosts (the
      latter punycode-encoded) that the `url` crate yields for http and
      https. */
  function Rebuild(u: Url): string {
    var scheme := AsciiLower(u.scheme);
    var host := AsciiLower(u.host.GetOr(""));
    var port := KeptPort(scheme, u.port);
    scheme + "://" + host
    + (if port.Some? then ":" + Decimal(port.value) else "")
    + NormalizePath(u.path)
    + (if u.query.Some? then "?" + u.query.value else "")
  }

  /** `normalize_url` after trimming: `t` is the trimmed input. */
  function NormalizeTrimmed(t: string, parse: Parser, alnum: char -> bool): (r: Result<string, UrlError>)
    ensures t == "" ==> r == Err(EmptyUrl)
    ensures t != "" && StartsWith(t, "about:") ==> r == Ok(t)
    ensures t != "" && !StartsWith(t, "about:") && !Contains(t, "://") && !Contains(t, ".") ==>
              r == Err(SearchQueryDetected)
    ensures r.Ok? && !StartsWith(t, "about:") ==>
              && parse(Candidate(t)).Ok?
              && parse(Candidate(t)).value.scheme in AllowedSchemes
              && parse(Rebuild(parse(Candidate(t)).value)).Ok?
              && r.value == parse(Rebuild(parse(Candidate(t)).value)).value.serialization
  {
    if t == "" then Err(EmptyUrl)
    else if StartsWith(t, "about:") then Ok(t)
    else if !Contains(t, "://") && LooksLikeSearch(t, alnum) then Err(SearchQueryDetected)
    else
      var candidate := Candidate(t);
      match parse(candidate)
      case Err(_) => Err(ParseFailed(candidate))
      case Ok(u) => NormalizeParsed(u, parse)
  }

  /** The part of `normalize_url` after the first parse: the scheme check,
      then the rebuilt string parsed again and serialised. */
  function NormalizeParsed(u: Url, parse: Parser): (r: Result<string, UrlError>)
    ensures u.scheme == "javascript" ==> r == Err(JavascriptBlocked)
    ensures u.scheme == "file" ==> r == Err(FileBlocked)
    ensures u.scheme !in AllowedSchemes && u.scheme != "javascript" && u.scheme != "file" ==>
              r == Err(UnsupportedScheme(u.scheme))
    ensures r.Ok? <==> u.scheme in AllowedSchemes && parse(Rebuild(u)).Ok?
    ensures r.Ok? ==> r.value == parse(Rebuild(u)).value.serialization
  {
    if u.scheme == "javascript" then Err(JavascriptBlocked)
    else if u.scheme == "file" then Err(FileBlocked)
    else if u.scheme !in AllowedSchemes then Err(UnsupportedScheme(u.scheme))
    else
      match parse(Rebuild(u))
      case Err(_) => Err(NormalizedParseFailed)
      case Ok(n) => Ok(n.serialization)
  }

  /** `normalize_url`: blank input is an error, `about:` addresses pass
      unchanged, dot-free text without a scheme is a search query, and
      anything else must parse (with `https://` added when it has no
      scheme) to an allowed scheme and is returned as the serialisation of
      the rebuilt address. */
  function NormalizeUrl(input: string, parse: Parser, alnum: char -> bool): (r: Result<string, UrlError>)
    ensures Trim(input) == "" ==> r == Err(EmptyUrl)
    ensures Trim(input) != "" && StartsWith(Trim(input), "about:") ==> r == Ok(Trim(input))
    ensures var t := Trim(input);
            t != "" && !StartsWith(t, "about:") && !Contains(t, "://") && !Contains(t, ".") ==>
              r == Err(SearchQueryDetected)
    ensures var t := Trim(input);
            r.Ok? && !StartsWith(t, "about:") ==>
              && parse(Candidate(t)).Ok?
              && parse(Candidate(t)).value.scheme in AllowedSchemes
              && parse(Rebuild(parse(Candidate(t)).value)).Ok?
              && r.value == parse(Rebuild(parse(Candidate(t)).value)).value.serialization
  {
    NormalizeTrimmed(Trim(input), parse, alnum)
  }

  /** Only http, https, about and data survive; javascript and file have
      their own errors and every other scheme is unsupported. */
  lemma SchemeWhitelist(input: string, parse: Parser, alnum: char -> bool)
    requires var t := Trim(input);
             t != "" && !StartsWith(t, "about:") && (Contains(t, "://") || Contains(t, "."))
    requires parse(Candidate(Trim(input))).Ok?
    ensures var s := parse(Candidate(Trim(input))).value.scheme;
            && (s == "javascript" ==> NormalizeUrl(input, parse, alnum) == Err(JavascriptBlocked))
            && (s == "file" ==> NormalizeUrl(input, parse, alnum) == Err(FileBlocked))
            && (s !in AllowedSchemes && s != "javascript" && s != "file" ==>
                  NormalizeUrl(input, parse, alnum) == Err(UnsupportedScheme(s)))
  {
  }

  /** An explicit default port leaves no trace in the rebuilt string. */
  lemma DefaultPortDropped(u: Url)
    requires u.port.Some? && IsDefaultPort(AsciiLower(u.scheme), u.port.value)
    ensures Rebuild(u) == Rebuild(u.(port := None))
  {
  }

  /** Any other port is written after the host. */
  lemma OtherPortKept(u: Url)
    requires u.port.Some? && !IsDefaultPort(AsciiLower(u.scheme), u.port.value)
    ensures Rebuild(u) == AsciiLower(u.scheme) + "://" + AsciiLower(u.host.GetOr(""))
                          + ":" + Decimal(u.port.value)
                          + NormalizePath(u.path) + (if u.query.Some? then "?" + u.query.value else "")
  {
  }

  /** `"example.com"` becomes `"https://example.com/"` when the parser
      reads the prefixed string the way the `url` crate does (host
      `example.com`, path `/`, no port or query) and serialises the rebuilt
      string unchanged. */
  lemma ExampleDomain(parse: Parser, alnum: char -> bool)
    requires parse("https://example.com") == Ok(Url("https", Some("example.com"), None, "/", None, "https://example.com/"))
    requires parse("https://example.com/").Ok?
    requires parse("https://example.com/").value.serialization == "https://example.com/"
    ensures NormalizeUrl("example.com", parse, alnum) == Ok("https://example.com/")
  {
    ExampleFacts();
    CandidateExample();
    RebuildExample();
    BareDomainNormalized("example.com", parse, alnum, Url("https", Some("example.com"), None, "/", None, "https://example.com/"));
  }

  /** Trimmed dotted text without a scheme is parsed with `https://` in
      front; an allowed scheme then yields the serialisation of the rebuilt
      string. */
  lemma BareDomainNormalized(t: string, parse: Parser, alnum: char -> bool, u: Url)
    requires t != "" && !StartsWith(t, "about:") && !Contains(t, "://") && Contains(t, ".")
    requires parse(Candidate(t)) == Ok(u)
    requires u.scheme in AllowedSchemes && parse(Rebuild(u)).Ok?
    ensures NormalizeTrimmed(t, parse, alnum) == Ok(parse(Rebuild(u)).value.serialization)
  {
  }

  lemma CandidateExample()
    ensures Candidate("example.com") == "https://example.com"
  {
    ExampleHasNoScheme();
  }

  lemma ExampleFacts()
    ensures Trim("example.com") == "example.com"
    ensures !Contains("example.com", "://") && Contains("example.com", ".")
    ensures !StartsWith("example.com", "about:")
  {
    ExampleTrim();
    ExampleHasNoScheme();
    HasDot();
    ExampleNotAbout();
  }

  lemma ExampleTrim()
    ensures Trim("example.com") == "example.com"
  {
    TrimmedIsFixed("example.com");
  }

  lemma ExampleHasNoScheme()
    ensures !Contains("example.com", "://")
  {
    MissingCharNotContained("example.com", "://", 0);
  }

  lemma ExampleNotAbout()
    ensures !StartsWith("example.com", "about:")
  {
    FirstCharDiffers("example.com", "about:");
  }

  lemma HasDot()
    ensures Contains("example.com", ".")
  {
    assert OccursAt("example.com", ".", 7);
    ContainsIffOccurs("example.com", ".");
  }

  lemma FirstCharDiffers(s: string, prefix: string)
    requires |s| > 0 && |prefix| > 0 && s[0] != prefix[0]
    ensures !StartsWith(s, prefix)
  {
    if |prefix| <= |s| {
      assert s[..|prefix|][0] == s[0];
    }
  }

  lemma RebuildExample()
    ensures Rebuild(Url("https", Some("example.com"), None, "/", None, "https://example.com/")) == "https://example.com/"
  {
    RebuildParts();
    LowerHttps();
    LowerHost();
    SlashPathKept();
    ConcatExample();
  }

  lemma RebuildParts()
    ensures Rebuild(Url("https", Some("example.com"), None, "/", None, "https://example.com/"))
            == AsciiLower("https") + "://" + AsciiLower("example.com") + "" + NormalizePath("/") + ""
  {
  }

  lemma ConcatExample()
    ensures "https" + "://" + "example.com" + "" + "/" + "" == "https://example.com/"
  {
  }

  lemma SlashPathKept()
    ensures NormalizePath("/") == "/"
  {
    assert Utf8Len("/") == 1;
  }

  lemma LowerHttps()
    ensures AsciiLower("https") == "https"
  {
    LowerIsFixed("https");
  }

  lemma LowerHost()
    ensures AsciiLower("example.com") == "example.com"
  {
    LowerIsFixed("example.com");
  }

  /** Text without ASCII capitals is unchanged by lower-casing. */
  lemma LowerIsFixed(s: string)
    requires forall i :: 0 <= i < |s| ==> !('A' <= s[i] <= 'Z')
    ensures AsciiLower(s) == s
  {
  }

  /** `"javascript:alert('xss')"` has no dot and no `://`, so it is refused
      as a search query before any parsing, whatever the parser does. */
  lemma JavascriptInputIsSearch(parse: Parser, alnum: char -> bool)
    ensures NormalizeUrl("javascript:alert('xss')", parse, alnum) == Err(SearchQueryDetected)
  {
    JavascriptFacts();
  }

  lemma JavascriptFacts()
    ensures Trim("javascript:alert('xss')") == "javascript:alert('xss')"
    ensures !Contains("javascript:alert('xss')", "://") && !Contains("javascript:alert('xss')", ".")
    ensures !StartsWith("javascript:alert('xss')", "about:")
  {
    JavascriptTrim();
    JavascriptNoScheme();
    JavascriptNoDot();
    FirstCharDiffers("javascript:alert('xss')", "about:");
  }

  lemma JavascriptTrim()
    ensures Trim("javascript:alert('xss')") == "javascript:alert('xss')"
  {
    TrimmedIsFixed("javascript:alert('xss')");
  }

  lemma JavascriptNoScheme()
    ensures !Contains("javascript:alert('xss')", "://")
  {
    MissingCharNotContained("javascript:alert('xss')", "://", 1);
  }

  lemma JavascriptNoDot()
    ensures !Contains("javascript:alert('xss')", ".")
  {
    MissingCharNotContained("javascript:alert('xss')", ".", 0);
  }

  /** `"test query"` is a search query and `"example.com"` is not, for any
      notion of alphanumeric. */
  lemma ExtractExamples(alnum: char -> bool)
    ensures ExtractSearchQuery("test query", alnum) == Some("test query")
    ensures ExtractSearchQuery("example.com", alnum) == None
  {
    ExtractQueryExample(alnum);
    ExtractDomainExample(alnum);
  }

  lemma ExtractQueryExample(alnum: char -> bool)
    ensures ExtractSearchQuery("test query", alnum) == Some("test query")
  {
    QueryFacts();
  }

  lemma ExtractDomainExample(alnum: char -> bool)
    ensures ExtractSearchQuery("example.com", alnum) == None
  {
    ExampleTrim();
    HasDot();
    MissingCharNotContained("example.com", " ", 0);
    DottedWordIsNoQuery("example.com", alnum);
  }

  /** Trimmed text with a dot and no space is never a search query. */
  lemma DottedWordIsNoQuery(input: string, alnum: char -> bool)
    requires Contains(Trim(input), ".") && !Contains(Trim(input), " ")
    ensures ExtractSearchQuery(input, alnum) == None
  {
  }

  lemma QueryFacts()
    ensures Trim("test query") == "test query"
    ensures !Contains("test query", "://") && !Contains("test query", ".")
    ensures Contains("test query", " ")
  {
    QueryTrim();
    QueryNoScheme();
    QueryNoDot();
    QuerySpace();
  }

  lemma QueryTrim()
    ensures Trim("test query") == "test query"
  {
    TrimmedIsFixed("test query");
  }

  lemma QueryNoScheme()
    ensures !Contains("test query", "://")
  {
    MissingCharNotContained("test query", "://", 0);
  }

  lemma QueryNoDot()
    ensures !Contains("test query", ".")
  {
    MissingCharNotContained("test query", ".", 0);
  }

  lemma QuerySpace()
    ensures Contains("test query", " ")
  {
    assert OccursAt("test query", " ", 4);
    ContainsIffOccurs("test query", " ");
  }

  /** Whenever `normalize_url` reports a search query, `extract_search_query`
      returns the trimmed input. */
  lemma SearchQueriesAgree(input: string, parse: Parser, alnum: char -> bool)
    requires NormalizeUrl(input, parse, alnum) == Err(SearchQueryDetected)
    ensures ExtractSearchQuery(input, alnum) == Some(Trim(input))
  {
  }

  // ---------------------------------------------------------------------
  // Validation

  const DataUrlLimit: nat := 10_000_000

  /** `validate_url`. A data URL is refused only when its path begins with
      `data:` and the rest is over the limit in bytes. */
  function ValidateUrl(url: string, parse: Parser): (r: Result<(), UrlError>)
    ensures parse(url).Err? ==> r.Err?
    ensures parse(url).Ok? && parse(url).value.scheme in {"javascript", "file"} ==> r.Err?
    ensures parse(url).Ok? && parse(url).value.scheme !in AllowedSchemes - {"about"} ==> r.Err?
    ensures parse(url).Ok? && parse(url).value.scheme in {"http", "https"} ==>
              (r.Ok? <==> parse(url).value.host.Some?)
    ensures r.Ok? <==>
              && parse(url).Ok?
              && var u := parse(url).value;
                 || (u.scheme in {"http", "https"} && u.host.Some?)
                 || (u.scheme == "data" && !(StartsWith(u.path, "data:") && Utf8Len(u.path[5..]) > DataUrlLimit))
  {
    match parse(url)
    case Err(_) => Err(ParseFailed(url))
    case Ok(u) =>
      if u.scheme == "javascript" then Err(JavascriptBlocked)
      else if u.scheme == "file" then Err(FileBlocked)
      else if u.scheme == "data" then
        if StartsWith(u.path, "data:") && Utf8Len(u.path[5..]) > DataUrlLimit then Err(DataUrlTooLarge)
        else Ok(())
      else if u.scheme == "http" || u.scheme == "https" then
        if u.host.None? then Err(MissingHost) else Ok(())
      else Err(UnsupportedScheme(u.scheme))
  }
}

=== FILE: urls.dfy ===
/** The fields of a parsed `url::Url` that the modelled code reads. URL
    parsing itself is not modelled: every operation that parses receives
    the parser as a function, so its results hold for whatever the parser
    returns. */
module Urls {
  import opened Wrappers

  /** `scheme()`, `host_str()`, `port()`, `path()`, `query()` and
      `as_str()` of a parsed URL. As in the `url` crate, `port` is absent
      when the URL gives its scheme's default port. */
  datatype Url = Url(
    scheme: string,
    host: Option<string>,
    port: Option<nat>,
    path: string,
    query: Option<string>,
    serialization: string)

  /** `Url::parse`: a URL or a parse error. */
  type Parser = string -> Result<Url, string>
}

=== FILE: vpn.dfy ===
/** `VpnManager`: the providers set up from the configuration, the stored
    credentials per provider and the one active connection. Each call into
    a provider is a parameter holding what the provider would answer. */
module Vpn {
  import opened Wrappers
  import opened VpnSettings

  datatype ProviderType = Surfshark | NordVpn | ProtonVpn

  datatype VpnCredentials = VpnCredentials(username: string, password: string, service: ProviderType)

  /** `ServerLocation` without its floating-point load figure. */
  datatype ServerLocation = ServerLocation(id: string, name: string, country: string, city: string, server: string)

  datatype ConnectionStatus = Connecting | Connected | Disconnected | Failed(message: string)

  datatype VpnConnection = VpnConnection(
    id: string,
    provider: ProviderType,
    location: ServerLocation,
    connectedAt: nat,
    status: ConnectionStatus)

  /** `VpnStats` without the floating-point server load; the duration is in
      seconds. */
  datatype VpnStats = VpnStats(bytesSent: nat, bytesReceived: nat, duration: nat)

  datatype VpnManager = VpnManager(
    config: VpnConfig,
    providers: set<ProviderType>,
    active: Option<VpnConnection>,
    credentials: map<ProviderType, VpnCredentials>)

  datatype VpnError =
    | ProviderUnavailable(provider: ProviderType)
    | NoCredentials(provider: ProviderType)
    | ProviderFailed(message: string)

  /** A manager after a call, with the call's result. */
  datatype Step = Step(result: Result<(), VpnError>, manager: VpnManager)

  /** Whether the configuration switches the provider on. */
  predicate Enabled(config: VpnConfig, p: ProviderType) {
    match p
    case Surfshark => config.enableSurfshark
    case NordVpn => config.enableNordvpn
    case ProtonVpn => config.enableProtonvpn
  }

  /** `VpnManager::new`: exactly the enabled providers, no connection, no
      credentials. */
  function New(config: VpnConfig): (m: VpnManager)
    ensures forall p :: p in m.providers <==> Enabled(config, p)
    ensures m.active.None? && |m.credentials| == 0 && m.config == config
  {
    var s := if config.enableSurfshark then {Surfshark} else {};
    var n := if config.enableNordvpn then {NordVpn} else {};
    var p := if config.enableProtonvpn then {ProtonVpn} else {};
    VpnManager(config, s + n + p, None, map[])
  }

  /** The default configuration sets up all three providers. */
  lemma DefaultHasAllProviders(configDir: Option<string>)
    ensures New(Default(configDir)).providers == {Surfshark, NordVpn, ProtonVpn}
  {
    var ps := New(Default(configDir)).providers;
    forall p: ProviderType ensures p in ps {
      assert Enabled(Default(configDir), p);
    }
  }

  /** `set_credentials`: stored under their own service, replacing earlier
      credentials for it and leaving the other services' alone. */
  function SetCredentials(m: VpnManager, c: VpnCredentials): (r: VpnManager)
    ensures r.credentials.Keys == m.credentials.Keys + {c.service}
    ensures r.credentials[c.service] == c
    ensures forall p :: p in m.credentials && p != c.service ==> r.credentials[p] == m.credentials[p]
    ensures r.(credentials := m.credentials) == m
  {
    m.(credentials := m.credentials[c.service := c])
  }

  /** `disconnect`. With a connection whose provider is set up, the
      provider is told first; if it refuses, the error is returned and the
      connection stays. Otherwise the connection is dropped. Nothing but the
      active connection ever changes. */
  function Disconnect(m: VpnManager, providerAnswer: Result<(), string>): (r: Step)
    ensures r.result.Ok? ==> r.manager.active.None?
    ensures r.result.Err? <==> m.active.Some? && m.active.value.provider in m.providers && providerAnswer.Err?
    ensures r.result.Err? ==> r.manager == m && r.result.error == ProviderFailed(providerAnswer.error)
    ensures r.manager.(active := m.active) == m
  {
    match m.active
    case None => Step(Ok(()), m)
    case Some(conn) =>
      if conn.provider in m.providers && providerAnswer.Err? then Step(Err(ProviderFailed(providerAnswer.error)), m)
      else Step(Ok(()), m.(active := None))
  }

  /** With no connection the provider is never asked and nothing changes. */
  lemma DisconnectIdleIsNoOp(m: VpnManager, a1: Result<(), string>, a2: Result<(), string>)
    requires m.active.None?
    ensures Disconnect(m, a1) == Disconnect(m, a2) == Step(Ok(()), m)
  {
  }

  /** `connect`. Disconnects first, stopping at a refused disconnect; then
      needs the provider to be set up and credentials for it, and finally
      the provider's answer. A successful connect makes the provider's
      connection the active one; any failure after the disconnect leaves
      no active connection. Providers and credentials never change. */
  function Connect(m: VpnManager, provider: ProviderType, location: ServerLocation,
                   disconnectAnswer: Result<(), string>, connectAnswer: Result<VpnConnection, string>): (r: Step)
    ensures Disconnect(m, disconnectAnswer).result.Err? ==> r == Disconnect(m, disconnectAnswer)
    ensures r.result.Ok? <==>
              && Disconnect(m, disconnectAnswer).result.Ok?
              && provider in m.providers && provider in m.credentials
              && connectAnswer.Ok?
    ensures r.result.Ok? ==> r.manager.active == Some(connectAnswer.value)
    ensures Disconnect(m, disconnectAnswer).result.Ok? && r.result.Err? ==> r.manager.active.None?
    ensures Disconnect(m, disconnectAnswer).result.Ok? && provider !in m.providers ==>
              r.result == Err(ProviderUnavailable(provider))
    ensures Disconnect(m, disconnectAnswer).result.Ok? && provider in m.providers && provider !in m.credentials ==>
              r.result == Err(NoCredentials(provider))
    ensures r.manager.(active := m.active) == m
  {
    var d := Disconnect(m, disconnectAnswer);
    if d.result.Err? then d
    else if provider !in m.providers then Step(Err(ProviderUnavailable(provider)), d.manager)
    else if provider !in m.credentials then Step(Err(NoCredentials(provider)), d.manager)
    else
      match connectAnswer
      case Err(e) => Step(Err(ProviderFailed(e)), d.manager)
      case Ok(conn) => Step(Ok(()), d.manager.(active := Some(conn)))
  }

  /** `get_status`: the active connection's status, Disconnected without one. */
  function GetStatus(m: VpnManager): (s: ConnectionStatus)
    ensures m.active.None? ==> s == Disconnected
    ensures m.active.Some? ==> s == m.active.value.status
  {
    match m.active
    case None => Disconnected
    case Some(c) => c.status
  }

  /** `get_stats`: the provider's figures for the active connection; none
      when idle or when the connection's provider is not set up. */
  function GetStats(m: VpnManager, providerAnswer: Result<VpnStats, string>): (r: Result<Option<VpnStats>, VpnError>)
    ensures m.active.None? ==> r == Ok(None)
    ensures m.active.Some? && m.active.value.provider !in m.providers ==> r == Ok(None)
    ensures r.Ok? && r.value.Some? <==> m.active.Some? && m.active.value.provider in m.providers && providerAnswer.Ok?
    ensures r.Ok? && r.value.Some? ==> r.value.value == providerAnswer.value
    ensures r.Err? ==> r.error == ProviderFailed(providerAnswer.error)
  {
    match m.active
    case None => Ok(None)
    case Some(c) =>
      if c.provider !in m.providers then Ok(None)
      else
        match providerAnswer
        case Err(e) => Err(ProviderFailed(e))
        case Ok(s) => Ok(Some(s))
  }

  /** `cleanup`: a disconnect. */
  function Cleanup(m: VpnManager, providerAnswer: Result<(), string>): (r: Step)
    ensures r.result.Ok? ==> r.manager.active.None?
    ensures r.manager.(active := m.active) == m
  {
    Disconnect(m, providerAnswer)
  }

  /** Cleaning up and disconnecting agree, and after either succeeds the
      manager reports Disconnected and no statistics. */
  lemma CleanupIsDisconnect(m: VpnManager, a: Result<(), string>, s: Result<VpnStats, string>)
    ensures Cleanup(m, a) == Disconnect(m, a)
    ensures Cleanup(m, a).result.Ok? ==> GetStatus(Cleanup(m, a).manager) == Disconnected
    ensures Cleanup(m, a).result.Ok? ==> GetStats(Cleanup(m, a).manager, s) == Ok(None)
  {
  }

  /** A successful connect is observable: the status and statistics come
      from the new connection. */
  lemma ConnectThenStatus(m: VpnManager, provider: ProviderType, location: ServerLocation,
                          d: Result<(), string>, conn: VpnConnection, s: VpnStats)
    requires Connect(m, provider, location, d, Ok(conn)).result.Ok?
    ensures var m' := Connect(m, provider, location, d, Ok(conn)).manager;
            GetStatus(m') == conn.status
            && (conn.provider in m.providers ==> GetStats(m', Ok(s)) == Ok(Some(s)))
  {
  }

  /** A fresh manager refuses every connect until credentials are set for
      the provider, and then needs only the provider's consent. */
  lemma CredentialsGateConnect(config: VpnConfig, c: VpnCredentials, location: ServerLocation,
                               d: Result<(), string>, conn: VpnConnection)
    requires Enabled(config, c.service)
    ensures Connect(New(config), c.service, location, d, Ok(conn)).result == Err(NoCredentials(c.service))
    ensures Connect(SetCredentials(New(config), c), c.service, location, d, Ok(conn)).result.Ok?
  {
  }
}

=== FILE: vpn_config.dfy ===
/** `VpnConfig`: which providers the VPN manager sets up, the kill-switch
    and auto-connect switches, and the builder methods that change one
    switch each. Paths are lists of components. */
module VpnSettings {
  import opened Wrappers

  datatype VpnConfig = VpnConfig(
    enableSurfshark: bool,
    enableNordvpn: bool,
    enableProtonvpn: bool,
    killSwitchEnabled: bool,
    autoConnect: bool,
    preferredProvider: Option<string>,
    configPath: seq<string>)

  /** `VpnConfig::default`. `configDir` is the platform's configuration
      directory, when it has one; the file lives at
      `<dir>/crynn/vpn.json`, under the working directory otherwise. */
  function Default(configDir: Option<string>): (c: VpnConfig)
    ensures c.enableSurfshark && c.enableNordvpn && c.enableProtonvpn
    ensures !c.killSwitchEnabled && !c.autoConnect
    ensures c.preferredProvider.None?
    ensures c.configPath == [configDir.GetOr("."), "crynn", "vpn.json"]
  {
    VpnConfig(true, true, true, false, false, None, [configDir.GetOr("."), "crynn", "vpn.json"])
  }

  /** `with_surfshark`: sets that flag; putting the old value back gives the
      original configuration, so nothing else changed. */
  function WithSurfshark(c: VpnConfig, enabled: bool): (r: VpnConfig)
    ensures r.enableSurfshark == enabled
    ensures r.(enableSurfshark := c.enableSurfshark) == c
  {
    c.(enableSurfshark := enabled)
  }

  /** `with_nordvpn`. */
  function WithNordvpn(c: VpnConfig, enabled: bool): (r: VpnConfig)
    ensures r.enableNordvpn == enabled
    ensures r.(enableNordvpn := c.enableNordvpn) == c
  {
    c.(enableNordvpn := enabled)
  }

  /** `with_protonvpn`. */
  function WithProtonvpn(c: VpnConfig, enabled: bool): (r: VpnConfig)
    ensures r.enableProtonvpn == enabled
    ensures r.(enableProtonvpn := c.enableProtonvpn) == c
  {
    c.(enableProtonvpn := enabled)
  }

  /** `with_kill_switch`. */
  function WithKillSwitch(c: VpnConfig, enabled: bool): (r: VpnConfig)
    ensures r.killSwitchEnabled == enabled
    ensures r.(killSwitchEnabled := c.killSwitchEnabled) == c
  {
    c.(killSwitchEnabled := enabled)
  }

  /** Each builder is idempotent, the last call to a builder wins, and
      setting a flag to its current value changes nothing. */
  lemma BuildersLastWins(c: VpnConfig, a: bool, b: bool)
    ensures WithSurfshark(WithSurfshark(c, a), b) == WithSurfshark(c, b)
    ensures WithNordvpn(WithNordvpn(c, a), b) == WithNordvpn(c, b)
    ensures WithProtonvpn(WithProtonvpn(c, a), b) == WithProtonvpn(c, b)
    ensures WithKillSwitch(WithKillSwitch(c, a), b) == WithKillSwitch(c, b)
    ensures WithSurfshark(c, c.enableSurfshark) == c && WithNordvpn(c, c.enableNordvpn) == c
    ensures WithProtonvpn(c, c.enableProtonvpn) == c && WithKillSwitch(c, c.killSwitchEnabled) == c
  {
  }

  /** Builders for different flags commute, so a chain of them can be
      written in any order. */
  lemma BuildersCommute(c: VpnConfig, s: bool, n: bool, p: bool)
    ensures WithSurfshark(WithNordvpn(c, n), s) == WithNordvpn(WithSurfshark(c, s), n)
    ensures WithNordvpn(WithProtonvpn(c, p), n) == WithProtonvpn(WithNordvpn(c, n), p)
  {
  }

  /** The kill-switch builder commutes with the provider builders. */
  lemma KillSwitchCommutes(c: VpnConfig, s: bool, p: bool, k: bool)
    ensures WithProtonvpn(WithKillSwitch(c, k), p) == WithKillSwitch(WithProtonvpn(c, p), k)
    ensures WithSurfshark(WithKillSwitch(c, k), s) == WithKillSwitch(WithSurfshark(c, s), k)
  {
  }
}

=== FILE: wrappers.dfy ===
/** Optional values and success-or-error results, the two shapes every
    operation of the model returns in place of Rust's `Option` and
    `anyhow::Result`. */
module Wrappers {

  datatype Option<+T> = None | Some(value: T) {

    /** The wrapped value, or `default` when there is none. */
    function GetOr(default: T): T {
      match this
      case Some(v) => v
      case None => default
    }
  }

  datatype Result<+T, +E> = Ok(value: T) | Err(error: E)
}
